=== FILE: README.md ===
# libkpeople persons core, modelled in Dafny

This project models the identity-and-merge core of the KDE persons library
(libkpeople): which contacts belong to which person, how a person's combined
record is built from its contacts, how duplicate persons are detected, and
how the persons model arranges persons and contacts into rows. Every part
is specified and proved in Dafny.

Modules, one per source file:

- `PersonStore` (src/personmanager.cpp): the identity store.
  - The SQLite table `persons (contactID UNIQUE, personID INT)` is a sequence of rows in rowid order.
  - The D-Bus signals and the local Qt signal are an event log that only grows.
  - `PersonManager` is a class over both. Its methods are proved against the pure specification functions `Merge` and `Unmerge`, and the lemmas state what those functions do to the contact-to-person mapping `Lookup`.
- `MetaContacts` (src/metacontact.cpp): the meta contact.
  - Its contacts map is a sequence of entries kept sorted by contact id, in QString's UTF-16 code-unit order, as a QMap iterates.
  - `Reload` is the field-merging loop, proved equal to a pure fold. The fold is proved to take the first non-empty single-valued field and the repeat-free union of the multi-valued ones.
- `Duplicates` (src/duplicatesfinder.cpp): the comparison of two value vectors (`matchAt`) and the full and one-person searches.
- `ContactItems` (src/contact-item.cpp): a contact's bag of (role, value) pairs and the role fallbacks of `data()`.
- `PersonItems` (src/persons-model-item.cpp): a person item's reads over its contact rows, and the row-removal loop.
- `ModelTree`: the two-level tree of model rows, the recursive search of src/persons-model.cpp, and the binding-key derivation.
- `PersonsModels` (src/persons-model.cpp, plus the row-editing methods of src/persons-model-item.cpp):
  - the grouping loop of `query`;
  - moving contacts into and out of person items;
  - `removePersonFromModel`.
- `KPeople` (src/global.cpp): the presence-to-icon table and the delegations to the identity store.
- `Values`: the shared types. These are Option, the item-data roles, QVariant as a datatype, model indexes and decimal numerals.

## Model

| member | source | states |
|---|---|---|
| Values.ParseDecimalText | src/personmanager.cpp:161-162 | Reading back the decimal text `QString::number` prints for a person key gives that key. |
| Values.DecimalTextInjective | src/personmanager.cpp:161-162 | Different keys print as different person ids. |
| Values.DecimalText | src/personmanager.cpp:161-162 | `QString::number` of a key is a numeral without leading zeros. |
| Values.TruncateToInt | src/contact-item.cpp:142 | The C++ conversion of a wider integer to `int`: the result fits an int and is the value itself when that fits. |
| Values.TruncateCongruent | src/contact-item.cpp:142 | The converted value differs from the original by a multiple of 2^32, so together with the range it is the unique wrapped value. |
| Values.TextToLongLong | src/contact-item.cpp:142 | `QString::toLongLong`: the result always fits a qlonglong. |
| Values.LongLongDecimal | src/contact-item.cpp:142 | The decimal text of a number reads back as a qlonglong as that number when it fits, and as 0 beyond 2^63-1. |
| Values.LongLongNegative | src/contact-item.cpp:142 | "-" before the decimal text of n reads as a qlonglong as -n when that fits, and as 0 below -2^63. |
| Values.TextToInt | src/contact-item.cpp:142 | `QVariant::toInt` of a string, which Qt computes as `int(QString::toLongLong())`. White space around the text is skipped and an optional sign precedes the digits. The result always fits an int. A numeral within the qlonglong range reads as its value wrapped modulo 2^32 (its own value when it fits an int); a larger one reads as 0. |
| Values.TextToIntDecimal | src/contact-item.cpp:142 | The decimal text of a number reads back as that number wrapped into the int range when it fits a qlonglong, and as 0 beyond 2^63-1. |
| Values.TextToIntNegative | src/contact-item.cpp:142 | "-" before the decimal text of n reads as -n wrapped into the int range when -n fits a qlonglong, and as 0 below -2^63. |
| Values.OneModulo | src/contact-item.cpp:142 | A value one more than a multiple of 2^32 converts to the int 1. |
| Values.TextToIntNeedsDigit | src/contact-item.cpp:142 | Text without a digit reads as 0. |
| Values.TextToIntSpaces | src/contact-item.cpp:142 | A white-space character before or after the text does not change the value read. |
| Values.ToText | src/contact-item.cpp:118-131 | `QVariant::toString`: null reads as "", a string as itself and a url as its text. |
| Values.ToInt | src/contact-item.cpp:142 | `QVariant::toInt`: an int reads as itself, a string as `TextToInt` within the int range, and null, urls and lists as 0. |
| Values.ToList | src/duplicatesfinder.cpp:129-130 | `QVariant::toList`: a list reads as its items, and any value that is neither a list nor a string list as the empty list. |
| Values.RemoveOne | src/persons-model-item.cpp:121-123 | `QList::removeOne` removes exactly one occurrence when there is one (multiset minus one) and changes nothing otherwise. |
| Values.DropAllMultiset | src/persons-model-item.cpp:121-123 | Calling `removeOne` for each value of a list takes exactly those values out of the multiset. |
| Values.DropAllMembers | src/persons-model-item.cpp:121-123 | What is left holds only original values and every value not removed; without repeats, no removed value is left and no repeat appears. |
| Values.DropAllSubsequence | src/persons-model-item.cpp:121-123 | The values left keep their original order. |
| Values.SubsequenceTransitive | src/persons-model-item.cpp:116-148 | Keeping the order of a sequence that keeps the order of another keeps that order too. |
| Values.SubsequenceMultiset | src/persons-model-item.cpp:116-148 | A sequence that keeps another's order holds none of its values more often. |
| Values.NoDuplicatesBelow | src/persons-model-item.cpp:116-148 | A sequence holding no value more often than a repeat-free one has no repeats. |
| Values.NoDuplicatesAppend | src/persons-model-item.cpp:136-146 | Two repeat-free sequences with no value in common join without repeats. |
| Values.ContactKindOf | src/contact-item.cpp:142-148 | A number names a contact type exactly when it is one of the five enumerators. |
| PersonStore.StoredKey | src/personmanager.cpp:201-203 | The personID column stores bound text as an integer exactly when the text is a numeral, and the stored key is well formed. |
| PersonStore.PersonIdRoundTrip | src/personmanager.cpp:120-124 | "kpeople://" plus a stored key is a person id, and stripping the scheme binds back the same key. |
| PersonStore.LookupAbsent | src/personmanager.cpp:117-127 | The contact lookup finds nothing exactly when no row has that contact id. |
| PersonStore.LookupRow | src/personmanager.cpp:117-127 | With unique contact ids, looking up a row's contact gives that row's person key. |
| PersonStore.LookupAppend | src/personmanager.cpp:117-127 | An appended row changes the lookup only for its own contact, and only when that contact was unmapped. |
| PersonStore.ContactsOfMembers | src/personmanager.cpp:104-113 | The contacts selected for a key are exactly the contacts whose lookup gives that key, with no repeats. |
| PersonStore.InsertRowEffect | src/personmanager.cpp:199-204 | INSERT maps the contact to the key only if it was unmapped (the UNIQUE constraint rejects the rest), and the table stays well formed. |
| PersonStore.UpdateRowsEffect | src/personmanager.cpp:175-179 | UPDATE remaps the contact only if it was mapped and leaves every other contact alone. |
| PersonStore.DeleteContactEffect | src/personmanager.cpp:239-242 | DELETE by contact unmaps exactly that contact. |
| PersonStore.DeletePersonEffect | src/personmanager.cpp:222-227 | DELETE by person unmaps exactly the contacts of that person. |
| PersonStore.MaxNumKey | src/personmanager.cpp:141-144 | The maximum is at least every integer key and is one of them, or 0 for none. |
| PersonStore.NextKeyIsFresh | src/personmanager.cpp:141-146 | Without text keys, the maximum plus one is no contact's person. |
| PersonStore.PartitionComplete | src/personmanager.cpp:148-154 | Every id lands in exactly one of the person-id and contact-id lists (multiset union and lengths). |
| PersonStore.SplitIds | src/personmanager.cpp:148-154 | The splitting loop returns those two lists in input order. |
| PersonStore.MergeTarget | src/personmanager.cpp:160-162 | The merge target is always a person id. |
| PersonStore.AbsorbedMembers | src/personmanager.cpp:168-172 | The gathered contacts are exactly those mapped to a listed person other than the target. |
| PersonStore.InsertAllEffect | src/personmanager.cpp:199-213 | The insert loop maps each listed, previously unmapped contact to the key and leaves every other mapping alone. |
| PersonStore.UpdateAllEffect | src/personmanager.cpp:174-194 | The update loop remaps each listed, mapped contact to the key and leaves every other mapping alone. |
| PersonStore.AddedEventsAt | src/personmanager.cpp:207-212 | One ContactAddedToPerson broadcast per contact, in order. |
| PersonStore.MovedEventsAt | src/personmanager.cpp:181-193 | A ContactRemovedFromPerson broadcast, then a ContactAddedToPerson broadcast, per moved contact, in order. |
| PersonStore.RemovedEventsAt | src/personmanager.cpp:229-237 | One ContactRemovedFromPerson broadcast per former member, in order. |
| PersonStore.Merge | src/personmanager.cpp:130-216 | A merge returns "" or a person id, and when it returns "" it writes nothing and sends nothing. |
| PersonStore.Unmerge | src/personmanager.cpp:218-249 | Unmerging only deletes rows: a person id leaves no row of that person, and a contact id leaves no row of that contact. |
| PersonStore.MergeNeedsTwoIds | src/personmanager.cpp:156-158 | With fewer than two ids, a merge returns "", writes nothing and sends nothing. |
| PersonStore.MergeResult | src/personmanager.cpp:141-162 | The result is the first person id given. Without person ids it is "kpeople://" followed by one more than the largest key, which is "kpeople://1" on an empty table; without text keys, no contact maps to it yet. |
| PersonStore.MergeReturnsTarget | src/personmanager.cpp:141-162 | A merge of at least two ids returns the merge target. |
| PersonStore.MergeTargetValue | src/personmanager.cpp:135-163 | Without person ids, the target is "kpeople://" followed by MAX(personID) + 1, and "kpeople://1" on an empty table. |
| PersonStore.MergeAddsContacts | src/personmanager.cpp:199-215 | Unless only person ids are given, every new plain contact id maps to the target and all else is unchanged. One ContactAddedToPerson goes out per contact id, so extra person ids stay unmerged. |
| PersonStore.MergeJoinsPersons | src/personmanager.cpp:166-196 | Given only person ids, every contact of a non-target listed person moves to the first person id. The target's rows and all other rows are unchanged. Each move sends a removed/added pair. |
| PersonStore.UnmergePerson | src/personmanager.cpp:221-237 | Unmerging a person id unmaps exactly its contacts and broadcasts one removal per former member. |
| PersonStore.UnmergeContact | src/personmanager.cpp:238-245 | Unmerging a contact id unmaps only that contact and emits one local signal. |
| PersonStore.MergeThenUnmerge | src/personmanager.cpp:130-249 | Merging two unmapped contacts maps both to the returned person, and unmerging that person restores every mapping. |
| PersonStore.PersonMapMembers | src/personmanager.cpp:85-96 | The person map pairs each person id with exactly the contacts mapped to it, and no person is listed without a contact. |
| PersonStore.PersonManager.constructor | src/personmanager.cpp:65-74 | The store opens over the rows already in the table, with no signals sent. |
| PersonStore.PersonManager.PersonIdForContact | src/personmanager.cpp:117-127 | A mapped contact gives a person id; an unmapped one gives the input unchanged. |
| PersonStore.PersonIdForContactListsContact | src/personmanager.cpp:98-127 | The person returned for a mapped contact lists that contact among its contacts. |
| PersonStore.PersonManager.ContactsForPersonId | src/personmanager.cpp:98-115 | An id without the scheme gives []. Otherwise the result is exactly the person's contacts in row order, without repeats. |
| PersonStore.PersonManager.AllPersons | src/personmanager.cpp:85-96 | The result maps each person id to a non-empty set of its contacts, and every mapped contact appears under its person. |
| PersonStore.PersonManager.MergeContacts | src/personmanager.cpp:130-216 | The id returned, the new table and the signals appended are exactly `Merge` of the old table; earlier signals are kept. |
| PersonStore.PersonManager.GatherContacts | src/personmanager.cpp:168-172 | The loop gathers the contacts of every listed person other than the target. |
| PersonStore.PersonManager.MoveContacts | src/personmanager.cpp:174-194 | The update loop rewrites the table as the UPDATE statements do and appends the moved-contact signals. |
| PersonStore.PersonManager.AddContacts | src/personmanager.cpp:199-213 | The insert loop rewrites the table as the INSERT statements do and appends the added-contact signals. |
| PersonStore.PersonManager.UnmergeContact | src/personmanager.cpp:218-249 | The new table and appended signals are exactly `Unmerge` of the old table, and the result is always true. |
| MetaContacts.InsertAll | src/metacontact.cpp:133-147 | Inserting items gives exactly the old values plus the items, and repeats are never introduced. The old values stay first and in place. |
| MetaContacts.InsertAllSnoc | src/metacontact.cpp:133-147 | Inserting one more item is one more `insert*` call after the earlier ones. |
| MetaContacts.InsertAllAppend | src/metacontact.cpp:131-147 | Inserting one run of items and then another is inserting both runs in order, as the loop over contacts does. |
| MetaContacts.InsertAllOrder | src/metacontact.cpp:133-147 | After the old values, each new value is an item not present before, and the new values come in the order of their first occurrence among the items. |
| MetaContacts.FirstNonEmpty | src/metacontact.cpp:151-184 | The result is "" exactly when every value is empty; otherwise it is the first non-empty value. |
| MetaContacts.FoldSingle | src/metacontact.cpp:129-209 | After the loop, every single-valued field is the first non-empty value among the members, and "" when all are empty. |
| MetaContacts.FoldMulti | src/metacontact.cpp:129-147 | After the loop, every multi-valued field holds exactly the members' values, without repeats. It is the in-order insertion of every member's values, member by member, so each value sits where it first occurs. |
| MetaContacts.ComposeSingle | src/metacontact.cpp:117-209 | For any number of members other than one, each single-valued field is the first non-empty member value. |
| MetaContacts.ComposeMulti | src/metacontact.cpp:117-147 | For any number of members other than one, each multi-valued field is the repeat-free union of the members' fields, ordered by first occurrence: the in-order insertion of the members' values. |
| MetaContacts.SingleShortcutAgrees | src/metacontact.cpp:123-127 | The one-member shortcut gives what the general loop would, for a member with no repeated values. |
| MetaContacts.ComposeIdempotent | src/metacontact.cpp:117-214 | Composing a composite with itself gives the composite back. |
| MetaContacts.PutEffect | src/metacontact.cpp:105-109 | QMap assignment keeps the ids sorted and sets exactly one key of the map. |
| MetaContacts.WithoutEffect | src/metacontact.cpp:111-115 | QMap::remove keeps the ids sorted and drops exactly one key. |
| MetaContacts.Utf16 | src/metacontact.cpp:105-109 | A character below U+10000 is one code unit; any other is a high surrogate then a low surrogate. |
| MetaContacts.Utf16RankOrder | src/metacontact.cpp:105-109 | Ranking characters orders them as their UTF-16 code units do, so contact ids are ordered as QString compares them. |
| MetaContacts.InsertEach | src/metacontact.cpp:133-147 | The insertion loop over one contact's field computes `InsertAll`. |
| MetaContacts.TakeIfUnset | src/metacontact.cpp:151-153 | A set field is never overwritten; an empty one takes the contact's value. |
| MetaContacts.AbsorbStep | src/metacontact.cpp:131-209 | One pass of the loop body folds one contact into the composite. |
| MetaContacts.MetaContact.constructor | src/metacontact.cpp:44-50 | Takes the id and the contacts and builds the composite. |
| MetaContacts.MetaContact.Single | src/metacontact.cpp:52-58 | Stores {contactId: contact} under id contactId; the composite is that contact. |
| MetaContacts.MetaContact.Empty | src/metacontact.cpp:38-42 | No id, no contacts, empty composite. |
| MetaContacts.MetaContact.IsValid | src/metacontact.cpp:85-88 | Valid exactly when the contact map is non-empty. |
| MetaContacts.MetaContact.Contacts | src/metacontact.cpp:95-98 | The values of the map in id order, one per key. |
| MetaContacts.MetaContact.Contact | src/metacontact.cpp:90-93 | Returns the stored contact, or an empty one that the non-const `operator[]` inserts. The composite is not touched. |
| MetaContacts.MetaContact.UpdateContact | src/metacontact.cpp:105-109 | Sets only that id's entry, then rebuilds the composite. |
| MetaContacts.MetaContact.RemoveContact | src/metacontact.cpp:111-115 | Removes only that id, then rebuilds the composite. |
| MetaContacts.MetaContact.Reload | src/metacontact.cpp:117-215 | The composite becomes `Compose` of the contacts in id order; the contacts are unchanged. |
| Duplicates.MatchedRoles | src/duplicatesfinder.cpp:119-153 | A role is reported exactly when its values match. Roles come in compare-role order. |
| Duplicates.MatchedRolesDistinct | src/duplicatesfinder.cpp:119-153 | No role is reported twice. |
| Duplicates.NullValuesNeverMatch | src/duplicatesfinder.cpp:141-146 | Null values match nothing. |
| Duplicates.CompareValues | src/duplicatesfinder.cpp:30-33 | One value per compared role. |
| Duplicates.ValuesForIndex | src/duplicatesfinder.cpp:50-59 | Returns the row's data for FullNames, Nicknames, Emails and Phones, in that order. |
| Duplicates.ContainsAny | src/duplicatesfinder.cpp:133-139 | True exactly when some non-null element of the second list is in the first. |
| Duplicates.MatchAt | src/duplicatesfinder.cpp:119-153 | The comparison loop reports exactly the compared roles whose values match, in compare-role order (`MatchedRoles`). |
| Duplicates.RowMatchesMembers | src/duplicatesfinder.cpp:77-87 | A row is reported against exactly the earlier rows it matches on some role. |
| Duplicates.RowMatches | src/duplicatesfinder.cpp:77-87 | One row's matches point at earlier rows in increasing order and are indexed by that row. |
| Duplicates.SearchStep | src/duplicatesfinder.cpp:70-91 | Each new row's matches are appended after the earlier ones. |
| Duplicates.SearchMatches | src/duplicatesfinder.cpp:62-93 | Every match indexes a row of the model. |
| Duplicates.SearchMatchesMembers | src/duplicatesfinder.cpp:62-93 | The full search reports Match(roles, i, j) exactly for the pairs j < i with a non-empty role set. |
| Duplicates.SearchMatchesOrdered | src/duplicatesfinder.cpp:62-93 | Matches are ordered by i, then by j. |
| Duplicates.SpecificMatchesMembers | src/duplicatesfinder.cpp:95-117 | The target is reported against exactly the rows with another uri that it matches. |
| Duplicates.NullTargetMatchesNothing | src/duplicatesfinder.cpp:99-100 | A target with no data (an invalid index) matches no row. |
| Duplicates.SpecificMatches | src/duplicatesfinder.cpp:95-117 | The matches are indexed by the target and point at rows in increasing order. |
| Duplicates.SpecificSearchSkipsItself | src/duplicatesfinder.cpp:105-107 | A row with the searched uri is never reported. |
| Duplicates.DuplicatesFinder.constructor | src/duplicatesfinder.cpp:26-34 | No uri and no matches. |
| Duplicates.DuplicatesFinder.SetSpecificPerson | src/duplicatesfinder.cpp:36-39 | Sets the uri only. |
| Duplicates.DuplicatesFinder.CompareWithEarlier | src/duplicatesfinder.cpp:77-87 | The inner loop computes the row's matches against the collected rows. |
| Duplicates.DuplicatesFinder.DoSearch | src/duplicatesfinder.cpp:62-93 | Old matches are cleared and replaced by `SearchMatches` of the rows. |
| Duplicates.DuplicatesFinder.DoSpecificSearch | src/duplicatesfinder.cpp:95-117 | Old matches are cleared and replaced by `SpecificMatches` for the target. |
| Duplicates.DuplicatesFinder.Start | src/duplicatesfinder.cpp:41-48 | The full search runs when no uri is set; the one-person search runs otherwise. |
| ContactItems.ValuesOf | src/contact-item.cpp:106-114 | A role's values are exactly the values stored under it. |
| ContactItems.ValuesOfDistinct | src/contact-item.cpp:106-114 | A bag without repeated pairs lists no value twice for a role. |
| ContactItems.Stored | src/contact-item.cpp:106-114 | Null exactly when nothing is stored, the value when one is stored, and the list when several are. |
| ContactItems.StoredWins | src/contact-item.cpp:106-114 | A stored value always wins over the fallbacks. |
| ContactItems.FirstShown | src/contact-item.cpp:117-134 | Finds the first fallback role whose value reads as non-empty text, or reports that there is none. |
| ContactItems.DisplayFallback | src/contact-item.cpp:116-134 | The display name is the first of nick, label, IM, email and phone that is non-empty, else "Unknown person". |
| ContactItems.FixedRoles | src/contact-item.cpp:135-156 | Unless stored: UriRole is the constructor's uri, status is "unknown", ContactsCountRole is 1, and ResourceTypeRole is Contact. |
| ContactItems.ItemData | src/contact-item.cpp:102-158 | The item's data is null only when nothing is stored for the role and the role has no fallback: DisplayRole, UriRole, StatusRole, ContactsCountRole and ResourceTypeRole always have a value. |
| ContactItems.ContactItem.Data | src/contact-item.cpp:102-158 | A stored value is returned as it is, and UriRole falls back to the item's uri. |
| ContactItems.ContactIdByType | src/contact-item.cpp:140-153 | ContactIdRole reads IM, Phone (for Phone and MobilePhone) or Email by contact type; Postal and unknown types give null. |
| ContactItems.NegativeTypeId | src/contact-item.cpp:140-153 | A contact type "-n" selects by -n wrapped into the int range. From -1 down to -2^31 it names no enumerator, so the contact id is null; "-2147483649" wraps to 2^31-1 and gives null too. Below -2^63 the type reads as 0 and the email value is returned. |
| ContactItems.WrappedTypeId | src/contact-item.cpp:140-153 | A contact type written as the numeral n selects by n wrapped into the int range, so "4294967297" selects the IM value. |
| ContactItems.DropRole | src/contact-item.cpp:87-93 | Exactly the pairs of the other roles are kept. |
| ContactItems.DropRoleDistinct | src/contact-item.cpp:87-93 | Dropping a role keeps a bag free of repeated pairs. |
| ContactItems.DropRoleKeepsOthers | src/contact-item.cpp:87-93 | Every other role keeps its values, in order. |
| ContactItems.DropRoleEmpties | src/contact-item.cpp:87-93 | The dropped role has no values left. |
| ContactItems.AddedValueFirst | src/contact-item.cpp:76-85 | An inserted value is listed first among its role's values; other roles are unchanged. |
| ContactItems.Loaded | src/contact-item.cpp:207-222 | The loaded bag holds exactly the non-empty values of the selected, known bindings, without repeats. |
| ContactItems.WrittenRolesOfSelected | src/contact-item.cpp:165-178 | As written, the selected bindings reach only six roles. |
| ContactItems.WrittenLoadMissesAccountTypeAndEmail | src/contact-item.cpp:165-178 | As written, no IM account type and no email is ever loaded. |
| ContactItems.IntendedLoadKeepsAccountTypeAndEmail | src/contact-item.cpp:165-178 | With matching binding names, a bound account type and email are loaded. |
| ContactItems.ContactItem.constructor | src/contact-item.cpp:45-50 | Keeps the uri and starts with an empty bag. |
| ContactItems.ContactItem.AddData | src/contact-item.cpp:76-85 | An existing pair changes nothing. A new pair is appended and announced. |
| ContactItems.ContactItem.RemoveData | src/contact-item.cpp:87-93 | All values of the role are removed; a change is announced only if something was removed. |
| ContactItems.ContactItem.LoadData | src/contact-item.cpp:161-222 | The bag is cleared and refilled from the first result row only; an empty result announces nothing. |
| ContactItems.ContactItem.LoadRow | src/contact-item.cpp:211-220 | The binding loop computes `Loaded`. |
| PersonItems.FirstNonNull | src/persons-model-item.cpp:44-53 | Null exactly when every child is null; otherwise the first non-null child value. |
| PersonItems.NonNullValues | src/persons-model-item.cpp:55-65 | Exactly the non-null child values, one per non-null child. |
| PersonItems.NonNullValuesOne | src/persons-model-item.cpp:59-62 | One child contributes its value when it is non-null, and nothing otherwise. |
| PersonItems.NonNullValuesAppend | src/persons-model-item.cpp:58-63 | The values of two runs of children are the first run's values followed by the second's, so the list is in row order. |
| PersonItems.QueryChildrenForRole | src/persons-model-item.cpp:44-53 | The loop computes `FirstNonNull`. |
| PersonItems.FirstNonNullAt | src/persons-model-item.cpp:44-53 | The first non-null child's value is the one returned. |
| PersonItems.QueryChildrenForRoleList | src/persons-model-item.cpp:55-65 | The loop returns exactly `NonNullValues`: the non-null child values, in row order. |
| PersonItems.PersonName | src/persons-model-item.cpp:70-81 | Name equals Display. That is the display name of the first child that has one, else the contact id of the first child that has one, else "PIMO:Person - uri". |
| PersonItems.PersonData | src/persons-model-item.cpp:67-99 | UriRole is the person's uri, ContactsCountRole the number of children, and every list role a list of non-null values. |
| PersonItems.PersonListsAndCount | src/persons-model-item.cpp:82-96 | A list role holds `NonNullValues` of the children: exactly the non-null child values, in row order. ContactsCountRole is the number of children, the resource type is Person, and UriRole is the uri. |
| PersonItems.KeepMembers | src/persons-model-item.cpp:102-114 | Exactly the children whose uri is not listed are kept. |
| PersonItems.KeepIsSubsequence | src/persons-model-item.cpp:102-114 | The kept children keep their relative order. |
| PersonItems.RemoveStep | src/persons-model-item.cpp:105-112 | Removing row i, or stepping past it, preserves the loop's invariant. |
| PersonItems.RemoveChildren | src/persons-model-item.cpp:102-114 | The removal loop computes `Keep`. |
| ModelTree.ChildMatch | src/persons-model.cpp:277-283 | The first child, from a position on, with the value, or none. |
| ModelTree.FindFrom | src/persons-model.cpp:272-286 | A found index is a valid path from the starting row on. |
| ModelTree.FindFromFirst | src/persons-model.cpp:272-286 | From any top-level row on, the search returns the first match in pre-order, or invalid when there is none. |
| ModelTree.FindRecursively | src/persons-model.cpp:272-286 | A valid result is a path to a row whose data for the role equals the value. |
| ModelTree.IndexForUri | src/persons-model.cpp:288-291 | A valid result is a path to a row with the uri; an invalid one means no row has it. |
| ModelTree.FirstMatchUnique | src/persons-model.cpp:272-286 | A pre-order walk has at most one first match. |
| ModelTree.FindRecursivelyIsFirst | src/persons-model.cpp:272-286 | The search returns the first index in depth-first pre-order whose data equals the value. It returns an invalid index when none does. |
| ModelTree.TopLevelContactRow | src/persons-model-item.cpp:125-132 | The first top-level contact row with the uri, or none. |
| ModelTree.FirstLeafAfterRemoval | src/persons-model-item.cpp:127-131 | Taking out another row keeps a uri's first top-level contact row. |
| ModelTree.AsWrittenTakesWrongRow | src/persons-model-item.cpp:127-131 | As written, a contact found under a person at [1, 0] makes addContacts take top-level row 0, which is a different contact. |
| ModelTree.TopLevelLookupAgrees | src/persons-model-item.cpp:127-131 | When the search lands on a top-level contact row, the corrected lookup takes that same row. |
| ModelTree.TopLevelFirstAt | src/persons-model-item.cpp:127-131 | The first top-level contact row with the uri is the row the lookup finds. |
| ModelTree.AfterLastSlash | src/persons-model.cpp:139 | The text after the last '/', which holds no '/'. |
| ModelTree.Underscored | src/persons-model.cpp:139 | Every '#' is replaced by '_' and every other character is kept. |
| ModelTree.BindingKeyShape | src/persons-model.cpp:136-141 | A binding key holds neither '/' nor '#'. |
| ModelTree.AfterSlash | src/persons-model.cpp:139 | The last segment of base + "/" + local is local. |
| ModelTree.BindingKeyOfTerm | src/persons-model.cpp:136-141 | A property uri's key is its last segment with '#' turned into '_'. |
| PersonsModels.OntologyTerms | src/persons-model.cpp:122-134 | One uri per loaded property. |
| PersonsModels.LocalsWithoutSlash | src/persons-model.cpp:122-134 | No property's local part holds a '/'. |
| PersonsModels.TermKeys | src/persons-model.cpp:122-141 | Each property is read from the binding named by its local part with '#' turned into '_'. |
| PersonsModels.KeysOf | src/persons-model.cpp:136-141 | The keys are exactly the derived keys, each mapped to a uri it is derived from. |
| PersonsModels.InitUriToBinding | src/persons-model.cpp:118-143 | The binding keys are exactly the underscored local parts, each mapped to its property uri. |
| PersonsModels.FirstFor | src/persons-model.cpp:157-186 | The first processed result for a uri, or none. A result is processed unless it is or grounds "nepomuk:/me". |
| PersonsModels.LoadNode | src/persons-model.cpp:188-191 | A contact row gets one property per loaded uri, read from that uri's binding. |
| PersonsModels.Unowned | src/persons-model.cpp:213-216 | Exactly the contacts whose uri grounds no person. |
| PersonsModels.PlacedOnce | src/persons-model.cpp:193-218 | A contact is never both top-level and under a person, nor under two persons, and "me" is absent. |
| PersonsModels.FirstForStep | src/persons-model.cpp:172-186 | One more result changes only the first result of a uri that had none. |
| PersonsModels.GatheredSame | src/persons-model.cpp:172-186 | A repeated or skipped result changes nothing. |
| PersonsModels.GatheredNewContact | src/persons-model.cpp:173-179 | A new uri adds its contact. |
| PersonsModels.GatheredOthers | src/persons-model.cpp:172-186 | The earlier contacts keep their first results. |
| PersonsModels.GatheredNewUnowned | src/persons-model.cpp:193-207 | A new contact grounding no person leaves the persons as they were. |
| PersonsModels.NewMemberFiled | src/persons-model.cpp:203-206 | Every filed contact names its person. |
| PersonsModels.NewMemberFound | src/persons-model.cpp:203-206 | Every contact that names a person is filed under it. |
| PersonsModels.NewPersonListed | src/persons-model.cpp:195-199 | A person seen for the first time is created once. |
| PersonsModels.GatheredNewMember | src/persons-model.cpp:193-207 | A new contact grounding a person is filed under it. |
| PersonsModels.GatheredNewPimo | src/persons-model.cpp:203-206 | A uri is recorded as grounded exactly when it names a person. |
| PersonsModels.GatheredNew | src/persons-model.cpp:172-207 | One new first result updates contacts, persons and grounded uris together. |
| PersonsModels.GatherStep | src/persons-model.cpp:157-208 | One loop pass keeps the gathering invariant. |
| PersonsModels.Gather | src/persons-model.cpp:153-208 | The loop gathers each uri's first processed result, its person and the grounded uris. |
| PersonsModels.Leaves | src/persons-model.cpp:218 | Contacts become top-level rows, one each, in order. |
| PersonsModels.AssembleRows | src/persons-model.cpp:210-218 | The persons come first, then the contacts that ground no person. |
| PersonsModels.AssemblePlaces | src/persons-model.cpp:193-218 | Each contact is under the person its first result names, or at top level when it names none. |
| PersonsModels.AssembleCompletes | src/persons-model.cpp:210-218 | Every processed contact is in the model. |
| PersonsModels.AssembleOnce | src/persons-model.cpp:193-218 | No contact appears twice in the assembled tree, and every person row has at least one contact. |
| PersonsModels.NewMemberOnce | src/persons-model.cpp:193-207 | Filing a new contact under its person keeps every person's contacts non-empty and free of repeats. |
| PersonsModels.PersonsModel.constructor | src/persons-model.cpp:51-54 | The model starts with no rows (`query` asserts an empty model before filling it). |
| PersonsModels.PersonsModel.Query | src/persons-model.cpp:145-223 | Each contact is placed under its person or at top level, and every processed contact is present. No contact appears twice in the tree, no person row is empty, and persons come before contacts. |
| PersonsModels.PersonsModel.CreatePerson | src/persons-model.cpp:293-306 | Appends a person row with no contacts. |
| PersonsModels.PersonsModel.CreateContact | src/persons-model.cpp:308-311 | Appends a top-level contact row. |
| PersonsModels.ContactForIMAccount | src/persons-model.cpp:313-317 | The result is the contact at the first row, in depth-first pre-order, with the IM account: none when that row is a person, and none when no row has the account. A result is always a contact with that account. |
| PersonsModels.FirstMatchAt | src/persons-model.cpp:313-317 | Every first pre-order match is the index the search returns. |
| PersonsModels.MoveFirstChild | src/persons-model.cpp:372-375 | One pass of the loop moves the person's first remaining child to the end of the top level. |
| PersonsModels.DropPersonRow | src/persons-model.cpp:377 | Removing the person row leaves the other rows, then the moved contacts. |
| PersonsModels.PersonsModel.RemovePersonFromModel | src/persons-model.cpp:369-378 | The children become top-level rows in order and the person row is removed, so every contact of the tree is kept. |
| PersonsModels.RemovedPersonKeepsContacts | src/persons-model.cpp:369-378 | The tree's contacts are the same multiset before and after. |
| PersonsModels.ContactsAround | src/persons-model.cpp:369-378 | The tree's contacts are the rows before, the row, then the rows after. |
| PersonsModels.RemoveOneMembers | src/persons-model-item.cpp:121-123 | `removeOne` keeps every other value and, without repeats, removes the value completely. |
| PersonsModels.DropExisting | src/persons-model-item.cpp:118-123 | The result is exactly the `removeOne` fold over the existing child uris: each existing uri cancels one request, and the others remain in order. |
| PersonsModels.TakeTopLevel | src/persons-model-item.cpp:125-132 | The first top-level row of each uri is taken off the top level. The rows left plus the taken rows are the rows before. The rows left keep their order, the person's row is tracked, and the tree's contacts are only redistributed. The taken uris follow the requested order, and for distinct uris the taken rows are exactly the first top-level rows of the uris, one per uri that has one, in order. |
| PersonsModels.TakingDone | src/persons-model-item.cpp:125-132 | The loop invariant gives the final accounting: rows left plus rows taken are the rows before, and the rows left are picked in order. |
| PersonsModels.TakenDone | src/persons-model-item.cpp:125-132 | Every taken contact was a top-level row of a listed uri, in the listed order. With distinct uris, the taken rows are exactly the first top-level rows of the listed uris. |
| PersonsModels.TakenStep | src/persons-model-item.cpp:127-131 | Taking the first top-level row of the next uri keeps the loop's record of what was taken. |
| PersonsModels.TakenFirstStep | src/persons-model-item.cpp:127-131 | For distinct uris, the row taken is the next uri's first row, and every later uri keeps its first row. |
| PersonsModels.AppendTaken | src/persons-model-item.cpp:136-140 | The taken contacts are appended and the uris left are exactly the `removeOne` fold of the taken uris out of those still to create. |
| PersonsModels.DropOneMore | src/persons-model-item.cpp:136-140 | One more pass of the loop removes one more moved uri. |
| PersonsModels.AppendFresh | src/persons-model-item.cpp:143-146 | One new contact row is appended per remaining uri, in order. |
| PersonsModels.FreshRows | src/persons-model-item.cpp:143-146 | One new contact row per uri, in order, each with that uri. |
| PersonsModels.KeepListed | src/persons-model-item.cpp:158-165 | Removing the children that are not listed keeps exactly the listed children, in order. |
| PersonsModels.ChildrenNotListed | src/persons-model-item.cpp:158-164 | Exactly the child uris that are not listed. |
| PersonsModels.AddedRows | src/persons-model-item.cpp:125-132 | Taking rows only loses top-level rows. |
| PersonsModels.AddedContactsAccount | src/persons-model-item.cpp:136-146 | Appending to a person's children adds exactly the appended contacts to the tree's contacts. |
| PersonsModels.ReplacedAgain | src/persons-model-item.cpp:125-148 | The row accounting of an edit carries over once the edited person row is put back. |
| PersonsModels.ChildrenFromUris | src/persons-model-item.cpp:150-174 | Kept children with listed uris, followed by children appended for listed uris, have only listed uris. |
| PersonsModels.AddedChildren | src/persons-model-item.cpp:116-148 | Children are only appended. Every listed uri ends up a child, and each new child is moved from the top level or created. |
| PersonsModels.AddedWithoutRepeats | src/persons-model-item.cpp:116-148 | With distinct uris, no existing child is added again and each top-level row found is moved. |
| PersonsModels.AppendContacts | src/persons-model-item.cpp:134-146 | The children become the old children, the taken rows and new rows for the uris left, and the appended uris are counted once per request (`AddedOnce`). With distinct uris and repeat-free children, the children stay repeat-free. |
| PersonsModels.MovedAndCreated | src/persons-model-item.cpp:116-146 | The moved and the created uris together are the requests less the existing uris, as multisets. The created uris keep the requested order, and with distinct requests no uri is moved or created twice. |
| PersonsModels.AddedOnceHolds | src/persons-model-item.cpp:116-146 | The steps of addContacts append what `AddedOnce` describes. |
| PersonsModels.AddedOnceAfterPersonUpdate | src/persons-model-item.cpp:150-174 | Editing a person row does not change what `AddedOnce` says about the rows. |
| PersonsModels.AddedDistinct | src/persons-model-item.cpp:134-146 | Appending repeat-free new uris, none already a child, to repeat-free children keeps them repeat-free. |
| PersonsModels.ListedDistinct | src/persons-model-item.cpp:158-165 | Keeping the listed children keeps repeat-free uris repeat-free. |
| ModelTree.FirstLeavesAfterPersonUpdate | src/persons-model-item.cpp:127-131 | Editing a person row does not change the first top-level contact row of any uri. |
| PersonsModels.PersonsModel.RemoveContacts | src/persons-model-item.cpp:102-114 | The person's children become `Keep` of them. |
| PersonsModels.PersonsModel.AddContacts | src/persons-model-item.cpp:116-148 | The children become the old children, then the moved top-level rows, then new rows for created uris. A moved row leaves the top level: the other rows plus the moved ones are the rows before, and the other rows keep their order. The tree gains exactly the created contacts. Every listed uri becomes a child. The moved and created uris are, as multisets, the requests less the existing child uris (`AddedOnce`), each in the requested order. With distinct uris, the moved rows are the first top-level rows of the remaining uris, no uri is moved or created twice and no existing child is added again; if the old children were also repeat-free, the new children are too. |
| PersonsModels.PersonsModel.SetContacts | src/persons-model-item.cpp:150-174 | An empty list changes nothing. Otherwise the children become the old children whose uri is listed, unchanged and in order, followed by the moved top-level rows and then the created rows. The child uris are exactly the listed uris, and there is at least one child. Every other top-level row stays in order, except the rows moved under the person: those rows plus the moved ones are the rows before. The moved and created uris are counted as `AddedOnce` states for the kept children. With distinct uris and repeat-free old children, the new children are repeat-free. |
| KPeople.MergeContacts | src/global.cpp:31-34 | Returns exactly what the identity store's merge returns. |
| KPeople.UnmergeContact | src/global.cpp:36-39 | Returns exactly what the identity store's unmerge returns. |
| KPeople.IconForPresenceString | src/global.cpp:41-64 | Gives "user-offline" exactly for unknown names, and "user-busy" exactly for "busy" and "dnd". |
| KPeople.IconsFollowTable | src/global.cpp:43-63 | The chain agrees with the presence table, and everything else is offline. |

## Left out

- SQL text, opening the database file and creating the indexes (src/personmanager.cpp:65-74): the table is a sequence of rows that starts as given.
- `Transaction` is an all-or-nothing step. Statements never fail, so there is no rollback path.
- The D-Bus transport: broadcasts and the local signal are recorded in an event log, without delivery.
- `PersonManager::instance()` (the global singleton): the delegations in `KPeople` take the manager as a parameter.
- SQLite's numeric affinity: only plain digit strings convert to integers.
- `toInt()` of a text maximum reads as 0. The identity store writes only digits into `personID`, so a text key is taken never to be one that `QString::toLongLong` would accept (digits with a sign or surrounding white space).
- The overflow of `int` in `personId++` is not modelled; keys are unbounded.
- The Nepomuk store: the SPARQL text and query execution are not modelled. A query result is a sequence of rows of bindings.
- The asynchronous Nepomuk jobs (`merge`, `unmerge`, `createPersonFromContacts`, `addContactsToPerson`, `removeContactsFromPerson`, `removePerson`, `jobFinished`) are left out. They only start store jobs and change no model state.
- `PersonsModels.PersonsModel.Query`: QHash iteration order is unspecified. The contract therefore fixes no order among persons or among contacts, only that persons come first. The model uses first-seen order.
- The `peopleAdded` signal and the Telepathy delegate set-up at the end of `query` are left out.
- Icons and pixmaps: `refreshIcon` and `initializeTypeIcons` are left out. `iconForPresenceString` returns the icon name instead of loading it.
- Values.TextToInt: only Latin-1 white space is skipped. `QChar::isSpace` also accepts the other Unicode separators (U+2000 to U+200A, U+2028 and so on), and these are not modelled.
- ModelTree.FindRecursively: values compare structurally. QVariant's converting `operator==` (src/persons-model.cpp:274) is not modelled, so a row whose data converts to the searched value without being the same variant is not found here.
- ModelTree.IndexForUri: the uri is searched for as a url variant and compared structurally, so a row that holds its uri as text is not found here, while QVariant's `operator==` would convert and match it.
- PersonsModels.ContactForIMAccount: the account is compared as a url variant, structurally. An IM account stored as text is not matched here, although QVariant's `operator==` compares a string with a url by converting.
- Duplicates.RoleMatches: values compare structurally. QVariant's converting `operator==` is not modelled. For example, an int against the text of its digits, or a null string against an empty one, compare equal in Qt but not here.
- `MetaContacts.InsertAll`: KABC's `insert*` de-duplication is assumed to skip a value equal to one already present. KABC is not part of this model.
- The meta contact's copy constructor, assignment and destructor (shared data handling) are left out.
- PersonsModelContactItem (the contact rows of the tree) is not part of this model.
  - A contact row is its uri, its loaded properties and an opaque map of role data.
  - A newly created row has no data.
- PersonsModel::ContactType's numbering is assumed to be Email, IM, Phone, MobilePhone, Postal, counted from 0.
- `QStandardItem::data` for the roles a contact or person item does not answer itself is modelled as null.
- The model tree is two levels deep: top-level persons and contacts, and contacts under persons.
- `DuplicatesFinder::start` invokes the search through a queued call. The model runs it directly.
- Duplicates.DuplicatesFinder.DoSpecificSearch takes the searched row's index and data as parameters instead of calling `indexForUri` on the model.
- `DuplicatesFinder::results` is the `matches` field, read directly.
- Data-changed notifications of person items and model signals are not modelled. The contact item counts its own notifications.
- ContactItems.ContactItem.LoadData loads with the corrected binding names (see Findings). The as-written map is kept in `WrittenRoleMap`.
- PersonsModels.PersonsModel.AddContacts takes rows with the corrected top-level lookup (see Findings).
  - The no-repeat part of its contract holds for lists without repeated uris, which is also all the source guarantees.
  - A contact found under another person is not taken from that person.

## Findings

| source | as written | input that shows it | evidently intended | confidence | as-written member | corrected member |
|---|---|---|---|---|---|---|
| src/contact-item.cpp:165-178 | The role map keys the account type as "nco_imImAcountType", while the query binds "nco_imAccountType". The email role's key "nco_emailAddress" is never selected. | Any result row in which nco_imAccountType and nco_emailAddress are bound | The IM account type and the email address are loaded into the contact's data | not executed | ContactItems.WrittenLoadMissesAccountTypeAndEmail | ContactItems.IntendedLoadKeepsAccountTypeAndEmail |
| src/persons-model-item.cpp:127-131 | addContacts calls `takeRow(contactIndex.row())` on the model. For an index under a person, that row number is the child's position, so a top-level row is taken. | Top level [contact "a", person "p" with child "b"]; adding "b" finds [1, 0] and takes top-level row 0, contact "a" | Take the top-level contact row of the requested uri, and only that row | not executed | ModelTree.AsWrittenTakesWrongRow | ModelTree.TopLevelLookupAgrees |

=== FILE: contact_item.dfy ===
/**
 * One contact of a person: a bag of (role, text) pairs read through item
 * roles, with fixed fallbacks for the roles the bag does not hold.
 */
module ContactItems {
  import opened Values

  datatype Pair = Pair(role: Role, value: string)

  /** The values stored for `role`, most recently inserted first, as QMultiHash::values(key) lists them. */
  function ValuesOf(data: seq<Pair>, role: Role): (values: seq<string>)
    ensures forall v :: v in values <==> Pair(role, v) in data
  {
    if data == [] then []
    else
      var init, last := data[..|data| - 1], data[|data| - 1];
      assert forall p :: p in data <==> p in init || p == last;
      var rest := ValuesOf(init, role);
      if last.role == role then [last.value] + rest else rest
  }

  /** A bag without repeated pairs lists no value twice for a role. */
  lemma {:induction false} ValuesOfDistinct(data: seq<Pair>, role: Role)
    requires NoDuplicates(data)
    ensures NoDuplicates(ValuesOf(data, role))
  {
    if data != [] {
      var init, last := data[..|data| - 1], data[|data| - 1];
      assert NoDuplicates(init) by {
        assert forall i :: 0 <= i < |init| ==> init[i] == data[i];
      }
      ValuesOfDistinct(init, role);
      if last.role == role {
        assert last !in init;
        assert NoDuplicates([last.value] + ValuesOf(init, role)) by {
          var r := [last.value] + ValuesOf(init, role);
          forall i, j | 0 <= i < j < |r|
            ensures r[i] != r[j]
          {
            if i == 0 {
              assert r[j] in ValuesOf(init, role);
            } else {
              assert r[i] == ValuesOf(init, role)[i - 1] && r[j] == ValuesOf(init, role)[j - 1];
            }
          }
        }
      }
    }
  }

  /** What the bag itself answers for `role`: nothing, the single value, or the list of values. */
  function Stored(data: seq<Pair>, role: Role): (v: Variant)
    ensures v.Null? <==> forall s :: Pair(role, s) !in data
    ensures v.Str? ==> ValuesOf(data, role) == [v.s]
    ensures v.StrList? ==> |v.strings| > 1 && v.strings == ValuesOf(data, role)
    ensures v.Null? || v.Str? || v.StrList?
  {
    var values := ValuesOf(data, role);
    if |values| > 1 then
      assert Pair(role, values[0]) in data;
      StrList(values)
    else if |values| == 1 then
      assert Pair(role, values[0]) in data;
      Str(values[0])
    else Null
  }

  /** The display-name fallback order. */
  const DisplayOrder: seq<Role> := [Nick, Label, IM, Email, Phone]

  /** The position of the first role, from `from` on, whose stored value reads as non-empty text. */
  function FirstShown(data: seq<Pair>, roles: seq<Role>, from: nat): (k: Option<nat>)
    ensures k.None? ==> forall i :: from <= i < |roles| ==> ToText(Stored(data, roles[i])) == ""
    ensures k.Some? ==> (from <= k.value < |roles| && ToText(Stored(data, roles[k.value])) != "" &&
      forall j :: from <= j < k.value ==> ToText(Stored(data, roles[j])) == "")
    decreases |roles| - from
  {
    if from >= |roles| then None
    else if ToText(Stored(data, roles[from])) != "" then Some(from)
    else FirstShown(data, roles, from + 1)
  }

  /** The role whose value stands for the contact id, chosen by the contact type. */
  function ContactIdSource(kind: Option<ContactKind>): Option<Role>
  {
    match kind
    case Some(IMContact) => Some(IM)
    case Some(PhoneContact) => Some(Phone)
    case Some(EmailContact) => Some(Email)
    case Some(MobilePhoneContact) => Some(Phone)
    case _ => None
  }

  /** The item's data for `role`, given its uri and its bag. */
  function ItemData(uri: string, data: seq<Pair>, role: Role): (d: Variant)
    ensures d.Null? ==> (Stored(data, role).Null? &&
      role != Display && role != Uri && role != Status && role != ContactsCount && role != ResourceType)
  {
    var stored := Stored(data, role);
    if !stored.Null? then stored
    else
      match role
      case Display => ShownName(data)
      case Uri => Url(uri)
      case Status => Str("unknown")
      case ContactsCount => Int(1)
      case ContactId => IdByType(data)
      case ResourceType => Resource(ContactResource)
      case _ => Null
  }

  /** The display name when none is stored: the first shown fallback role's value, else "Unknown person". */
  function ShownName(data: seq<Pair>): Variant
  {
    var shown := FirstShown(data, DisplayOrder, 0);
    if shown.Some? then Stored(data, DisplayOrder[shown.value]) else Str("Unknown person")
  }

  /** The contact id when none is stored: the value of the role the contact type selects. */
  function IdByType(data: seq<Pair>): Variant
  {
    IdByKind(data, ContactKindOf(ToInt(Stored(data, ContactType))))
  }

  /** The value of the role a contact type selects, or null when it selects none. */
  function IdByKind(data: seq<Pair>, kind: Option<ContactKind>): Variant
  {
    var source := ContactIdSource(kind);
    if source.Some? then Stored(data, source.value) else Null
  }

  /** A stored value always wins: one value is returned as it is, several as the list of them. */
  lemma StoredWins(uri: string, data: seq<Pair>, role: Role, v: string)
    requires Pair(role, v) in data
    ensures ItemData(uri, data, role) == Stored(data, role)
    ensures ValuesOf(data, role) == [v] ==> ItemData(uri, data, role) == Str(v)
    ensures |ValuesOf(data, role)| > 1 ==> ItemData(uri, data, role) == StrList(ValuesOf(data, role))
  {
  }

  /**
   * With no display value stored, the display name is the first of nick,
   * label, IM, email and phone that reads as non-empty text, and
   * "Unknown person" when none does.
   */
  lemma DisplayFallback(uri: string, data: seq<Pair>)
    requires forall s :: Pair(Display, s) !in data
    ensures var d := ItemData(uri, data, Display);
      (exists k :: 0 <= k < |DisplayOrder| && d == Stored(data, DisplayOrder[k]) && ToText(d) != "" &&
        forall j :: 0 <= j < k ==> ToText(Stored(data, DisplayOrder[j])) == "") ||
      (d == Str("Unknown person") && forall i :: 0 <= i < |DisplayOrder| ==> ToText(Stored(data, DisplayOrder[i])) == "")
  {
    var shown := FirstShown(data, DisplayOrder, 0);
    NothingStored(data, Display);
    assert ItemData(uri, data, Display) == ShownName(data);
  }

  /** The fixed answers: the constructor's uri, status "unknown", one contact, and the contact resource type. */
  lemma FixedRoles(uri: string, data: seq<Pair>)
    ensures (forall s :: Pair(Uri, s) !in data) ==> ItemData(uri, data, Uri) == Url(uri)
    ensures (forall s :: Pair(Status, s) !in data) ==> ItemData(uri, data, Status) == Str("unknown")
    ensures (forall s :: Pair(ContactsCount, s) !in data) ==> ItemData(uri, data, ContactsCount) == Int(1)
    ensures (forall s :: Pair(ResourceType, s) !in data) ==>
      ItemData(uri, data, ResourceType) == Resource(ContactResource)
  {
    NothingStored(data, Uri);
    NothingStored(data, Status);
    NothingStored(data, ContactsCount);
    NothingStored(data, ResourceType);
  }

  lemma NothingStored(data: seq<Pair>, role: Role)
    ensures (forall s :: Pair(role, s) !in data) ==> Stored(data, role) == Null
  {
  }

  /** With no contact id stored, the contact id is the IM, phone or email value the contact type selects. */
  lemma ContactIdByType(uri: string, data: seq<Pair>)
    requires forall s :: Pair(ContactId, s) !in data
    ensures var kind := ContactKindOf(ToInt(Stored(data, ContactType)));
      var d := ItemData(uri, data, ContactId);
      (kind == Some(IMContact) ==> d == Stored(data, IM)) &&
      (kind == Some(PhoneContact) || kind == Some(MobilePhoneContact) ==> d == Stored(data, Phone)) &&
      (kind == Some(EmailContact) ==> d == Stored(data, Email)) &&
      (kind == Some(PostalContact) || kind.None? ==> d == Null)
  {
    IdWhenNoneStored(uri, data);
    SourceByKind(data, ContactKindOf(ToInt(Stored(data, ContactType))), ItemData(uri, data, ContactId));
  }

  /** With no contact id stored, the contact id is the one the contact type selects. */
  lemma IdWhenNoneStored(uri: string, data: seq<Pair>)
    requires forall s :: Pair(ContactId, s) !in data
    ensures ItemData(uri, data, ContactId) == IdByType(data)
  {
    NothingStored(data, ContactId);
  }

  /** The value the contact type selects, kind by kind. */
  lemma SourceByKind(data: seq<Pair>, kind: Option<ContactKind>, d: Variant)
    requires d == IdByKind(data, kind)
    ensures (kind == Some(IMContact) ==> d == Stored(data, IM)) &&
      (kind == Some(PhoneContact) || kind == Some(MobilePhoneContact) ==> d == Stored(data, Phone)) &&
      (kind == Some(EmailContact) ==> d == Stored(data, Email)) &&
      (kind == Some(PostalContact) || kind.None? ==> d == Null)
  {
  }

  /**
   * A contact type written as "-n" reads as -n wrapped into the int range:
   * from -1 down to IntMin it names no enumerator, so the contact id is null,
   * and "-2147483649" wraps to IntMax, which names none either; past LongMin it reads as 0 and so selects the email value.
   */
  lemma NegativeTypeId(uri: string, data: seq<Pair>, n: nat)
    requires forall s :: Pair(ContactId, s) !in data
    requires Stored(data, ContactType) == Str("-" + DecimalText(n)) && n > 0
    ensures -(n as int) >= LongMin ==>
      ItemData(uri, data, ContactId) == IdByKind(data, ContactKindOf(TruncateToInt(-(n as int))))
    ensures n <= -IntMin ==> ItemData(uri, data, ContactId) == Null
    ensures n == 0x8000_0001 ==> ItemData(uri, data, ContactId) == Null
    ensures -(n as int) < LongMin ==> ItemData(uri, data, ContactId) == Stored(data, Email)
  {
    IdWhenNoneStored(uri, data);
    TextToIntNegative(n);
    if n == 0x8000_0001 {
      BelowIntMin();
    }
  }

  /**
   * A contact type written as the numeral n reads as n wrapped into the int
   * range, so a numeral one more than a multiple of 2^32 selects the IM value.
   */
  lemma WrappedTypeId(uri: string, data: seq<Pair>, n: nat)
    requires forall s :: Pair(ContactId, s) !in data
    requires Stored(data, ContactType) == Str(DecimalText(n)) && n <= LongMax
    ensures ItemData(uri, data, ContactId) == IdByKind(data, ContactKindOf(TruncateToInt(n)))
    ensures n % 0x1_0000_0000 == 1 ==> ItemData(uri, data, ContactId) == Stored(data, IM)
  {
    IdWhenNoneStored(uri, data);
    TextToIntDecimal(n);
    if n % 0x1_0000_0000 == 1 {
      OneModulo(n);
    }
  }

  /** The bag without the pairs of one role, order kept. */
  function DropRole(data: seq<Pair>, role: Role): (r: seq<Pair>)
    ensures forall p :: p in r <==> p in data && p.role != role
    ensures |r| <= |data|
  {
    if data == [] then []
    else
      var init, last := data[..|data| - 1], data[|data| - 1];
      var rest := DropRole(init, role);
      assert forall p :: p in data <==> p in init || p == last;
      if last.role == role then rest else rest + [last]
  }

  /** Dropping a role from a bag without repeated pairs leaves one without repeated pairs. */
  lemma {:induction false} DropRoleDistinct(data: seq<Pair>, role: Role)
    requires NoDuplicates(data)
    ensures NoDuplicates(DropRole(data, role))
  {
    if data != [] {
      var init, last := data[..|data| - 1], data[|data| - 1];
      assert NoDuplicates(init) by {
        assert forall i :: 0 <= i < |init| ==> init[i] == data[i];
      }
      DropRoleDistinct(init, role);
      if last.role != role {
        var rest := DropRole(init, role);
        assert last !in rest;
        assert NoDuplicates(rest + [last]) by {
          var r := rest + [last];
          forall i, j | 0 <= i < j < |r|
            ensures r[i] != r[j]
          {
            if j == |rest| {
              assert r[i] in rest;
            } else {
              assert r[i] == rest[i] && r[j] == rest[j];
            }
          }
        }
      }
    }
  }

  /** Dropping a role leaves the values of every other role as they were, in the same order. */
  lemma {:induction false} DropRoleKeepsOthers(data: seq<Pair>, role: Role, other: Role)
    requires other != role
    ensures ValuesOf(DropRole(data, role), other) == ValuesOf(data, other)
  {
    if data != [] {
      var init, last := data[..|data| - 1], data[|data| - 1];
      DropRoleKeepsOthers(init, role, other);
      var rest := DropRole(init, role);
      ValuesOfLast(data, other);
      DropRoleLast(data, role);
      if last.role != role {
        AddedValueFirst(rest, last, other);
      }
    }
  }

  /** One step of ValuesOf: the last pair's value comes first when it has the role. */
  lemma ValuesOfLast(data: seq<Pair>, role: Role)
    requires data != []
    ensures var init, last := data[..|data| - 1], data[|data| - 1];
      ValuesOf(data, role) == if last.role == role then [last.value] + ValuesOf(init, role) else ValuesOf(init, role)
  {
  }

  /** One step of DropRole: the last pair stays unless it has the dropped role. */
  lemma DropRoleLast(data: seq<Pair>, role: Role)
    requires data != []
    ensures var init, last := data[..|data| - 1], data[|data| - 1];
      DropRole(data, role) == if last.role == role then DropRole(init, role) else DropRole(init, role) + [last]
  {
  }

  /** Dropping a role leaves it no values. */
  lemma DropRoleEmpties(data: seq<Pair>, role: Role)
    ensures ValuesOf(DropRole(data, role), role) == []
  {
  }

  /** Adding a pair puts its value first among its role's values and leaves other roles alone. */
  lemma AddedValueFirst(data: seq<Pair>, p: Pair, other: Role)
    ensures ValuesOf(data + [p], p.role) == [p.value] + ValuesOf(data, p.role)
    ensures other != p.role ==> ValuesOf(data + [p], other) == ValuesOf(data, other)
  {
    assert (data + [p])[..|data|] == data;
  }

  // ---------------------------------------------------------------------
  // Loading from a query result
  // ---------------------------------------------------------------------

  /** The variables the query selects, in the order the result lists its bindings. */
  const SelectedBindings: seq<string> := [
    "nco_hasIMAccount", "nco_imNickname", "nco_imID", "nco_imAccountType", "nco_hasEmailAddress",
    "nie_url", "nao_prefLabel", "nco_contactGroupName"]

  /** Binding names to roles, as written: the account-type key is misspelt. */
  const WrittenRoleMap: map<string, Role> := map[
    "nco_imNickname" := Nick, "nao_prefLabel" := Label, "nco_imID" := IM,
    "nco_imImAcountType" := IMAccountType, "nco_hasIMAccount" := IMAccountUri,
    "nco_contactGroupName" := ContactGroups, "nie_url" := Photo, "nco_emailAddress" := Email]

  /** The selected variables with the email address itself selected as well. */
  const IntendedBindings: seq<string> := [
    "nco_hasIMAccount", "nco_imNickname", "nco_imID", "nco_imAccountType", "nco_hasEmailAddress",
    "nco_emailAddress", "nie_url", "nao_prefLabel", "nco_contactGroupName"]

  /** Binding names to roles, with the account-type key spelt as the query's variable. */
  const IntendedRoleMap: map<string, Role> := map[
    "nco_imNickname" := Nick, "nao_prefLabel" := Label, "nco_imID" := IM,
    "nco_imAccountType" := IMAccountType, "nco_hasIMAccount" := IMAccountUri,
    "nco_contactGroupName" := ContactGroups, "nie_url" := Photo, "nco_emailAddress" := Email]

  /** A binding's text in a result row; an unbound variable reads as empty. */
  function BindingText(row: map<string, string>, name: string): string
  {
    if name in row then row[name] else ""
  }

  /** The bag loading one result row builds from an empty bag. */
  function Loaded(names: seq<string>, roleMap: map<string, Role>, row: map<string, string>): (r: seq<Pair>)
    ensures NoDuplicates(r)
    ensures forall p :: p in r <==>
      p.value != "" && exists n :: n in names && n in roleMap && roleMap[n] == p.role && BindingText(row, n) == p.value
  {
    if names == [] then []
    else
      var init, name := names[..|names| - 1], names[|names| - 1];
      var acc := Loaded(init, roleMap, row);
      assert forall n :: n in names <==> n in init || n == name;
      if name !in roleMap then acc
      else
        var p := Pair(roleMap[name], BindingText(row, name));
        if p.value != "" && p !in acc then acc + [p] else acc
  }

  /** The roles the as-written map gives the selected bindings. */
  lemma WrittenRolesOfSelected()
    ensures forall n :: n in SelectedBindings && n in WrittenRoleMap ==>
      WrittenRoleMap[n] in {IMAccountUri, Nick, IM, Photo, Label, ContactGroups}
  {
    forall n | n in SelectedBindings && n in WrittenRoleMap
      ensures WrittenRoleMap[n] in {IMAccountUri, Nick, IM, Photo, Label, ContactGroups}
    {
      var i :| 0 <= i < |SelectedBindings| && SelectedBindings[i] == n;
      assert |n| != |"nco_imImAcountType"|;
    }
  }

  /** As written, loading never fills the IM account type or the email role, whatever the row holds. */
  lemma WrittenLoadMissesAccountTypeAndEmail(row: map<string, string>)
    ensures forall p :: p in Loaded(SelectedBindings, WrittenRoleMap, row) ==> p.role != IMAccountType && p.role != Email
  {
    WrittenRolesOfSelected();
  }

  /** With the binding names matched up, a bound account type and email address are loaded. */
  lemma IntendedLoadKeepsAccountTypeAndEmail(row: map<string, string>)
    ensures BindingText(row, "nco_imAccountType") != "" ==>
      Pair(IMAccountType, row["nco_imAccountType"]) in Loaded(IntendedBindings, IntendedRoleMap, row)
    ensures BindingText(row, "nco_emailAddress") != "" ==>
      Pair(Email, row["nco_emailAddress"]) in Loaded(IntendedBindings, IntendedRoleMap, row)
  {
    assert IntendedBindings[3] == "nco_imAccountType" && IntendedBindings[5] == "nco_emailAddress";
    assert IntendedRoleMap["nco_imAccountType"] == IMAccountType;
    assert IntendedRoleMap["nco_emailAddress"] == Email;
  }

  // ---------------------------------------------------------------------
  // The item
  // ---------------------------------------------------------------------

  class ContactItem {
    const uri: string
    /** The (role, value) pairs in insertion order. */
    var data: seq<Pair>
    /** How many data-changed notifications the item has sent. */
    var notifications: nat

    ghost predicate Valid()
      reads this
    {
      NoDuplicates(data)
    }

    constructor (itemUri: string)
      ensures Valid() && uri == itemUri && data == [] && notifications == 0
    {
      uri := itemUri;
      data := [];
      notifications := 0;
    }

    /** The item's data for a role. */
    function Data(role: Role): (d: Variant)
      reads this
      ensures !Stored(data, role).Null? ==> d == Stored(data, role)
      ensures role == Uri && Stored(data, Uri).Null? ==> d == Url(uri)
    {
      ItemData(uri, data, role)
    }

    /** Stores a pair unless it is already there; only a stored pair is announced. */
    method AddData(role: Role, value: string)
      requires Valid()
      modifies this
      ensures Valid()
      ensures Pair(role, value) in old(data) ==> data == old(data) && notifications == old(notifications)
      ensures Pair(role, value) !in old(data) ==>
        data == old(data) + [Pair(role, value)] && notifications == old(notifications) + 1
    {
      var p := Pair(role, value);
      if p !in data {
        data := data + [p];
        notifications := notifications + 1;
      }
    }

    /** Removes every value of a role; the removal is announced only if there was one. */
    method RemoveData(role: Role)
      requires Valid()
      modifies this
      ensures Valid()
      ensures data == DropRole(old(data), role)
      ensures notifications == if |data| < |old(data)| then old(notifications) + 1 else old(notifications)
    {
      var kept := DropRole(data, role);
      DropRoleDistinct(data, role);
      var removed := |data| - |kept|;
      data := kept;
      if removed > 0 {
        notifications := notifications + 1;
      }
    }

    /**
     * Rebuilds the bag from the first row of a query result: each selected
     * binding the role map knows adds its value, unless the value is empty
     * or the pair is already there. No row clears the bag and announces nothing.
     */
    method LoadData(results: seq<map<string, string>>)
      modifies this
      ensures Valid()
      ensures results == [] ==> data == [] && notifications == old(notifications)
      ensures results != [] ==>
        data == Loaded(IntendedBindings, IntendedRoleMap, results[0]) && notifications == old(notifications) + 1
    {
      data := [];
      if |results| > 0 {
        data := LoadRow(IntendedBindings, IntendedRoleMap, results[0]);
        notifications := notifications + 1;
      }
    }

    /** Walks the selected bindings in order, adding each known, non-empty, not yet present pair. */
    static method LoadRow(names: seq<string>, roleMap: map<string, Role>, row: map<string, string>) returns (bag: seq<Pair>)
      ensures bag == Loaded(names, roleMap, row)
    {
      bag := [];
      var i := 0;
      while i < |names|
        invariant 0 <= i <= |names|
        invariant bag == Loaded(names[..i], roleMap, row)
      {
        assert names[..i + 1][..i] == names[..i];
        var name := names[i];
        if name in roleMap {
          var role := roleMap[name];
          var value := BindingText(row, name);
          if value != "" && Pair(role, value) !in bag {
            bag := bag + [Pair(role, value)];
          }
        }
        i := i + 1;
      }
      assert names[..i] == names;
    }
  }
}

=== FILE: duplicates.dfy ===
/**
 * Duplicate detection over the rows of the persons model: two rows are
 * reported when at least one of the compared roles (full names, nicknames,
 * emails, phones) matches.
 */
module Duplicates {
  import opened Values

  /** The data a model row answers, role by role; a role it has no data for reads as null. */
  type RowData = map<Role, Variant>

  function DataOf(row: RowData, role: Role): Variant
  {
    if role in row then row[role] else Null
  }

  /** The roles compared, in order. */
  const CompareRoles: seq<Role> := [FullNames, Nicknames, Emails, Phones]

  /** The position of a role among the compared roles; other roles come after them. */
  function Rank(role: Role): nat
  {
    match role
    case FullNames => 0
    case Nicknames => 1
    case Emails => 2
    case Phones => 3
    case _ => 4
  }

  /** A reported pair: the roles that matched, the row searched from and the row it matched. */
  datatype Match = Match(roles: seq<Role>, index: Index, other: Index)

  /** The top-level row an index points at, or -1 for an invalid index. */
  function RowOf(index: Index): int
  {
    if index.At? && |index.path| > 0 then index.path[0] else -1
  }

  /**
   * Whether one compared value matches the other. A list matches when both
   * sides are non-empty lists and some non-null element of the other side
   * is in it; anything else matches when it is non-null, equal to the
   * other and not the empty string.
   */
  predicate RoleMatches(v: Variant, w: Variant)
  {
    if v.List? then
      v.items != [] && ToList(w) != [] && exists e :: e in ToList(w) && !e.Null? && e in v.items
    else
      !v.Null? && v == w && !(v.Str? && v.s == "")
  }

  /** The compared roles at which `value` matches `toCompare`, in compare-role order. */
  function MatchedRoles(value: seq<Variant>, toCompare: seq<Variant>): (roles: seq<Role>)
    requires |value| == |toCompare| <= |CompareRoles|
    ensures forall r :: r in roles <==>
      exists i :: 0 <= i < |toCompare| && CompareRoles[i] == r && RoleMatches(value[i], toCompare[i])
    ensures forall a, b :: 0 <= a < b < |roles| ==> Rank(roles[a]) < Rank(roles[b])
    ensures forall a :: 0 <= a < |roles| ==> Rank(roles[a]) < |toCompare|
  {
    var n := |toCompare|;
    if n == 0 then []
    else
      var rest := MatchedRoles(value[..n - 1], toCompare[..n - 1]);
      assert forall i :: 0 <= i < n - 1 ==> value[..n - 1][i] == value[i] && toCompare[..n - 1][i] == toCompare[i];
      assert Rank(CompareRoles[n - 1]) == n - 1;
      if RoleMatches(value[n - 1], toCompare[n - 1]) then rest + [CompareRoles[n - 1]] else rest
  }

  /** Ordered by rank, the matched roles never repeat. */
  lemma MatchedRolesDistinct(value: seq<Variant>, toCompare: seq<Variant>)
    requires |value| == |toCompare| <= |CompareRoles|
    ensures NoDuplicates(MatchedRoles(value, toCompare))
  {
    var roles := MatchedRoles(value, toCompare);
    forall a, b | 0 <= a < b < |roles|
      ensures roles[a] != roles[b]
    {
      assert Rank(roles[a]) < Rank(roles[b]);
    }
  }

  /** A vector of nulls matches nothing. */
  lemma NullValuesNeverMatch(value: seq<Variant>, toCompare: seq<Variant>)
    requires |value| == |toCompare| <= |CompareRoles|
    requires forall i :: 0 <= i < |value| ==> value[i].Null?
    ensures MatchedRoles(value, toCompare) == []
  {
  }

  /** The compared values of a row, one per compared role. */
  function CompareValues(row: RowData): (values: seq<Variant>)
    ensures |values| == |CompareRoles|
  {
    seq(|CompareRoles|, i requires 0 <= i < |CompareRoles| => DataOf(row, CompareRoles[i]))
  }

  function VectorsOf(rows: seq<RowData>): seq<seq<Variant>>
  {
    seq(|rows|, i requires 0 <= i < |rows| => CompareValues(rows[i]))
  }

  /** The matches of row `i`, whose values are `values`, against each earlier row's values in turn. */
  function RowMatches(collected: seq<seq<Variant>>, values: seq<Variant>, i: nat): (ms: seq<Match>)
    requires |values| == |CompareRoles|
    requires forall k :: 0 <= k < |collected| ==> |collected[k]| == |CompareRoles|
    ensures forall a, b :: 0 <= a < b < |ms| ==> RowOf(ms[a].other) < RowOf(ms[b].other)
    ensures forall m :: m in ms ==> m.index == At([i]) && 0 <= RowOf(m.other) < |collected|
  {
    var n := |collected|;
    if n == 0 then []
    else
      var init := collected[..n - 1];
      var rest := RowMatches(init, values, i);
      var roles := MatchedRoles(values, collected[n - 1]);
      if roles != [] then rest + [Match(roles, At([i]), At([n - 1]))] else rest
  }

  /** `m` is the match of row `i`, whose values are `values`, against collected row `j`. */
  predicate RowPair(collected: seq<seq<Variant>>, values: seq<Variant>, i: nat, j: int, m: Match)
    requires |values| == |CompareRoles|
    requires forall k :: 0 <= k < |collected| ==> |collected[k]| == |CompareRoles|
  {
    0 <= j < |collected| && MatchedRoles(values, collected[j]) != [] &&
    m == Match(MatchedRoles(values, collected[j]), At([i]), At([j]))
  }

  /** A row is reported against exactly the collected rows its values match on some role. */
  lemma {:induction false} RowMatchesMembers(collected: seq<seq<Variant>>, values: seq<Variant>, i: nat)
    requires |values| == |CompareRoles|
    requires forall k :: 0 <= k < |collected| ==> |collected[k]| == |CompareRoles|
    ensures forall m :: m in RowMatches(collected, values, i) <==> exists j :: RowPair(collected, values, i, j, m)
  {
    var n := |collected|;
    if n > 0 {
      var init := collected[..n - 1];
      RowMatchesMembers(init, values, i);
      var rest := RowMatches(init, values, i);
      var roles := MatchedRoles(values, collected[n - 1]);
      var last := Match(roles, At([i]), At([n - 1]));
      assert RowMatches(collected, values, i) == if roles != [] then rest + [last] else rest;
      forall m | m in RowMatches(collected, values, i)
        ensures exists j :: RowPair(collected, values, i, j, m)
      {
        if m in rest {
          var j :| RowPair(init, values, i, j, m);
          assert init[j] == collected[j];
          assert RowPair(collected, values, i, j, m);
        } else {
          assert RowPair(collected, values, i, n - 1, m);
        }
      }
      forall m, j | RowPair(collected, values, i, j, m)
        ensures m in RowMatches(collected, values, i)
      {
        if j < n - 1 {
          assert init[j] == collected[j];
          assert RowPair(init, values, i, j, m);
        }
      }
    }
  }

  /** Everything the full search reports: each row against every earlier row, rows in order. */
  function SearchMatches(vectors: seq<seq<Variant>>): (ms: seq<Match>)
    requires forall k :: 0 <= k < |vectors| ==> |vectors[k]| == |CompareRoles|
    ensures forall m :: m in ms ==> 0 <= RowOf(m.index) < |vectors|
  {
    var n := |vectors|;
    if n == 0 then []
    else
      var init := vectors[..n - 1];
      SearchMatches(init) + RowMatches(init, vectors[n - 1], n - 1)
  }

  /** Searching one more row adds that row's matches against the earlier ones after the earlier matches. */
  lemma SearchStep(collected: seq<seq<Variant>>, values: seq<Variant>)
    requires |values| == |CompareRoles|
    requires forall k :: 0 <= k < |collected| ==> |collected[k]| == |CompareRoles|
    ensures SearchMatches(collected + [values]) ==
      SearchMatches(collected) + RowMatches(collected, values, |collected|)
  {
    assert (collected + [values])[..|collected|] == collected;
  }

  /** `m` is the match of row `i` against the earlier row `j`, reported when some role matched. */
  predicate PairMatch(vectors: seq<seq<Variant>>, i: int, j: int, m: Match)
    requires forall k :: 0 <= k < |vectors| ==> |vectors[k]| == |CompareRoles|
  {
    0 <= j < i < |vectors| && MatchedRoles(vectors[i], vectors[j]) != [] &&
    m == Match(MatchedRoles(vectors[i], vectors[j]), At([i]), At([j]))
  }

  /** Matches are reported for exactly the pairs j < i whose matched roles are non-empty. */
  lemma {:induction false} SearchMatchesMembers(vectors: seq<seq<Variant>>)
    requires forall k :: 0 <= k < |vectors| ==> |vectors[k]| == |CompareRoles|
    ensures forall m :: m in SearchMatches(vectors) <==> exists i, j :: PairMatch(vectors, i, j, m)
  {
    var n := |vectors|;
    if n > 0 {
      var init := vectors[..n - 1];
      var last := RowMatches(init, vectors[n - 1], n - 1);
      SearchMatchesMembers(init);
      RowMatchesMembers(init, vectors[n - 1], n - 1);
      assert forall k :: 0 <= k < n - 1 ==> init[k] == vectors[k];
      assert SearchMatches(vectors) == SearchMatches(init) + last;
      forall m | m in SearchMatches(vectors)
        ensures exists i, j :: PairMatch(vectors, i, j, m)
      {
        if m in SearchMatches(init) {
          var i, j :| PairMatch(init, i, j, m);
          assert PairMatch(vectors, i, j, m);
        } else {
          assert m in last;
          var j :| RowPair(init, vectors[n - 1], n - 1, j, m);
          assert PairMatch(vectors, n - 1, j, m);
        }
      }
      forall m, i, j | PairMatch(vectors, i, j, m)
        ensures m in SearchMatches(vectors)
      {
        if i == n - 1 {
          assert init[j] == vectors[j];
          assert RowPair(init, vectors[n - 1], n - 1, j, m);
        } else {
          assert PairMatch(init, i, j, m);
        }
      }
    }
  }

  /** Ordered by the searched row, then by the earlier row. */
  predicate InSearchOrder(ms: seq<Match>)
  {
    forall a, b :: 0 <= a < b < |ms| ==>
      RowOf(ms[a].index) < RowOf(ms[b].index) ||
      (RowOf(ms[a].index) == RowOf(ms[b].index) && RowOf(ms[a].other) < RowOf(ms[b].other))
  }

  lemma SearchOrderAppend(front: seq<Match>, back: seq<Match>, i: int)
    requires InSearchOrder(front) && forall m :: m in front ==> RowOf(m.index) < i
    requires forall m :: m in back ==> RowOf(m.index) == i
    requires forall a, b :: 0 <= a < b < |back| ==> RowOf(back[a].other) < RowOf(back[b].other)
    ensures InSearchOrder(front + back)
  {
    var ms := front + back;
    forall a, b | 0 <= a < b < |ms|
      ensures RowOf(ms[a].index) < RowOf(ms[b].index) ||
        (RowOf(ms[a].index) == RowOf(ms[b].index) && RowOf(ms[a].other) < RowOf(ms[b].other))
    {
      if b < |front| {
        assert ms[a] == front[a] && ms[b] == front[b];
      } else if a < |front| {
        assert ms[a] == front[a] && ms[b] == back[b - |front|];
        assert ms[a] in front && ms[b] in back;
      } else {
        assert ms[a] == back[a - |front|] && ms[b] == back[b - |front|];
        assert ms[a] in back && ms[b] in back;
      }
    }
  }

  /** Matches come ordered by the searched row, then by the earlier row. */
  lemma {:induction false} SearchMatchesOrdered(vectors: seq<seq<Variant>>)
    requires forall k :: 0 <= k < |vectors| ==> |vectors[k]| == |CompareRoles|
    ensures InSearchOrder(SearchMatches(vectors))
  {
    var n := |vectors|;
    if n > 0 {
      var init := vectors[..n - 1];
      var front, back := SearchMatches(init), RowMatches(init, vectors[n - 1], n - 1);
      assert SearchMatches(vectors) == front + back;
      assert InSearchOrder(front + back) by {
        SearchMatchesOrdered(init);
        SearchOrderAppend(front, back, n - 1);
      }
    }
  }

  /** Everything the search for one row reports: that row against every row with a different uri. */
  function SpecificMatches(rows: seq<RowData>, uri: string, target: Index, values: seq<Variant>): (ms: seq<Match>)
    requires |values| == |CompareRoles|
    ensures forall a, b :: 0 <= a < b < |ms| ==> RowOf(ms[a].other) < RowOf(ms[b].other)
    ensures forall m :: m in ms ==> m.index == target && 0 <= RowOf(m.other) < |rows|
  {
    var n := |rows|;
    if n == 0 then []
    else
      var init := rows[..n - 1];
      var rest := SpecificMatches(init, uri, target, values);
      var roles := MatchedRoles(values, CompareValues(rows[n - 1]));
      if DataOf(rows[n - 1], Uri) != Url(uri) && roles != [] then
        rest + [Match(roles, target, At([n - 1]))]
      else rest
  }

  /** `m` is the match of the target against row `i`, whose uri is not the searched one. */
  predicate SpecificPair(rows: seq<RowData>, uri: string, target: Index, values: seq<Variant>, i: int, m: Match)
    requires |values| == |CompareRoles|
  {
    0 <= i < |rows| && DataOf(rows[i], Uri) != Url(uri) &&
    MatchedRoles(values, CompareValues(rows[i])) != [] &&
    m == Match(MatchedRoles(values, CompareValues(rows[i])), target, At([i]))
  }

  /** The target is reported against exactly the other rows its values match on some role. */
  lemma {:induction false} SpecificMatchesMembers(rows: seq<RowData>, uri: string, target: Index, values: seq<Variant>)
    requires |values| == |CompareRoles|
    ensures forall m :: m in SpecificMatches(rows, uri, target, values) <==>
      exists i :: SpecificPair(rows, uri, target, values, i, m)
  {
    var n := |rows|;
    if n > 0 {
      var init := rows[..n - 1];
      SpecificMatchesMembers(init, uri, target, values);
      var rest := SpecificMatches(init, uri, target, values);
      forall m | m in SpecificMatches(rows, uri, target, values)
        ensures exists i :: SpecificPair(rows, uri, target, values, i, m)
      {
        if m in rest {
          var i :| SpecificPair(init, uri, target, values, i, m);
          assert init[i] == rows[i];
          assert SpecificPair(rows, uri, target, values, i, m);
        } else {
          assert SpecificPair(rows, uri, target, values, n - 1, m);
        }
      }
      forall m, i | SpecificPair(rows, uri, target, values, i, m)
        ensures m in SpecificMatches(rows, uri, target, values)
      {
        if i < n - 1 {
          assert init[i] == rows[i];
          assert SpecificPair(init, uri, target, values, i, m);
        }
      }
    }
  }

  /** A target with no data, as an invalid index gives, matches no row. */
  lemma {:induction false} NullTargetMatchesNothing(rows: seq<RowData>, uri: string, target: Index, values: seq<Variant>)
    requires |values| == |CompareRoles|
    requires forall i :: 0 <= i < |values| ==> values[i].Null?
    ensures SpecificMatches(rows, uri, target, values) == []
  {
    var ms := SpecificMatches(rows, uri, target, values);
    SpecificMatchesMembers(rows, uri, target, values);
    if ms != [] {
      assert ms[0] in ms;
      var i :| SpecificPair(rows, uri, target, values, i, ms[0]);
      NullValuesNeverMatch(values, CompareValues(rows[i]));
      assert false;
    }
  }

  /** A row whose uri is the searched one is never reported. */
  lemma SpecificSearchSkipsItself(rows: seq<RowData>, uri: string, target: Index, values: seq<Variant>, i: nat)
    requires |values| == |CompareRoles|
    requires i < |rows| && DataOf(rows[i], Uri) == Url(uri)
    ensures forall m :: m in SpecificMatches(rows, uri, target, values) ==> m.other != At([i])
  {
    SpecificMatchesMembers(rows, uri, target, values);
  }

  // ---------------------------------------------------------------------
  // The search job
  // ---------------------------------------------------------------------

  /** Gathers the compared values of a row, one per compared role in order. */
  method ValuesForIndex(row: RowData) returns (values: seq<Variant>)
    ensures |values| == |CompareRoles|
    ensures forall i :: 0 <= i < |CompareRoles| ==> values[i] == DataOf(row, CompareRoles[i])
    ensures values == CompareValues(row)
  {
    values := [];
    var i := 0;
    while i < |CompareRoles|
      invariant 0 <= i <= |CompareRoles|
      invariant |values| == i
      invariant forall k :: 0 <= k < i ==> values[k] == DataOf(row, CompareRoles[k])
    {
      values := values + [DataOf(row, CompareRoles[i])];
      i := i + 1;
    }
  }

  /** Whether some non-null element of `listB` is in `listA`. */
  method ContainsAny(listA: seq<Variant>, listB: seq<Variant>) returns (found: bool)
    ensures found <==> exists e :: e in listB && !e.Null? && e in listA
  {
    found := false;
    var k := 0;
    while k < |listB|
      invariant 0 <= k <= |listB|
      invariant !found
      invariant forall e :: e in listB[..k] ==> e.Null? || e !in listA
    {
      assert listB[..k + 1] == listB[..k] + [listB[k]];
      if !listB[k].Null? && listB[k] in listA {
        found := true;
        return;
      }
      k := k + 1;
    }
    assert listB[..k] == listB;
  }

  /** The compared roles at which two value vectors match, in compare-role order. */
  method MatchAt(value: seq<Variant>, toCompare: seq<Variant>) returns (ret: seq<Role>)
    requires |value| == |toCompare| <= |CompareRoles|
    ensures ret == MatchedRoles(value, toCompare)
    ensures forall r :: r in ret <==>
      exists i :: 0 <= i < |toCompare| && CompareRoles[i] == r && RoleMatches(value[i], toCompare[i])
  {
    ret := [];
    var i := 0;
    while i < |toCompare|
      invariant 0 <= i <= |toCompare|
      invariant ret == MatchedRoles(value[..i], toCompare[..i])
    {
      assert value[..i + 1][..i] == value[..i] && toCompare[..i + 1][..i] == toCompare[..i];
      var v := value[i];
      var add := false;
      if v.List? {
        var listA := v.items;
        var listB := ToList(toCompare[i]);
        if listA != [] && listB != [] {
          add := ContainsAny(listA, listB);
        }
      } else if !v.Null? && v == toCompare[i] && !(v.Str? && v.s == "") {
        add := true;
      }
      if add {
        ret := ret + [CompareRoles[i]];
      }
      i := i + 1;
    }
    assert value[..i] == value && toCompare[..i] == toCompare;
  }

  class DuplicatesFinder {
    /** The uri of the one person to search for; empty for the full search. */
    var uri: string
    var matches: seq<Match>

    constructor ()
      ensures uri == "" && matches == []
    {
      uri := "";
      matches := [];
    }

    method SetSpecificPerson(personUri: string)
      modifies this
      ensures uri == personUri && matches == old(matches)
    {
      uri := personUri;
    }

    /** Compares each row with every earlier row and records the pairs that match. */
    method DoSearch(rows: seq<RowData>)
      modifies this
      ensures uri == old(uri)
      ensures matches == SearchMatches(VectorsOf(rows))
    {
      var collected: seq<seq<Variant>> := [];
      matches := [];
      var i := 0;
      while i < |rows|
        invariant 0 <= i <= |rows|
        invariant uri == old(uri)
        invariant |collected| == i
        invariant forall k :: 0 <= k < i ==> collected[k] == CompareValues(rows[k])
        invariant matches == SearchMatches(collected)
      {
        var values := ValuesForIndex(rows[i]);
        var rowMatches := CompareWithEarlier(collected, values, i);
        matches := matches + rowMatches;
        SearchStep(collected, values);
        collected := collected + [values];
        i := i + 1;
      }
      assert collected == VectorsOf(rows);
    }

    /** Compares one row's values with every collected row and lists the pairs that match. */
    static method CompareWithEarlier(collected: seq<seq<Variant>>, values: seq<Variant>, i: nat) returns (found: seq<Match>)
      requires |values| == |CompareRoles|
      requires forall k :: 0 <= k < |collected| ==> |collected[k]| == |CompareRoles|
      ensures found == RowMatches(collected, values, i)
    {
      found := [];
      var j := 0;
      while j < |collected|
        invariant 0 <= j <= |collected|
        invariant found == RowMatches(collected[..j], values, i)
      {
        assert collected[..j + 1][..j] == collected[..j];
        var matchedRoles := MatchAt(values, collected[j]);
        if matchedRoles != [] {
          found := found + [Match(matchedRoles, At([i]), At([j]))];
        }
        j := j + 1;
      }
      assert collected[..j] == collected;
    }

    /**
     * Compares the row at `target`, whose data is `targetData`, with every
     * row whose uri is not the searched one.
     */
    method DoSpecificSearch(rows: seq<RowData>, target: Index, targetData: RowData)
      modifies this
      ensures uri == old(uri)
      ensures matches == SpecificMatches(rows, uri, target, CompareValues(targetData))
    {
      matches := [];
      var values := ValuesForIndex(targetData);
      var i := 0;
      while i < |rows|
        invariant 0 <= i <= |rows|
        invariant uri == old(uri)
        invariant matches == SpecificMatches(rows[..i], uri, target, values)
      {
        assert rows[..i + 1][..i] == rows[..i];
        if DataOf(rows[i], Uri) != Url(uri) {
          var values2 := ValuesForIndex(rows[i]);
          var matchedRoles := MatchAt(values, values2);
          if matchedRoles != [] {
            matches := matches + [Match(matchedRoles, target, At([i]))];
          }
        }
        i := i + 1;
      }
      assert rows[..i] == rows;
    }

    /** Runs the full search when no person is set, and the search for that person otherwise. */
    method Start(rows: seq<RowData>, target: Index, targetData: RowData)
      modifies this
      ensures uri == old(uri)
      ensures uri == "" ==> matches == SearchMatches(VectorsOf(rows))
      ensures uri != "" ==> matches == SpecificMatches(rows, uri, target, CompareValues(targetData))
    {
      if uri == "" {
        DoSearch(rows);
      } else {
        DoSpecificSearch(rows, target, targetData);
      }
    }
  }
}

=== FILE: kpeople.dfy ===
/**
 * The library's free functions: merging and unmerging go straight to the
 * identity store, and a presence name picks the icon shown for it.
 */
module KPeople {
  import PersonStore

  /** Merges contacts and persons into one person; returns what the identity store returns. */
  method MergeContacts(manager: PersonStore.PersonManager, ids: seq<string>) returns (personId: string)
    requires manager.Valid()
    modifies manager
    ensures manager.Valid()
    ensures |old(manager.events)| <= |manager.events| && manager.events[..|old(manager.events)|] == old(manager.events)
    ensures PersonStore.Merge(old(manager.rows), ids) ==
      PersonStore.MergeOutcome(personId, manager.rows, manager.events[|old(manager.events)|..])
  {
    personId := manager.MergeContacts(ids);
  }

  /** Takes a contact out of its person, or dissolves a person; returns what the identity store returns. */
  method UnmergeContact(manager: PersonStore.PersonManager, id: string) returns (success: bool)
    requires manager.Valid()
    modifies manager
    ensures manager.Valid() && success
    ensures |old(manager.events)| <= |manager.events| && manager.events[..|old(manager.events)|] == old(manager.events)
    ensures PersonStore.Unmerge(old(manager.rows), id) ==
      PersonStore.UnmergeOutcome(manager.rows, manager.events[|old(manager.events)|..])
  {
    success := manager.UnmergeContact(id);
  }

  /** The presence names with an icon of their own. */
  const KnownPresences: set<string> := {"available", "away", "busy", "dnd", "xa", "hidden"}

  /** The icon for each presence name that has one of its own. */
  const PresenceIcons: map<string, string> := map[
    "available" := "user-online",
    "away" := "user-away",
    "busy" := "user-busy",
    "dnd" := "user-busy",
    "xa" := "user-away-extended",
    "hidden" := "user-invisible"]

  /** The icon name shown for a presence. */
  function IconForPresenceString(presenceName: string): (icon: string)
    ensures icon == "user-offline" <==> presenceName !in KnownPresences
    ensures icon == "user-busy" <==> presenceName == "busy" || presenceName == "dnd"
  {
    if presenceName == "available" then "user-online"
    else if presenceName == "away" then "user-away"
    else if presenceName == "busy" || presenceName == "dnd" then "user-busy"
    else if presenceName == "xa" then "user-away-extended"
    else if presenceName == "hidden" then "user-invisible"
    else "user-offline"
  }

  /** The decision chain agrees with the table, and every other name shows as offline. */
  lemma IconsFollowTable(presenceName: string)
    ensures IconForPresenceString(presenceName) ==
      if presenceName in PresenceIcons then PresenceIcons[presenceName] else "user-offline"
    ensures PresenceIcons.Keys == KnownPresences
  {
  }
}

=== FILE: meta_contact.dfy ===
/**
 * A meta contact: one person's contacts keyed by contact id, and the single
 * composite addressee built from them.
 *
 * The composite keeps, for every single-valued field, the first non-empty
 * value in contact-id order, and for every multi-valued field the union of
 * the members' values in that order without repeats.
 */
module MetaContacts {
  import opened Values

  /** The address-book entry fields the composite is built from. */
  datatype Addressee = Addressee(
    name: string,
    formattedName: string,
    familyName: string,
    givenName: string,
    additionalName: string,
    prefix: string,
    suffix: string,
    nickName: string,
    photo: string,
    addresses: seq<string>,
    categories: seq<string>,
    emails: seq<string>,
    keys: seq<string>,
    phoneNumbers: seq<string>)

  /** A default-constructed addressee: every field empty. */
  const EmptyAddressee := Addressee("", "", "", "", "", "", "", "", "", [], [], [], [], [])

  datatype SingleField =
    | NameField | FormattedNameField | FamilyNameField | GivenNameField | AdditionalNameField
    | PrefixField | SuffixField | NickNameField | PhotoField

  datatype ListField = AddressesField | CategoriesField | EmailsField | KeysField | PhoneNumbersField

  function Single(a: Addressee, f: SingleField): string
  {
    match f
    case NameField => a.name
    case FormattedNameField => a.formattedName
    case FamilyNameField => a.familyName
    case GivenNameField => a.givenName
    case AdditionalNameField => a.additionalName
    case PrefixField => a.prefix
    case SuffixField => a.suffix
    case NickNameField => a.nickName
    case PhotoField => a.photo
  }

  function Multi(a: Addressee, f: ListField): seq<string>
  {
    match f
    case AddressesField => a.addresses
    case CategoriesField => a.categories
    case EmailsField => a.emails
    case KeysField => a.keys
    case PhoneNumbersField => a.phoneNumbers
  }

  predicate ListsWithoutRepeats(a: Addressee)
  {
    forall f :: NoDuplicates(Multi(a, f))
  }

  // ---------------------------------------------------------------------
  // Building the composite
  // ---------------------------------------------------------------------

  /** The address book's insert for a multi-valued field: a value already present is not added again. */
  function Insert(list: seq<string>, v: string): seq<string>
  {
    if v in list then list else list + [v]
  }

  /** Inserts every item in turn. */
  function InsertAll(list: seq<string>, items: seq<string>): (r: seq<string>)
    ensures forall x :: x in r <==> x in list || x in items
    ensures NoDuplicates(list) ==> NoDuplicates(r)
    ensures |list| <= |r| && r[..|list|] == list
  {
    if items == [] then list
    else
      var acc := InsertAll(list, items[..|items| - 1]);
      assert forall x :: x in items[..|items| - 1] ==> x in items;
      assert items == items[..|items| - 1] + [items[|items| - 1]];
      Insert(acc, items[|items| - 1])
  }

  /** Where `x` first occurs in `s`. */
  function FirstIndex(s: seq<string>, x: string): (i: nat)
    requires x in s
    ensures i < |s| && s[i] == x && x !in s[..i]
  {
    if s[0] == x then 0 else 1 + FirstIndex(s[1..], x)
  }

  /** Appending a value leaves the first occurrence of every earlier value where it was. */
  lemma {:induction false} FirstIndexSnoc(s: seq<string>, v: string, x: string)
    requires x in s
    ensures FirstIndex(s + [v], x) == FirstIndex(s, x)
  {
    if s[0] != x {
      assert (s + [v])[1..] == s[1..] + [v];
      FirstIndexSnoc(s[1..], v, x);
    }
  }

  /** A value new to `s` first occurs, once appended, at the end. */
  lemma FirstIndexNew(s: seq<string>, v: string)
    requires v !in s
    ensures FirstIndex(s + [v], v) == |s|
  {
  }

  /** Inserting a list of items is inserting all but the last, then the last. */
  lemma InsertAllSnoc(list: seq<string>, items: seq<string>, v: string)
    ensures InsertAll(list, items + [v]) == Insert(InsertAll(list, items), v)
  {
    assert (items + [v])[..|items|] == items;
  }

  /** Inserting two lists in turn is inserting them joined. */
  lemma {:induction false} InsertAllAppend(list: seq<string>, a: seq<string>, b: seq<string>)
    ensures InsertAll(InsertAll(list, a), b) == InsertAll(list, a + b)
  {
    if b == [] {
      assert a + b == a;
    } else {
      var init, v := b[..|b| - 1], b[|b| - 1];
      assert b == init + [v];
      InsertAllAppend(list, a, init);
      InsertAllSnoc(InsertAll(list, a), init, v);
      assert a + b == (a + init) + [v];
      InsertAllSnoc(list, a + init, v);
    }
  }

  /**
   * After the old values come only new items, each once, in the order of
   * their first occurrence among the items.
   */
  lemma {:induction false} InsertAllOrder(list: seq<string>, items: seq<string>)
    ensures var r := InsertAll(list, items);
      forall i :: |list| <= i < |r| ==> r[i] !in list && r[i] in items
    ensures var r := InsertAll(list, items);
      forall i, j :: |list| <= i < j < |r| ==>
        r[i] in items && r[j] in items && FirstIndex(items, r[i]) < FirstIndex(items, r[j])
  {
    if items != [] {
      var init, v := items[..|items| - 1], items[|items| - 1];
      assert items == init + [v];
      InsertAllOrder(list, init);
      InsertAllSnoc(list, init, v);
      var acc := InsertAll(list, init);
      forall x | x in init
        ensures FirstIndex(items, x) == FirstIndex(init, x)
      {
        FirstIndexSnoc(init, v, x);
      }
      if v !in acc {
        FirstIndexNew(init, v);
        var r := acc + [v];
        assert InsertAll(list, items) == r;
        assert forall i :: 0 <= i < |acc| ==> r[i] == acc[i];
        assert forall i :: |list| <= i < |acc| ==> acc[i] in init;
      } else {
        assert InsertAll(list, items) == acc;
      }
    }
  }

  /** Keeps the value already set unless it is empty and the contact's is not. */
  function Prefer(current: string, next: string): string
  {
    if current == "" && next != "" then next else current
  }

  /** One pass of the reload loop: fold `contact` into the composite `acc`. */
  function Absorb(acc: Addressee, contact: Addressee): Addressee
  {
    Addressee(
      Prefer(acc.name, contact.name),
      Prefer(acc.formattedName, contact.formattedName),
      Prefer(acc.familyName, contact.familyName),
      Prefer(acc.givenName, contact.givenName),
      Prefer(acc.additionalName, contact.additionalName),
      Prefer(acc.prefix, contact.prefix),
      Prefer(acc.suffix, contact.suffix),
      Prefer(acc.nickName, contact.nickName),
      Prefer(acc.photo, contact.photo),
      InsertAll(acc.addresses, contact.addresses),
      InsertAll(acc.categories, contact.categories),
      InsertAll(acc.emails, contact.emails),
      InsertAll(acc.keys, contact.keys),
      InsertAll(acc.phoneNumbers, contact.phoneNumbers))
  }

  /** The reload loop over the members in order, starting from an empty addressee. */
  function Fold(members: seq<Addressee>): Addressee
  {
    if members == [] then EmptyAddressee
    else Absorb(Fold(members[..|members| - 1]), members[|members| - 1])
  }

  /** The composite reload computes: a single member is used as it is. */
  function Compose(members: seq<Addressee>): Addressee
  {
    if |members| == 1 then members[0] else Fold(members)
  }

  /** The first non-empty value, or "" when all are empty. */
  function FirstNonEmpty(values: seq<string>): (r: string)
    ensures r == "" <==> forall i :: 0 <= i < |values| ==> values[i] == ""
    ensures r != "" ==> exists k :: 0 <= k < |values| && values[k] == r && forall j :: 0 <= j < k ==> values[j] == ""
  {
    if values == [] then ""
    else
      var init := values[..|values| - 1];
      assert forall i :: 0 <= i < |init| ==> init[i] == values[i];
      Prefer(FirstNonEmpty(init), values[|values| - 1])
  }

  function SingleValues(members: seq<Addressee>, f: SingleField): seq<string>
  {
    seq(|members|, i requires 0 <= i < |members| => Single(members[i], f))
  }

  lemma AbsorbSingle(acc: Addressee, contact: Addressee, f: SingleField)
    ensures Single(Absorb(acc, contact), f) == Prefer(Single(acc, f), Single(contact, f))
  {
  }

  lemma AbsorbMulti(acc: Addressee, contact: Addressee, f: ListField)
    ensures Multi(Absorb(acc, contact), f) == InsertAll(Multi(acc, f), Multi(contact, f))
  {
  }

  /** Every single-valued field of the loop's result is the first non-empty value among the members. */
  lemma {:induction false} FoldSingle(members: seq<Addressee>, f: SingleField)
    ensures Single(Fold(members), f) == FirstNonEmpty(SingleValues(members, f))
  {
    if members != [] {
      var init := members[..|members| - 1];
      FoldSingle(init, f);
      AbsorbSingle(Fold(init), members[|members| - 1], f);
      assert SingleValues(members, f)[..|members| - 1] == SingleValues(init, f);
    }
  }

  /** Some member's field holds `x`. */
  predicate InSomeMember(members: seq<Addressee>, f: ListField, x: string)
  {
    exists i :: 0 <= i < |members| && x in Multi(members[i], f)
  }

  /** A value is in some member exactly when it is in one of the earlier members or in the last. */
  lemma InSomeMemberLast(members: seq<Addressee>, f: ListField, x: string)
    requires members != []
    ensures InSomeMember(members, f, x) <==>
      InSomeMember(members[..|members| - 1], f, x) || x in Multi(members[|members| - 1], f)
  {
    var init := members[..|members| - 1];
    if InSomeMember(members, f, x) {
      var i :| 0 <= i < |members| && x in Multi(members[i], f);
      if i < |init| {
        assert members[i] == init[i];
      }
    }
    if InSomeMember(init, f, x) {
      var i :| 0 <= i < |init| && x in Multi(init[i], f);
      assert members[i] == init[i];
    }
  }

  /** The members' values for a multi-valued field, member after member. */
  function FieldValues(members: seq<Addressee>, f: ListField): seq<string>
  {
    if members == [] then []
    else FieldValues(members[..|members| - 1], f) + Multi(members[|members| - 1], f)
  }

  /**
   * Every multi-valued field of the loop's result holds exactly the members'
   * values, without repeats, in the order of their first occurrence, member
   * after member.
   */
  lemma {:induction false} FoldMulti(members: seq<Addressee>, f: ListField)
    ensures forall x :: x in Multi(Fold(members), f) <==> InSomeMember(members, f, x)
    ensures NoDuplicates(Multi(Fold(members), f))
    ensures Multi(Fold(members), f) == InsertAll([], FieldValues(members, f))
  {
    if members != [] {
      var init, last := members[..|members| - 1], members[|members| - 1];
      FoldMulti(init, f);
      AbsorbMulti(Fold(init), last, f);
      InsertAllAppend([], FieldValues(init, f), Multi(last, f));
      forall x
        ensures x in Multi(Fold(members), f) <==> InSomeMember(members, f, x)
      {
        InSomeMemberLast(members, f, x);
      }
    } else {
      assert Multi(EmptyAddressee, f) == [];
    }
  }

  /** The composite of several members takes each single-valued field from the first member that has it. */
  lemma ComposeSingle(members: seq<Addressee>, f: SingleField)
    requires |members| != 1
    ensures Single(Compose(members), f) == FirstNonEmpty(SingleValues(members, f))
  {
    FoldSingle(members, f);
  }

  /**
   * The composite of several members holds the union of their multi-valued
   * fields, without repeats, each value where it first occurs member after member.
   */
  lemma ComposeMulti(members: seq<Addressee>, f: ListField)
    requires |members| != 1
    ensures forall x :: x in Multi(Compose(members), f) <==> InSomeMember(members, f, x)
    ensures NoDuplicates(Multi(Compose(members), f))
    ensures Multi(Compose(members), f) == InsertAll([], FieldValues(members, f))
  {
    FoldMulti(members, f);
  }

  lemma {:induction false} InsertAllIntoEmpty(items: seq<string>)
    requires NoDuplicates(items)
    ensures InsertAll([], items) == items
  {
    if items != [] {
      var init := items[..|items| - 1];
      InsertAllIntoEmpty(init);
      assert items[|items| - 1] !in init;
      assert items == init + [items[|items| - 1]];
    }
  }

  lemma {:induction false} InsertAllPresent(list: seq<string>, items: seq<string>)
    requires forall x :: x in items ==> x in list
    ensures InsertAll(list, items) == list
  {
    if items != [] {
      InsertAllPresent(list, items[..|items| - 1]);
    }
  }

  /** Absorbing a member into an empty composite gives that member, when its lists have no repeats. */
  lemma AbsorbIntoEmpty(contact: Addressee)
    requires ListsWithoutRepeats(contact)
    ensures Absorb(EmptyAddressee, contact) == contact
  {
    assert NoDuplicates(Multi(contact, AddressesField)) && NoDuplicates(Multi(contact, CategoriesField));
    assert NoDuplicates(Multi(contact, EmailsField)) && NoDuplicates(Multi(contact, KeysField));
    assert NoDuplicates(Multi(contact, PhoneNumbersField));
    InsertAllIntoEmpty(contact.addresses);
    InsertAllIntoEmpty(contact.categories);
    InsertAllIntoEmpty(contact.emails);
    InsertAllIntoEmpty(contact.keys);
    InsertAllIntoEmpty(contact.phoneNumbers);
  }

  /** Absorbing a composite into itself changes nothing. */
  lemma AbsorbSelf(x: Addressee)
    ensures Absorb(x, x) == x
  {
    InsertAllPresent(x.addresses, x.addresses);
    InsertAllPresent(x.categories, x.categories);
    InsertAllPresent(x.emails, x.emails);
    InsertAllPresent(x.keys, x.keys);
    InsertAllPresent(x.phoneNumbers, x.phoneNumbers);
  }

  /** For one member with no repeated values, the shortcut gives what the general loop would. */
  lemma SingleShortcutAgrees(contact: Addressee)
    requires ListsWithoutRepeats(contact)
    ensures Fold([contact]) == Compose([contact])
  {
    assert [contact][..0] == [];
    AbsorbIntoEmpty(contact);
  }

  /** Composing a composite with itself changes nothing. */
  lemma ComposeIdempotent(members: seq<Addressee>)
    requires |members| != 1
    ensures Compose([Compose(members), Compose(members)]) == Compose(members)
  {
    var x := Compose(members);
    forall f: ListField
      ensures NoDuplicates(Multi(x, f))
    {
      ComposeMulti(members, f);
    }
    assert [x, x][..1] == [x] && [x][..0] == [];
    AbsorbIntoEmpty(x);
    assert Fold([x]) == x;
    AbsorbSelf(x);
    assert Fold([x, x]) == Absorb(x, x);
  }

  // ---------------------------------------------------------------------
  // The contacts map, kept ordered by contact id
  // ---------------------------------------------------------------------

  /** A character as UTF-16 code units: itself below U+10000, else a high and a low surrogate. */
  function Utf16(c: char): (units: seq<int>)
    ensures |units| == 1 <==> c as int < 0x1_0000
    ensures |units| == 1 ==> units[0] == c as int
    ensures |units| == 2 ==> 0xD800 <= units[0] < 0xDC00 && 0xDC00 <= units[1] < 0xE000
  {
    var n := c as int;
    if n < 0x1_0000 then [n] else [0xD800 + (n - 0x1_0000) / 0x400, 0xDC00 + (n - 0x1_0000) % 0x400]
  }

  /**
   * Where a character sorts among UTF-16 strings: characters beyond U+FFFF
   * start with a surrogate, so they come after U+D7FF and before U+E000.
   */
  function Utf16Rank(c: char): (r: int)
    ensures 0 <= r < 0x11_0000
  {
    var n := c as int;
    if n < 0xD800 then n
    else if n >= 0x1_0000 then n - 0x1_0000 + 0xD800
    else n + 0x10_0000
  }

  /** Ranks order two characters as their UTF-16 code units do. */
  lemma Utf16RankOrder(a: char, b: char)
    ensures Utf16Rank(a) < Utf16Rank(b) <==>
      Utf16(a)[0] < Utf16(b)[0] ||
      (Utf16(a)[0] == Utf16(b)[0] && |Utf16(a)| == 2 && |Utf16(b)| == 2 && Utf16(a)[1] < Utf16(b)[1])
  {
  }

  /** QString ordering: lexicographic by UTF-16 code unit, a prefix first. */
  predicate Less(a: string, b: string)
  {
    if b == [] then false
    else if a == [] then true
    else if a[0] != b[0] then Utf16Rank(a[0]) < Utf16Rank(b[0])
    else Less(a[1..], b[1..])
  }

  lemma {:induction false} LessIrreflexive(a: string)
    ensures !Less(a, a)
  {
    if a != [] {
      LessIrreflexive(a[1..]);
    }
  }

  lemma {:induction false} LessTransitive(a: string, b: string, c: string)
    requires Less(a, b) && Less(b, c)
    ensures Less(a, c)
  {
    if a != [] && a[0] == b[0] && b[0] == c[0] {
      LessTransitive(a[1..], b[1..], c[1..]);
    }
  }

  lemma {:induction false} LessTotal(a: string, b: string)
    requires a != b
    ensures Less(a, b) || Less(b, a)
  {
    if a != [] && b != [] && a[0] == b[0] {
      assert a == [a[0]] + a[1..] && b == [b[0]] + b[1..];
      LessTotal(a[1..], b[1..]);
    }
  }

  datatype Entry = Entry(contactId: string, contact: Addressee)

  /** Strictly ascending contact ids, as in a QMap. */
  predicate Sorted(entries: seq<Entry>)
  {
    forall i, j :: 0 <= i < j < |entries| ==> Less(entries[i].contactId, entries[j].contactId)
  }

  function ToMap(entries: seq<Entry>): map<string, Addressee>
  {
    if entries == [] then map[]
    else ToMap(entries[1..])[entries[0].contactId := entries[0].contact]
  }

  /** QMap::values(): the contacts in contact-id order. */
  function Members(entries: seq<Entry>): seq<Addressee>
  {
    seq(|entries|, i requires 0 <= i < |entries| => entries[i].contact)
  }

  lemma {:induction false} SortedTail(entries: seq<Entry>)
    requires Sorted(entries) && entries != []
    ensures Sorted(entries[1..])
    ensures forall e :: e in entries[1..] ==> Less(entries[0].contactId, e.contactId)
  {
    forall e | e in entries[1..]
      ensures Less(entries[0].contactId, e.contactId)
    {
      var j :| 0 <= j < |entries[1..]| && entries[1..][j] == e;
      assert entries[j + 1] == e;
    }
  }

  lemma {:induction false} SortedCons(e: Entry, rest: seq<Entry>)
    requires Sorted(rest) && forall x :: x in rest ==> Less(e.contactId, x.contactId)
    ensures Sorted([e] + rest)
  {
    var s := [e] + rest;
    forall i, j | 0 <= i < j < |s|
      ensures Less(s[i].contactId, s[j].contactId)
    {
      assert s[j] == rest[j - 1];
      if i > 0 {
        assert s[i] == rest[i - 1];
      }
    }
  }

  lemma {:induction false} KeysOfMap(entries: seq<Entry>)
    ensures forall k :: k in ToMap(entries) <==> exists e :: e in entries && e.contactId == k
  {
    if entries != [] {
      KeysOfMap(entries[1..]);
      forall k
        ensures k in ToMap(entries) <==> exists e :: e in entries && e.contactId == k
      {
        if exists e :: e in entries && e.contactId == k {
          var e :| e in entries && e.contactId == k;
          if e != entries[0] {
            assert e in entries[1..];
          }
        }
      }
    }
  }

  /** The first id of a sorted sequence is not among the later ones' keys. */
  lemma HeadKeyIsNew(entries: seq<Entry>)
    requires Sorted(entries) && entries != []
    ensures entries[0].contactId !in ToMap(entries[1..])
  {
    SortedTail(entries);
    KeysOfMap(entries[1..]);
    LessIrreflexive(entries[0].contactId);
  }

  /** Each entry of a sorted sequence is what the map holds for its id, and the map has one key per entry. */
  lemma {:induction false} SortedMap(entries: seq<Entry>)
    requires Sorted(entries)
    ensures |ToMap(entries)| == |entries|
    ensures forall i :: 0 <= i < |entries| ==>
      entries[i].contactId in ToMap(entries) && ToMap(entries)[entries[i].contactId] == entries[i].contact
  {
    if entries != [] {
      var rest := entries[1..];
      SortedTail(entries);
      SortedMap(rest);
      HeadKeyIsNew(entries);
      var m := ToMap(rest);
      assert ToMap(entries) == m[entries[0].contactId := entries[0].contact];
      assert |ToMap(entries)| == |m| + 1;
      forall i | 1 <= i < |entries|
        ensures entries[i].contactId in ToMap(entries) && ToMap(entries)[entries[i].contactId] == entries[i].contact
      {
        assert rest[i - 1] == entries[i];
      }
    }
  }

  /** QMap::insert / operator[] assignment. */
  function Put(entries: seq<Entry>, k: string, v: Addressee): (r: seq<Entry>)
    ensures forall e :: e in r ==> e in entries || e == Entry(k, v)
  {
    if entries == [] then [Entry(k, v)]
    else if entries[0].contactId == k then [Entry(k, v)] + entries[1..]
    else if Less(k, entries[0].contactId) then [Entry(k, v)] + entries
    else [entries[0]] + Put(entries[1..], k, v)
  }

  /** QMap::remove. */
  function Without(entries: seq<Entry>, k: string): (r: seq<Entry>)
    ensures forall e :: e in r ==> e in entries
  {
    if entries == [] then []
    else if entries[0].contactId == k then Without(entries[1..], k)
    else [entries[0]] + Without(entries[1..], k)
  }

  /** Putting keeps the ids ordered and sets one key of the map. */
  lemma {:induction false} PutEffect(entries: seq<Entry>, k: string, v: Addressee)
    requires Sorted(entries)
    ensures Sorted(Put(entries, k, v))
    ensures ToMap(Put(entries, k, v)) == ToMap(entries)[k := v]
  {
    if entries == [] {
    } else if entries[0].contactId == k {
      PutReplacing(entries, k, v);
    } else if Less(k, entries[0].contactId) {
      PutInFront(entries, k, v);
    } else {
      SortedTail(entries);
      PutEffect(entries[1..], k, v);
      PutFurther(entries, k, v);
    }
  }

  /** Putting the first id replaces its entry. */
  lemma PutReplacing(entries: seq<Entry>, k: string, v: Addressee)
    requires Sorted(entries) && entries != [] && entries[0].contactId == k
    ensures Sorted(Put(entries, k, v))
    ensures ToMap(Put(entries, k, v)) == ToMap(entries)[k := v]
  {
    SortedTail(entries);
    assert Put(entries, k, v) == [Entry(k, v)] + entries[1..];
    assert ([Entry(k, v)] + entries[1..])[1..] == entries[1..];
    SortedCons(Entry(k, v), entries[1..]);
  }

  /** Putting an id below the first one puts a new entry in front. */
  lemma PutInFront(entries: seq<Entry>, k: string, v: Addressee)
    requires Sorted(entries) && entries != [] && Less(k, entries[0].contactId)
    ensures Sorted(Put(entries, k, v))
    ensures ToMap(Put(entries, k, v)) == ToMap(entries)[k := v]
  {
    var first := entries[0];
    SortedTail(entries);
    LessIrreflexive(k);
    assert Put(entries, k, v) == [Entry(k, v)] + entries;
    assert ([Entry(k, v)] + entries)[1..] == entries;
    forall x | x in entries
      ensures Less(k, x.contactId)
    {
      if x != first {
        LessTransitive(k, first.contactId, x.contactId);
      }
    }
    SortedCons(Entry(k, v), entries);
  }

  /** Putting an id above the first one keeps the first entry and puts into the rest. */
  lemma PutFurther(entries: seq<Entry>, k: string, v: Addressee)
    requires Sorted(entries) && entries != [] && entries[0].contactId != k && !Less(k, entries[0].contactId)
    requires Sorted(Put(entries[1..], k, v)) && ToMap(Put(entries[1..], k, v)) == ToMap(entries[1..])[k := v]
    ensures Sorted(Put(entries, k, v))
    ensures ToMap(Put(entries, k, v)) == ToMap(entries)[k := v]
  {
    var first, rest := entries[0], Put(entries[1..], k, v);
    SortedTail(entries);
    LessTotal(k, first.contactId);
    assert Put(entries, k, v) == [first] + rest;
    assert ([first] + rest)[1..] == rest;
    forall x | x in rest
      ensures Less(first.contactId, x.contactId)
    {
    }
    SortedCons(first, rest);
  }

  /** Removing keeps the ids ordered and drops one key of the map. */
  lemma {:induction false} WithoutEffect(entries: seq<Entry>, k: string)
    requires Sorted(entries)
    ensures Sorted(Without(entries, k))
    ensures ToMap(Without(entries, k)) == ToMap(entries) - {k}
  {
    if entries != [] {
      SortedTail(entries);
      WithoutEffect(entries[1..], k);
      var first := entries[0];
      if first.contactId != k {
        var rest := Without(entries[1..], k);
        assert ([first] + rest)[1..] == rest;
        SortedCons(first, rest);
      }
    }
  }

  // ---------------------------------------------------------------------
  // Building a multi-valued field, as the reload loop does
  // ---------------------------------------------------------------------

  /** Inserts each item of a contact's field into the composite's field. */
  method InsertEach(list: seq<string>, items: seq<string>) returns (r: seq<string>)
    ensures r == InsertAll(list, items)
  {
    r := list;
    var i := 0;
    while i < |items|
      invariant 0 <= i <= |items|
      invariant r == InsertAll(list, items[..i])
    {
      assert items[..i + 1][..i] == items[..i];
      if items[i] !in r {
        r := r + [items[i]];
      }
      i := i + 1;
    }
    assert items[..i] == items;
  }

  /** A single-valued field of the composite takes the contact's value only while it is still empty. */
  method TakeIfUnset(current: string, next: string) returns (r: string)
    ensures r == Prefer(current, next)
    ensures r == "" <==> current == "" && next == ""
    ensures current != "" ==> r == current
  {
    r := current;
    if r == "" && next != "" {
      r := next;
    }
  }

  /** One pass of the reload loop: the composite so far takes what `contact` adds. */
  method AbsorbStep(composite: Addressee, contact: Addressee) returns (p: Addressee)
    ensures p == Absorb(composite, contact)
  {
    var addresses := InsertEach(composite.addresses, contact.addresses);
    var categories := InsertEach(composite.categories, contact.categories);
    var emails := InsertEach(composite.emails, contact.emails);
    var keys := InsertEach(composite.keys, contact.keys);
    var phoneNumbers := InsertEach(composite.phoneNumbers, contact.phoneNumbers);
    var name := TakeIfUnset(composite.name, contact.name);
    var formattedName := TakeIfUnset(composite.formattedName, contact.formattedName);
    var familyName := TakeIfUnset(composite.familyName, contact.familyName);
    var givenName := TakeIfUnset(composite.givenName, contact.givenName);
    var additionalName := TakeIfUnset(composite.additionalName, contact.additionalName);
    var prefix := TakeIfUnset(composite.prefix, contact.prefix);
    var suffix := TakeIfUnset(composite.suffix, contact.suffix);
    var nickName := TakeIfUnset(composite.nickName, contact.nickName);
    var photo := TakeIfUnset(composite.photo, contact.photo);
    p := Addressee(name, formattedName, familyName, givenName, additionalName, prefix, suffix,
                   nickName, photo, addresses, categories, emails, keys, phoneNumbers);
  }

  // ---------------------------------------------------------------------
  // The meta contact
  // ---------------------------------------------------------------------

  class MetaContact {
    const id: string
    /** The contacts by contact id, ordered by id. */
    var contacts: seq<Entry>
    /** The composite of the contacts. */
    var personAddressee: Addressee

    ghost predicate Valid()
      reads this
    {
      Sorted(contacts)
    }

    function ContactMap(): map<string, Addressee>
      reads this
    {
      ToMap(contacts)
    }

    /** The contacts in contact-id order. */
    function Contacts(): (members: seq<Addressee>)
      reads this
      requires Valid()
      ensures |members| == |contacts| == |ContactMap()|
      ensures forall i :: 0 <= i < |members| ==>
        contacts[i].contactId in ContactMap() && members[i] == ContactMap()[contacts[i].contactId]
    {
      SortedMap(contacts);
      Members(contacts)
    }

    /** A meta contact is valid when it has at least one contact. */
    predicate IsValid()
      reads this
      requires Valid()
      ensures IsValid() <==> ContactMap() != map[]
    {
      SortedMap(contacts);
      assert |ContactMap()| == 0 ==> ContactMap() == map[];
      contacts != []
    }

    /** A meta contact with no id and no contacts; the composite is left empty. */
    constructor Empty()
      ensures Valid() && id == "" && ContactMap() == map[] && personAddressee == EmptyAddressee
    {
      id := "";
      contacts := [];
      personAddressee := EmptyAddressee;
    }

    /** A meta contact over the given contacts, with its composite built. */
    constructor (personId: string, entries: seq<Entry>)
      requires Sorted(entries)
      ensures Valid() && id == personId && contacts == entries
      ensures personAddressee == Compose(Members(entries))
    {
      id := personId;
      contacts := entries;
      personAddressee := EmptyAddressee;
      new;
      Reload();
    }

    /** A meta contact holding one contact, whose id it takes; the composite is that contact. */
    constructor Single(contactId: string, contact: Addressee)
      ensures Valid() && id == contactId
      ensures ContactMap() == map[contactId := contact]
      ensures personAddressee == contact
    {
      id := contactId;
      contacts := Put([], contactId, contact);
      personAddressee := EmptyAddressee;
      new;
      PutEffect([], contactId, contact);
      Reload();
    }

    /**
     * The contact with the given id. Like QMap's non-const operator[], an
     * absent id is added with an empty addressee; the composite is not rebuilt.
     */
    method Contact(contactId: string) returns (contact: Addressee)
      requires Valid()
      modifies this
      ensures Valid()
      ensures contact == if contactId in old(ContactMap()) then old(ContactMap())[contactId] else EmptyAddressee
      ensures ContactMap() == old(ContactMap())[contactId := contact]
      ensures personAddressee == old(personAddressee)
    {
      KeysOfMap(contacts);
      if contactId in ToMap(contacts) {
        contact := ToMap(contacts)[contactId];
        assert ToMap(contacts)[contactId := contact] == ToMap(contacts);
      } else {
        contact := EmptyAddressee;
        PutEffect(contacts, contactId, contact);
        contacts := Put(contacts, contactId, contact);
      }
    }

    /** Sets the contact with the given id and rebuilds the composite. */
    method UpdateContact(contactId: string, contact: Addressee)
      requires Valid()
      modifies this
      ensures Valid()
      ensures ContactMap() == old(ContactMap())[contactId := contact]
      ensures personAddressee == Compose(Members(contacts))
    {
      PutEffect(contacts, contactId, contact);
      contacts := Put(contacts, contactId, contact);
      Reload();
    }

    /** Removes the contact with the given id, if any, and rebuilds the composite. */
    method RemoveContact(contactId: string)
      requires Valid()
      modifies this
      ensures Valid()
      ensures ContactMap() == old(ContactMap()) - {contactId}
      ensures personAddressee == Compose(Members(contacts))
    {
      WithoutEffect(contacts, contactId);
      contacts := Without(contacts, contactId);
      Reload();
    }

    /** Rebuilds the composite from the contacts in contact-id order. */
    method Reload()
      requires Valid()
      modifies this
      ensures Valid() && contacts == old(contacts)
      ensures personAddressee == Compose(Members(contacts))
    {
      var members := Members(contacts);
      if |members| == 1 {
        personAddressee := members[0];
        return;
      }

      personAddressee := EmptyAddressee;
      var i := 0;
      while i < |members|
        invariant 0 <= i <= |members|
        invariant contacts == old(contacts)
        invariant personAddressee == Fold(members[..i])
      {
        assert members[..i + 1][..i] == members[..i];
        personAddressee := AbsorbStep(personAddressee, members[i]);
        i := i + 1;
      }
      assert members[..i] == members;
    }
  }
}

=== FILE: model_tree.dfy ===
/**
 * The rows of the persons model as a two-level tree: top-level rows are
 * person items (with contact rows under them) or contact rows; plus the
 * searches over that tree and the binding keys query results are read by.
 */
module ModelTree {
  import opened Values
  import opened PersonItems

  /** A top-level row: a person with its contact rows, or a contact row of its own. */
  datatype Node = PersonNode(uri: string, children: seq<ContactNode>) | ContactLeaf(contact: ContactNode)

  /** A top-level row's data for a role. */
  function NodeValue(n: Node, role: Role): Variant
  {
    match n
    case PersonNode(uri, children) => PersonData(uri, children, role)
    case ContactLeaf(c) => NodeData(c, role)
  }

  /** The contact rows a top-level row holds: its children, or itself. */
  function RowContacts(n: Node): seq<ContactNode>
  {
    if n.PersonNode? then n.children else [n.contact]
  }

  /** Every contact row of the tree, top level and under persons, in row order. */
  function TreeContacts(rows: seq<Node>): seq<ContactNode>
  {
    if rows == [] then [] else RowContacts(rows[0]) + TreeContacts(rows[1..])
  }

  lemma {:induction false} TreeContactsAppend(a: seq<Node>, b: seq<Node>)
    ensures TreeContacts(a + b) == TreeContacts(a) + TreeContacts(b)
  {
    if a != [] {
      TreeContactsAppend(a[1..], b);
      assert (a + b)[0] == a[0] && (a + b)[1..] == a[1..] + b;
      calc {
        TreeContacts(a + b);
        RowContacts(a[0]) + TreeContacts(a[1..] + b);
        RowContacts(a[0]) + (TreeContacts(a[1..]) + TreeContacts(b));
        (RowContacts(a[0]) + TreeContacts(a[1..])) + TreeContacts(b);
      }
    } else {
      assert a + b == b;
    }
  }

  /** A tree lists each contact row once when each row lists its own once and no two rows share one. */
  lemma {:induction false} TreeContactsOnce(rows: seq<Node>)
    requires forall k :: 0 <= k < |rows| ==> NoDuplicates(RowContacts(rows[k]))
    requires forall k1, k2, n :: 0 <= k1 < k2 < |rows| && n in RowContacts(rows[k1]) ==> n !in RowContacts(rows[k2])
    ensures NoDuplicates(TreeContacts(rows))
    ensures forall n :: n in TreeContacts(rows) ==> exists k :: 0 <= k < |rows| && n in RowContacts(rows[k])
  {
    if rows != [] {
      var tail := rows[1..];
      assert forall k :: 0 <= k < |tail| ==> tail[k] == rows[k + 1];
      TreeContactsOnce(tail);
      var a, b := RowContacts(rows[0]), TreeContacts(tail);
      assert TreeContacts(rows) == a + b;
      forall i, j | 0 <= i < j < |a + b|
        ensures (a + b)[i] != (a + b)[j]
      {
        if i < |a| && |a| <= j {
          assert b[j - |a|] in b;
          var k :| 0 <= k < |tail| && b[j - |a|] in RowContacts(tail[k]);
          assert a[i] in RowContacts(rows[0]) && b[j - |a|] in RowContacts(rows[k + 1]);
        } else if |a| <= i {
          assert (a + b)[i] == b[i - |a|] && (a + b)[j] == b[j - |a|];
        }
      }
      forall n | n in TreeContacts(rows)
        ensures exists k :: 0 <= k < |rows| && n in RowContacts(rows[k])
      {
        if n !in a {
          var k :| 0 <= k < |tail| && n in RowContacts(tail[k]);
          assert n in RowContacts(rows[k + 1]);
        }
      }
    }
  }

  // ---------------------------------------------------------------------
  // Searching the tree
  // ---------------------------------------------------------------------

  /** A path to a row: [row] at the top level, or [row, child] under a person. */
  predicate ValidPath(rows: seq<Node>, p: seq<nat>)
  {
    (|p| == 1 && p[0] < |rows|) ||
    (|p| == 2 && p[0] < |rows| && rows[p[0]].PersonNode? && p[1] < |rows[p[0]].children|)
  }

  function DataAt(rows: seq<Node>, p: seq<nat>, role: Role): Variant
    requires ValidPath(rows, p)
  {
    if |p| == 1 then NodeValue(rows[p[0]], role) else NodeData(rows[p[0]].children[p[1]], role)
  }

  /** Whether a depth-first pre-order walk visits `q` before `p`. */
  predicate VisitedBefore(q: seq<nat>, p: seq<nat>)
    requires |q| > 0 && |p| > 0
  {
    q[0] < p[0] || (q[0] == p[0] && |q| < |p|) || (q[0] == p[0] && |q| == |p| == 2 && q[1] < p[1])
  }

  /** The first child, from `from` on, whose data for `role` equals `value`. */
  function ChildMatch(children: seq<ContactNode>, role: Role, value: Variant, from: nat): (j: Option<nat>)
    ensures j.Some? ==> (from <= j.value < |children| && NodeData(children[j.value], role) == value &&
      forall m :: from <= m < j.value ==> NodeData(children[m], role) != value)
    ensures j.None? ==> forall m :: from <= m < |children| ==> NodeData(children[m], role) != value
    decreases |children| - from
  {
    if from >= |children| then None
    else if NodeData(children[from], role) == value then Some(from)
    else ChildMatch(children, role, value, from + 1)
  }

  /** The recursive search from top-level row `from` on: each row, then the rows under it. */
  function FindFrom(rows: seq<Node>, role: Role, value: Variant, from: nat): (r: Index)
    ensures r.At? ==> ValidPath(rows, r.path) && r.path[0] >= from
    decreases |rows| - from
  {
    if from >= |rows| then Invalid
    else if NodeValue(rows[from], role) == value then At([from])
    else
      var c := if rows[from].PersonNode? then ChildMatch(rows[from].children, role, value, 0) else None;
      if c.Some? then At([from, c.value]) else FindFrom(rows, role, value, from + 1)
  }

  /** The first index, in pre-order, whose data for `role` equals `value`; invalid when there is none. */
  function FindRecursively(rows: seq<Node>, role: Role, value: Variant): (r: Index)
    ensures r.At? ==> ValidPath(rows, r.path) && DataAt(rows, r.path, role) == value
  {
    FindFromFirst(rows, role, value, 0);
    FindFrom(rows, role, value, 0)
  }

  /** The index of the first row, in pre-order, with the uri; invalid when no row has it. */
  function IndexForUri(rows: seq<Node>, uri: string): (r: Index)
    ensures r.At? ==> ValidPath(rows, r.path) && DataAt(rows, r.path, Uri) == Url(uri)
    ensures r.Invalid? ==> forall q :: ValidPath(rows, q) ==> DataAt(rows, q, Uri) != Url(uri)
  {
    FindFromFirst(rows, Uri, Url(uri), 0);
    FindRecursively(rows, Uri, Url(uri))
  }

  /** Neither row `from` nor any row under it has the value. */
  lemma RowWithoutMatch(rows: seq<Node>, role: Role, value: Variant, from: nat)
    requires from < |rows| && NodeValue(rows[from], role) != value
    requires rows[from].PersonNode? ==> ChildMatch(rows[from].children, role, value, 0).None?
    ensures forall q :: ValidPath(rows, q) && q[0] == from ==> DataAt(rows, q, role) != value
  {
  }

  /**
   * `r` is the first index, in pre-order from top-level row `from` on, whose
   * data equals the value, or invalid when there is none.
   */
  ghost predicate FirstFrom(rows: seq<Node>, role: Role, value: Variant, from: nat, r: Index)
  {
    (r.At? ==> (ValidPath(rows, r.path) && DataAt(rows, r.path, role) == value &&
      forall q :: ValidPath(rows, q) && q[0] >= from && VisitedBefore(q, r.path) ==> DataAt(rows, q, role) != value)) &&
    (r.Invalid? ==> forall q :: ValidPath(rows, q) && q[0] >= from ==> DataAt(rows, q, role) != value)
  }

  /** A match under row `from` is the first one at or after that row. */
  lemma ChildMatchFirst(rows: seq<Node>, role: Role, value: Variant, from: nat)
    requires from < |rows| && NodeValue(rows[from], role) != value && rows[from].PersonNode?
    requires ChildMatch(rows[from].children, role, value, 0).Some?
    ensures FirstFrom(rows, role, value, from, FindFrom(rows, role, value, from))
  {
    var j := ChildMatch(rows[from].children, role, value, 0).value;
    assert FindFrom(rows, role, value, from) == At([from, j]);
    forall q | ValidPath(rows, q) && q[0] >= from && VisitedBefore(q, [from, j])
      ensures DataAt(rows, q, role) != value
    {
      assert q[0] == from;
    }
  }

  /** Skipping a row with no match keeps the first match of the rows after it. */
  lemma SkipRowFirst(rows: seq<Node>, role: Role, value: Variant, from: nat)
    requires from < |rows| && NodeValue(rows[from], role) != value
    requires rows[from].PersonNode? ==> ChildMatch(rows[from].children, role, value, 0).None?
    requires FirstFrom(rows, role, value, from + 1, FindFrom(rows, role, value, from + 1))
    ensures FirstFrom(rows, role, value, from, FindFrom(rows, role, value, from))
  {
    var r := FindFrom(rows, role, value, from + 1);
    assert FindFrom(rows, role, value, from) == r;
    RowWithoutMatch(rows, role, value, from);
    if r.At? {
      forall q | ValidPath(rows, q) && q[0] >= from && VisitedBefore(q, r.path)
        ensures DataAt(rows, q, role) != value
      {
        if q[0] > from {
          assert q[0] >= from + 1;
        }
      }
    }
  }

  /** A row that has the value itself is the first match at or after it; past the last row there is none. */
  lemma RowMatchFirst(rows: seq<Node>, role: Role, value: Variant, from: nat)
    requires from < |rows| ==> NodeValue(rows[from], role) == value
    ensures FirstFrom(rows, role, value, from, FindFrom(rows, role, value, from))
  {
  }

  lemma {:induction false} FindFromFirst(rows: seq<Node>, role: Role, value: Variant, from: nat)
    ensures FirstFrom(rows, role, value, from, FindFrom(rows, role, value, from))
    decreases |rows| - from
  {
    if from >= |rows| || NodeValue(rows[from], role) == value {
      RowMatchFirst(rows, role, value, from);
    } else if rows[from].PersonNode? && ChildMatch(rows[from].children, role, value, 0).Some? {
      ChildMatchFirst(rows, role, value, from);
    } else {
      FindFromFirst(rows, role, value, from + 1);
      SkipRowFirst(rows, role, value, from);
    }
  }

  /**
   * The search returns the first index of a depth-first pre-order walk whose
   * data equals the value, and an invalid index when no row has it.
   */
  lemma FindRecursivelyIsFirst(rows: seq<Node>, role: Role, value: Variant)
    ensures var r := FindRecursively(rows, role, value);
      r.At? ==> (ValidPath(rows, r.path) && DataAt(rows, r.path, role) == value &&
        forall q :: ValidPath(rows, q) && VisitedBefore(q, r.path) ==> DataAt(rows, q, role) != value)
    ensures FindRecursively(rows, role, value).Invalid? ==>
      forall q :: ValidPath(rows, q) ==> DataAt(rows, q, role) != value
  {
    FindFromFirst(rows, role, value, 0);
  }

  /** `p` is the first index of a depth-first pre-order walk whose data equals the value. */
  ghost predicate FirstMatch(rows: seq<Node>, role: Role, value: Variant, p: seq<nat>)
  {
    ValidPath(rows, p) && DataAt(rows, p, role) == value &&
    forall q :: ValidPath(rows, q) && VisitedBefore(q, p) ==> DataAt(rows, q, role) != value
  }

  /** A walk has at most one first match. */
  lemma FirstMatchUnique(rows: seq<Node>, role: Role, value: Variant, p: seq<nat>, q: seq<nat>)
    requires FirstMatch(rows, role, value, p) && FirstMatch(rows, role, value, q)
    ensures p == q
  {
    if p[0] == q[0] && |p| == |q| && (|p| == 1 || p[1] == q[1]) {
      assert forall i :: 0 <= i < |p| ==> p[i] == q[i];
    }
  }

  /** The contact at a path: a child, a top-level contact row, or none for a person row. */
  function ContactAt(rows: seq<Node>, p: seq<nat>): Option<ContactNode>
    requires ValidPath(rows, p)
  {
    if |p| == 2 then Some(rows[p[0]].children[p[1]])
    else if rows[p[0]].ContactLeaf? then Some(rows[p[0]].contact)
    else None
  }

  /** The first top-level contact row, from `from` on, with the given uri. */
  function TopLevelContactRow(rows: seq<Node>, uri: string, from: nat): (r: Option<nat>)
    ensures r.Some? ==> (from <= r.value < |rows| && rows[r.value].ContactLeaf? && rows[r.value].contact.uri == uri &&
      forall m :: from <= m < r.value ==> !(rows[m].ContactLeaf? && rows[m].contact.uri == uri))
    ensures r.None? ==> forall m :: from <= m < |rows| ==> !(rows[m].ContactLeaf? && rows[m].contact.uri == uri)
    decreases |rows| - from
  {
    if from >= |rows| then None
    else if rows[from].ContactLeaf? && rows[from].contact.uri == uri then Some(from)
    else TopLevelContactRow(rows, uri, from + 1)
  }

  /** The contact of the first top-level contact row with the given uri. */
  function FirstLeaf(rows: seq<Node>, uri: string): Option<ContactNode>
  {
    var r := TopLevelContactRow(rows, uri, 0);
    if r.Some? then Some(rows[r.value].contact) else None
  }

  /** The contacts of the first top-level contact row of each uri that has one, in the uris' order. */
  function FirstLeaves(rows: seq<Node>, uris: seq<string>): seq<ContactNode>
  {
    if uris == [] then []
    else
      var f := FirstLeaf(rows, uris[|uris| - 1]);
      FirstLeaves(rows, uris[..|uris| - 1]) + if f.Some? then [f.value] else []
  }

  /** Replacing a person row by another leaves the first top-level contact rows where they were. */
  lemma {:induction false} TopLevelRowAfterPersonUpdate(rows: seq<Node>, k: nat, x: Node, uri: string, from: nat)
    requires k < |rows| && rows[k].PersonNode? && x.PersonNode?
    ensures TopLevelContactRow(rows[k := x], uri, from) == TopLevelContactRow(rows, uri, from)
    decreases |rows| - from
  {
    if from < |rows| {
      TopLevelRowAfterPersonUpdate(rows, k, x, uri, from + 1);
    }
  }

  /** Replacing a person row by another leaves the first top-level contacts of any uris unchanged. */
  lemma {:induction false} FirstLeavesAfterPersonUpdate(rows: seq<Node>, k: nat, x: Node, uris: seq<string>)
    requires k < |rows| && rows[k].PersonNode? && x.PersonNode?
    ensures FirstLeaves(rows[k := x], uris) == FirstLeaves(rows, uris)
  {
    if uris != [] {
      FirstLeavesAfterPersonUpdate(rows, k, x, uris[..|uris| - 1]);
      TopLevelRowAfterPersonUpdate(rows, k, x, uris[|uris| - 1], 0);
    }
  }

  /** Removing a top-level row that is not the first contact row for `uri` leaves that row the first. */
  lemma FirstLeafAfterRemoval(rows: seq<Node>, r: nat, uri: string)
    requires r < |rows| && !(rows[r].ContactLeaf? && rows[r].contact.uri == uri)
    ensures FirstLeaf(rows[..r] + rows[r + 1..], uri) == FirstLeaf(rows, uri)
  {
    var rest := rows[..r] + rows[r + 1..];
    assert forall m :: 0 <= m < r ==> rest[m] == rows[m];
    assert forall m :: r <= m < |rest| ==> rest[m] == rows[m + 1];
    var a, b := TopLevelContactRow(rest, uri, 0), TopLevelContactRow(rows, uri, 0);
    if b.Some? {
      if b.value < r {
        assert rest[b.value] == rows[b.value];
      } else {
        assert rest[b.value - 1] == rows[b.value];
      }
    }
    if a.Some? {
      if a.value < r {
        assert rest[a.value] == rows[a.value];
      } else {
        assert rest[a.value] == rows[a.value + 1];
      }
    }
  }

  /**
   * Moving contacts into a person as written: the row taken from the top
   * level is the one whose number is the found index's last row number,
   * whatever level the index is at.
   */
  function AsWrittenTakenRow(rows: seq<Node>, uri: string): Option<nat>
  {
    var idx := IndexForUri(rows, uri);
    if idx.At? then Some(idx.path[|idx.path| - 1]) else None
  }

  /**
   * A contact under a person is found at [1, 0]; as written, top-level row 0,
   * a different contact, is taken instead.
   */
  lemma AsWrittenTakesWrongRow()
    ensures var a := ContactNode("a", [], map[]);
      var b := ContactNode("b", [], map[]);
      var rows := [ContactLeaf(a), PersonNode("p", [b])];
      IndexForUri(rows, "b") == At([1, 0]) &&
      AsWrittenTakenRow(rows, "b") == Some(0) && rows[0].contact.uri != "b" &&
      TopLevelContactRow(rows, "b", 0).None?
  {
    var a := ContactNode("a", [], map[]);
    var b := ContactNode("b", [], map[]);
    var rows := [ContactLeaf(a), PersonNode("p", [b])];
    assert "a" != "b" && "p" != "b";
    assert NodeValue(rows[0], Uri) == Url("a");
    assert NodeValue(rows[1], Uri) == Url("p");
    assert ChildMatch([b], Uri, Url("b"), 0) == Some(0);
  }

  /** When the search lands on a top-level contact row, the top-level lookup picks that same row. */
  lemma TopLevelLookupAgrees(rows: seq<Node>, uri: string, r: nat)
    requires IndexForUri(rows, uri) == At([r]) && r < |rows| && rows[r].ContactLeaf?
    ensures TopLevelContactRow(rows, uri, 0) == Some(r)
  {
    FindRecursivelyIsFirst(rows, Uri, Url(uri));
    assert DataAt(rows, [r], Uri) == Url(uri);
    forall m | 0 <= m < r
      ensures !(rows[m].ContactLeaf? && rows[m].contact.uri == uri)
    {
      assert ValidPath(rows, [m]) && VisitedBefore([m], [r]);
    }
    TopLevelFirstAt(rows, uri, r);
  }

  /** A top-level contact row with the uri, with none before it, is the one the lookup finds. */
  lemma TopLevelFirstAt(rows: seq<Node>, uri: string, r: nat)
    requires r < |rows| && rows[r].ContactLeaf? && rows[r].contact.uri == uri
    requires forall m :: 0 <= m < r ==> !(rows[m].ContactLeaf? && rows[m].contact.uri == uri)
    ensures TopLevelContactRow(rows, uri, 0) == Some(r)
  {
    assert TopLevelContactRow(rows, uri, 0).Some?;
  }

  // ---------------------------------------------------------------------
  // Binding keys
  // ---------------------------------------------------------------------

  /** The text after the last '/', or the whole text when it has none. */
  function AfterLastSlash(s: string): (r: string)
    ensures '/' !in r
    ensures |r| <= |s| && r == s[|s| - |r|..]
    ensures |r| < |s| ==> s[|s| - |r| - 1] == '/'
  {
    if s == [] then []
    else if s[|s| - 1] == '/' then []
    else
      var r := AfterLastSlash(s[..|s| - 1]);
      r + [s[|s| - 1]]
  }

  /** The text with every '#' replaced by '_'. */
  function Underscored(s: string): (r: string)
    ensures |r| == |s| && '#' !in r
    ensures forall i :: 0 <= i < |s| && s[i] != '#' ==> r[i] == s[i]
  {
    seq(|s|, i requires 0 <= i < |s| => if s[i] == '#' then '_' else s[i])
  }

  /** The result binding a property's uri is read from. */
  function BindingKey(uri: string): string
  {
    Underscored(AfterLastSlash(uri))
  }

  /** A binding key holds neither '/' nor '#'. */
  lemma BindingKeyShape(uri: string)
    ensures '/' !in BindingKey(uri) && '#' !in BindingKey(uri)
  {
    var tail := AfterLastSlash(uri);
    assert forall i :: 0 <= i < |tail| ==> tail[i] != '/';
  }

  lemma {:induction false} AfterSlash(base: string, local: string)
    requires '/' !in local
    ensures AfterLastSlash(base + "/" + local) == local
  {
    var s := base + "/" + local;
    if local != [] {
      var init := local[..|local| - 1];
      assert s[..|s| - 1] == base + "/" + init;
      assert s[|s| - 1] == local[|local| - 1];
      assert local[|local| - 1] in local;
      AfterSlash(base, init);
      assert init + [local[|local| - 1]] == local;
    }
  }

  /** A property uri's key is its last path segment with '#' replaced by '_'. */
  lemma BindingKeyOfTerm(base: string, local: string)
    requires '/' !in local
    ensures BindingKey(base + "/" + local) == Underscored(local)
  {
    AfterSlash(base, local);
  }
}

=== FILE: person_items.dfy ===
/**
 * A person item of the persons model and the contact rows under it: the
 * person answers its data by asking its contacts, first value or all
 * values, with fixed answers for its uri, its contact count and its type.
 */
module PersonItems {
  import opened Values

  /** One (predicate, text) pair a contact row was given when it was loaded. */
  datatype Property = Property(term: string, value: string)

  /**
   * A contact row of the model. Its uri is its identity; `properties` are the
   * pairs it was loaded with, and `roles` stands for the data it answers for
   * every other role.
   */
  datatype ContactNode = ContactNode(uri: string, properties: seq<Property>, roles: map<Role, Variant>)

  /** A contact row's data for a role. */
  function NodeData(c: ContactNode, role: Role): Variant
  {
    if role == Uri then Url(c.uri)
    else if role in c.roles then c.roles[role]
    else Null
  }

  function ChildUris(children: seq<ContactNode>): (uris: seq<string>)
    ensures |uris| == |children|
    ensures forall i :: 0 <= i < |children| ==> uris[i] == children[i].uri
  {
    seq(|children|, i requires 0 <= i < |children| => children[i].uri)
  }

  /** The first non-null value the children give for a role, in row order; null when there is none. */
  function FirstNonNull(children: seq<ContactNode>, role: Role): (v: Variant)
    ensures v.Null? <==> forall i :: 0 <= i < |children| ==> NodeData(children[i], role).Null?
    ensures !v.Null? ==> exists k :: (0 <= k < |children| && v == NodeData(children[k], role) &&
      forall j :: 0 <= j < k ==> NodeData(children[j], role).Null?)
  {
    if children == [] then Null
    else if !NodeData(children[0], role).Null? then NodeData(children[0], role)
    else
      var v := FirstNonNull(children[1..], role);
      assert forall i :: 1 <= i < |children| ==> children[i] == children[1..][i - 1];
      if !v.Null? then
        var k :| 0 <= k < |children[1..]| && v == NodeData(children[1..][k], role) &&
          forall j :: 0 <= j < k ==> NodeData(children[1..][j], role).Null?;
        assert children[k + 1] == children[1..][k];
        v
      else v
  }

  /** The number of children that give a non-null value for a role. */
  function NonNullCount(children: seq<ContactNode>, role: Role): nat
  {
    if children == [] then 0
    else NonNullCount(children[..|children| - 1], role) + (if NodeData(children[|children| - 1], role).Null? then 0 else 1)
  }

  /** Every non-null value the children give for a role, in row order. */
  function NonNullValues(children: seq<ContactNode>, role: Role): (values: seq<Variant>)
    ensures forall v :: v in values <==> !v.Null? && exists i :: 0 <= i < |children| && NodeData(children[i], role) == v
    ensures |values| == NonNullCount(children, role)
  {
    if children == [] then []
    else
      var init, last := children[..|children| - 1], children[|children| - 1];
      var rest := NonNullValues(init, role);
      assert forall i :: 0 <= i < |init| ==> init[i] == children[i];
      if NodeData(last, role).Null? then rest else rest + [NodeData(last, role)]
  }

  /** One child contributes its value when it is non-null, and nothing otherwise. */
  lemma NonNullValuesOne(c: ContactNode, role: Role)
    ensures NonNullValues([c], role) == if NodeData(c, role).Null? then [] else [NodeData(c, role)]
  {
    assert [c][..0] == [];
  }

  /**
   * The values of consecutive runs of children are concatenated in row
   * order; with `NonNullValuesOne` this fixes the whole list, order and
   * repeats included.
   */
  lemma {:induction false} NonNullValuesAppend(a: seq<ContactNode>, b: seq<ContactNode>, role: Role)
    ensures NonNullValues(a + b, role) == NonNullValues(a, role) + NonNullValues(b, role)
    decreases |b|
  {
    if b == [] {
      assert a + b == a;
    } else {
      var init, last := b[..|b| - 1], b[|b| - 1];
      assert (a + b)[..|a + b| - 1] == a + init;
      assert (a + b)[|a + b| - 1] == last;
      NonNullValuesAppend(a, init, role);
      if !NodeData(last, role).Null? {
        assert NonNullValues(a, role) + (NonNullValues(init, role) + [NodeData(last, role)])
          == NonNullValues(a, role) + NonNullValues(init, role) + [NodeData(last, role)];
      }
    }
  }

  /** The roles a person answers with the list of its children's values. */
  predicate ListRole(role: Role)
  {
    role in {Label, IM, Phone, Email, Photo, ContactId, ContactType}
  }

  /** A person item's data for a role, given its uri and its contact rows. */
  function PersonData(uri: string, children: seq<ContactNode>, role: Role): (v: Variant)
    ensures role == Uri ==> v == Url(uri)
    ensures role == ContactsCount ==> v == Int(|children|)
    ensures ListRole(role) ==> v.List? && forall x :: x in v.items ==> !x.Null?
  {
    if role == Name || role == Display then
      var display := FirstNonNull(children, Display);
      var value := if display.Null? then FirstNonNull(children, ContactId) else display;
      if value.Null? then Str("PIMO:Person - " + uri) else value
    else if role == Status || role == Nick then FirstNonNull(children, role)
    else if ListRole(role) then List(NonNullValues(children, role))
    else if role == ContactsCount then Int(|children|)
    else if role == ResourceType then Resource(PersonResource)
    else if role == Uri then Url(uri)
    else Null
  }

  /**
   * A person's name is the first display name among its contacts, else the
   * first contact id, else a text made from the person's uri.
   */
  lemma PersonName(uri: string, children: seq<ContactNode>)
    ensures PersonData(uri, children, Name) == PersonData(uri, children, Display)
    ensures var d := PersonData(uri, children, Display);
      (exists k :: 0 <= k < |children| && d == NodeData(children[k], Display) && !d.Null? &&
        forall j :: 0 <= j < k ==> NodeData(children[j], Display).Null?) ||
      ((forall i :: 0 <= i < |children| ==> NodeData(children[i], Display).Null?) &&
        exists k :: 0 <= k < |children| && d == NodeData(children[k], ContactId) && !d.Null? &&
          forall j :: 0 <= j < k ==> NodeData(children[j], ContactId).Null?) ||
      ((forall i :: 0 <= i < |children| ==> NodeData(children[i], Display).Null? && NodeData(children[i], ContactId).Null?) &&
        d == Str("PIMO:Person - " + uri))
  {
  }

  /**
   * List roles hold exactly the non-null values of the children, in row
   * order (`NonNullValuesOne`, `NonNullValuesAppend`); the count is the
   * number of children.
   */
  lemma PersonListsAndCount(uri: string, children: seq<ContactNode>, role: Role)
    ensures ListRole(role) ==> PersonData(uri, children, role) == List(NonNullValues(children, role))
    ensures ListRole(role) ==> (PersonData(uri, children, role).List? &&
      forall v :: v in PersonData(uri, children, role).items <==>
        !v.Null? && exists i :: 0 <= i < |children| && NodeData(children[i], role) == v)
    ensures PersonData(uri, children, ContactsCount) == Int(|children|)
    ensures PersonData(uri, children, ResourceType) == Resource(PersonResource)
    ensures PersonData(uri, children, Uri) == Url(uri)
  {
  }

  /** Looks through the children in row order for the first non-null value of a role. */
  method QueryChildrenForRole(children: seq<ContactNode>, role: Role) returns (value: Variant)
    ensures value == FirstNonNull(children, role)
  {
    var i := 0;
    while i < |children|
      invariant 0 <= i <= |children|
      invariant forall j :: 0 <= j < i ==> NodeData(children[j], role).Null?
    {
      value := NodeData(children[i], role);
      if !value.Null? {
        FirstNonNullAt(children, role, i);
        return;
      }
      i := i + 1;
    }
    value := Null;
  }

  lemma {:induction false} FirstNonNullAt(children: seq<ContactNode>, role: Role, i: nat)
    requires i < |children| && !NodeData(children[i], role).Null?
    requires forall j :: 0 <= j < i ==> NodeData(children[j], role).Null?
    ensures FirstNonNull(children, role) == NodeData(children[i], role)
  {
    if i > 0 {
      assert children[1..][i - 1] == children[i];
      FirstNonNullAt(children[1..], role, i - 1);
    }
  }

  /** Collects the non-null values of a role over the children, in row order. */
  method QueryChildrenForRoleList(children: seq<ContactNode>, role: Role) returns (ret: seq<Variant>)
    ensures ret == NonNullValues(children, role)
  {
    ret := [];
    var i := 0;
    while i < |children|
      invariant 0 <= i <= |children|
      invariant ret == NonNullValues(children[..i], role)
    {
      assert children[..i + 1][..i] == children[..i];
      var value := NodeData(children[i], role);
      if !value.Null? {
        ret := ret + [value];
      }
      i := i + 1;
    }
    assert children[..i] == children;
  }

  /** The children whose uri is not listed, order kept. */
  function Keep(children: seq<ContactNode>, uris: seq<string>): (kept: seq<ContactNode>)
    ensures |kept| <= |children|
  {
    if children == [] then []
    else
      var rest := Keep(children[1..], uris);
      if children[0].uri in uris then rest else [children[0]] + rest
  }

  /** Exactly the children whose uri is not listed are kept. */
  lemma {:induction false} KeepMembers(children: seq<ContactNode>, uris: seq<string>)
    ensures forall c :: c in Keep(children, uris) <==> c in children && c.uri !in uris
  {
    if children != [] {
      KeepMembers(children[1..], uris);
      assert forall c :: c in children <==> c == children[0] || c in children[1..];
    }
  }

  /** `a` is `b` with some elements left out, order kept. */
  predicate IsSubsequence(a: seq<ContactNode>, b: seq<ContactNode>)
    decreases |b|
  {
    if a == [] then true
    else if b == [] then false
    else if a[0] == b[0] then IsSubsequence(a[1..], b[1..])
    else IsSubsequence(a, b[1..])
  }

  /** Keeping children preserves their relative order. */
  lemma {:induction false} KeepIsSubsequence(children: seq<ContactNode>, uris: seq<string>)
    ensures IsSubsequence(Keep(children, uris), children)
  {
    if children != [] {
      KeepIsSubsequence(children[1..], uris);
      var rest := Keep(children[1..], uris);
      if children[0].uri in uris {
        SubsequenceOfTail(rest, children);
      } else {
        assert ([children[0]] + rest)[1..] == rest;
      }
    }
  }

  lemma {:induction false} SubsequenceOfTail(a: seq<ContactNode>, b: seq<ContactNode>)
    requires b != [] && IsSubsequence(a, b[1..])
    ensures IsSubsequence(a, b)
    decreases |a| + |b|
  {
    if a != [] && a[0] == b[0] {
      SubsequenceDropHead(a, b[1..]);
    }
  }

  lemma {:induction false} SubsequenceDropHead(a: seq<ContactNode>, c: seq<ContactNode>)
    requires a != [] && IsSubsequence(a, c)
    ensures IsSubsequence(a[1..], c)
    decreases |a| + |c|
  {
    if c != [] {
      if a[0] == c[0] {
        if a[1..] != [] {
          SubsequenceOfTail(a[1..], c);
        }
      } else {
        SubsequenceDropHead(a, c[1..]);
        if a[1..] != [] {
          SubsequenceOfTail(a[1..], c);
        }
      }
    }
  }

  lemma KeepCons(c: ContactNode, rest: seq<ContactNode>, uris: seq<string>)
    ensures Keep([c] + rest, uris) == if c.uri in uris then Keep(rest, uris) else [c] + Keep(rest, uris)
  {
    assert ([c] + rest)[1..] == rest;
  }

  /** One pass of the removal loop: drop row `i` or step past it. */
  lemma RemoveStep(children: seq<ContactNode>, uris: seq<string>, kept: seq<ContactNode>, i: nat)
    requires i < |kept| && Keep(children, uris) == kept[..i] + Keep(kept[i..], uris)
    ensures kept[i].uri in uris ==>
      var next := kept[..i] + kept[i + 1..];
      Keep(children, uris) == next[..i] + Keep(next[i..], uris)
    ensures kept[i].uri !in uris ==> Keep(children, uris) == kept[..i + 1] + Keep(kept[i + 1..], uris)
  {
    var c, tail := kept[i], kept[i + 1..];
    assert kept[i..] == [c] + tail;
    KeepCons(c, tail, uris);
    if c.uri in uris {
      var next := kept[..i] + tail;
      assert next[i..] == tail;
      assert next[..i] == kept[..i];
    } else {
      assert kept[..i + 1] == kept[..i] + [c];
      assert kept[..i] + ([c] + Keep(tail, uris)) == (kept[..i] + [c]) + Keep(tail, uris);
    }
  }

  /** Removes, in one pass over the rows, every child whose uri is listed. */
  method RemoveChildren(children: seq<ContactNode>, uris: seq<string>) returns (kept: seq<ContactNode>)
    ensures kept == Keep(children, uris)
  {
    kept := children;
    var i := 0;
    while i < |kept|
      invariant 0 <= i <= |kept|
      invariant Keep(children, uris) == kept[..i] + Keep(kept[i..], uris)
      decreases |kept| - i
    {
      RemoveStep(children, uris, kept, i);
      if kept[i].uri in uris {
        kept := kept[..i] + kept[i + 1..];
      } else {
        i := i + 1;
      }
    }
    assert kept[i..] == [];
    assert kept[..i] == kept;
  }
}

=== FILE: person_store.dfy ===
/**
 * The identity store: the persistent table that groups contact ids into
 * persons, and the merge/unmerge operations that rewrite it.
 *
 * The table `persons (contactID VARCHAR UNIQUE NOT NULL, personID INT NOT NULL)`
 * is a sequence of rows in insertion (rowid) order. A person id is the
 * scheme "kpeople://" followed by the value stored in personID.
 */
module PersonStore {
  import opened Values

  /** The scheme that marks a person id. */
  const Scheme: string := "kpeople://"

  predicate IsPersonId(id: string)
  {
    StartsWith(id, Scheme)
  }

  // ---------------------------------------------------------------------
  // Person keys: what the INT column personID holds
  // ---------------------------------------------------------------------

  /** A personID value: an integer, or text the column's numeric affinity could not convert. */
  datatype PersonKey = Num(n: nat) | Text(t: string)

  /** A text key is only ever stored when the text is not a numeral. */
  predicate WellFormedKey(k: PersonKey)
  {
    k.Text? ==> !IsNumeral(k.t)
  }

  /** The value stored when the text `bound` is bound to personID. */
  function StoredKey(bound: string): (k: PersonKey)
    ensures WellFormedKey(k)
    ensures k.Num? <==> IsNumeral(bound)
  {
    if IsNumeral(bound) then Num(ParseNumeral(bound)) else Text(bound)
  }

  /** QVariant::toString of a stored personID. */
  function KeyText(k: PersonKey): string
  {
    match k
    case Num(n) => DecimalText(n)
    case Text(t) => t
  }

  function PersonIdOf(k: PersonKey): string
  {
    Scheme + KeyText(k)
  }

  /** The key a person id is bound as: the text after the scheme. */
  function KeyOfPersonId(personId: string): PersonKey
    requires IsPersonId(personId)
  {
    StoredKey(personId[|Scheme|..])
  }

  lemma {:induction false} PersonIdRoundTrip(k: PersonKey)
    requires WellFormedKey(k)
    ensures IsPersonId(PersonIdOf(k))
    ensures KeyOfPersonId(PersonIdOf(k)) == k
  {
    var id := PersonIdOf(k);
    assert id[..|Scheme|] == Scheme;
    assert id[|Scheme|..] == KeyText(k);
    match k
    case Num(n) => ParseDecimalText(n);
    case Text(t) =>
  }

  // ---------------------------------------------------------------------
  // The table
  // ---------------------------------------------------------------------

  datatype Row = Row(contactId: string, personId: PersonKey)

  /** The UNIQUE constraint on contactID. */
  predicate UniqueContacts(rows: seq<Row>)
  {
    forall i, j :: 0 <= i < j < |rows| ==> rows[i].contactId != rows[j].contactId
  }

  predicate WellFormedTable(rows: seq<Row>)
  {
    UniqueContacts(rows) && forall i :: 0 <= i < |rows| ==> WellFormedKey(rows[i].personId)
  }

  /** SELECT personId FROM persons WHERE contactId = c, first row. */
  function Lookup(rows: seq<Row>, contactId: string): Option<PersonKey>
  {
    if rows == [] then None
    else if rows[0].contactId == contactId then Some(rows[0].personId)
    else Lookup(rows[1..], contactId)
  }

  lemma {:induction false} LookupAbsent(rows: seq<Row>, c: string)
    ensures Lookup(rows, c).None? <==> forall i :: 0 <= i < |rows| ==> rows[i].contactId != c
  {
    if rows != [] {
      LookupAbsent(rows[1..], c);
      if rows[0].contactId != c {
        forall i | 1 <= i < |rows|
          ensures rows[i].contactId == rows[1..][i - 1].contactId
        {
        }
      }
    }
  }

  lemma {:induction false} LookupRow(rows: seq<Row>, i: nat)
    requires UniqueContacts(rows) && i < |rows|
    ensures Lookup(rows, rows[i].contactId) == Some(rows[i].personId)
  {
    if i > 0 {
      assert rows[0].contactId != rows[i].contactId;
      assert rows[1..][i - 1] == rows[i];
      LookupRow(rows[1..], i - 1);
    }
  }

  lemma {:induction false} LookupHit(rows: seq<Row>, c: string)
    requires Lookup(rows, c).Some?
    ensures exists i :: 0 <= i < |rows| && rows[i] == Row(c, Lookup(rows, c).value)
  {
    if rows[0].contactId != c {
      LookupHit(rows[1..], c);
      var i :| 0 <= i < |rows[1..]| && rows[1..][i] == Row(c, Lookup(rows, c).value);
      assert rows[i + 1] == rows[1..][i];
    }
  }

  lemma {:induction false} LookupAppend(rows: seq<Row>, r: Row, c: string)
    ensures Lookup(rows + [r], c) ==
      if Lookup(rows, c).Some? then Lookup(rows, c)
      else if r.contactId == c then Some(r.personId)
      else None
  {
    if rows != [] {
      assert (rows + [r])[1..] == rows[1..] + [r];
      LookupAppend(rows[1..], r, c);
    }
  }

  lemma {:induction false} LookupWellFormed(rows: seq<Row>, c: string)
    requires WellFormedTable(rows) && Lookup(rows, c).Some?
    ensures WellFormedKey(Lookup(rows, c).value)
  {
    LookupHit(rows, c);
  }

  /** SELECT contactID FROM persons WHERE personId = k, in row order. */
  function ContactsOf(rows: seq<Row>, k: PersonKey): seq<string>
  {
    if rows == [] then []
    else
      var last := rows[|rows| - 1];
      ContactsOf(rows[..|rows| - 1], k) + (if last.personId == k then [last.contactId] else [])
  }

  lemma {:induction false} ContactsOfMembers(rows: seq<Row>, k: PersonKey)
    requires UniqueContacts(rows)
    ensures forall c :: c in ContactsOf(rows, k) <==> Lookup(rows, c) == Some(k)
    ensures NoDuplicates(ContactsOf(rows, k))
  {
    if rows != [] {
      var init, last := rows[..|rows| - 1], rows[|rows| - 1];
      assert rows == init + [last];
      ContactsOfMembers(init, k);
      forall i | 0 <= i < |init|
        ensures init[i].contactId != last.contactId
      {
        assert rows[i] == init[i];
      }
      LookupAbsent(init, last.contactId);
      forall c
        ensures c in ContactsOf(rows, k) <==> Lookup(rows, c) == Some(k)
      {
        LookupAppend(init, last, c);
      }
    }
  }

  // ---------------------------------------------------------------------
  // SQL statements
  // ---------------------------------------------------------------------

  /** INSERT INTO persons VALUES (c, k): a contact id already present violates UNIQUE and the row is not added. */
  function InsertRow(rows: seq<Row>, c: string, k: PersonKey): seq<Row>
  {
    if Lookup(rows, c).Some? then rows else rows + [Row(c, k)]
  }

  /** UPDATE persons SET personID = k WHERE contactID = c */
  function UpdateRows(rows: seq<Row>, c: string, k: PersonKey): seq<Row>
  {
    seq(|rows|, i requires 0 <= i < |rows| => if rows[i].contactId == c then Row(c, k) else rows[i])
  }

  /** DELETE FROM persons WHERE contactId = c */
  function DeleteContactRows(rows: seq<Row>, c: string): (r: seq<Row>)
    ensures forall x :: x in r ==> x in rows && x.contactId != c
  {
    if rows == [] then []
    else if rows[0].contactId == c then DeleteContactRows(rows[1..], c)
    else [rows[0]] + DeleteContactRows(rows[1..], c)
  }

  /** DELETE FROM persons WHERE personId = k */
  function DeletePersonRows(rows: seq<Row>, k: PersonKey): (r: seq<Row>)
    ensures forall x :: x in r ==> x in rows && x.personId != k
  {
    if rows == [] then []
    else if rows[0].personId == k then DeletePersonRows(rows[1..], k)
    else [rows[0]] + DeletePersonRows(rows[1..], k)
  }

  lemma {:induction false} InsertRowEffect(rows: seq<Row>, c: string, k: PersonKey)
    requires WellFormedTable(rows) && WellFormedKey(k)
    ensures WellFormedTable(InsertRow(rows, c, k))
    ensures (forall d ::
      Lookup(InsertRow(rows, c, k), d) ==
      (if d == c && Lookup(rows, c).None? then Some(k) else Lookup(rows, d)))
  {
    if Lookup(rows, c).None? {
      LookupAbsent(rows, c);
      forall d
        ensures Lookup(rows + [Row(c, k)], d) == if d == c then Some(k) else Lookup(rows, d)
      {
        LookupAppend(rows, Row(c, k), d);
      }
    }
  }

  lemma {:induction false} UpdateRowsLookup(rows: seq<Row>, c: string, k: PersonKey, d: string)
    ensures Lookup(UpdateRows(rows, c, k), d) ==
      (if d == c && Lookup(rows, c).Some? then Some(k) else Lookup(rows, d))
  {
    if rows != [] {
      assert UpdateRows(rows, c, k)[1..] == UpdateRows(rows[1..], c, k);
      UpdateRowsLookup(rows[1..], c, k, d);
    }
  }

  lemma UpdateRowsEffect(rows: seq<Row>, c: string, k: PersonKey)
    requires WellFormedTable(rows) && WellFormedKey(k)
    ensures WellFormedTable(UpdateRows(rows, c, k))
    ensures (forall d ::
      Lookup(UpdateRows(rows, c, k), d) ==
      (if d == c && Lookup(rows, c).Some? then Some(k) else Lookup(rows, d)))
  {
    forall d
      ensures Lookup(UpdateRows(rows, c, k), d) ==
        (if d == c && Lookup(rows, c).Some? then Some(k) else Lookup(rows, d))
    {
      UpdateRowsLookup(rows, c, k, d);
    }
  }

  lemma {:induction false} DeletedRowsUnique(rows: seq<Row>, r: seq<Row>)
    requires UniqueContacts(rows) && rows != []
    requires r == [] || (r[0] == rows[0] && (forall x :: x in r[1..] ==> x in rows[1..]) && UniqueContacts(r[1..]))
    ensures UniqueContacts(r)
  {
    if r != [] {
      forall j | 1 <= j < |r|
        ensures r[0].contactId != r[j].contactId
      {
        assert r[j] == r[1..][j - 1];
        assert r[j] in rows[1..];
        var m :| 0 <= m < |rows[1..]| && rows[1..][m] == r[j];
        assert rows[m + 1] == r[j];
      }
      forall i, j | 1 <= i < j < |r|
        ensures r[i].contactId != r[j].contactId
      {
        assert r[i] == r[1..][i - 1] && r[j] == r[1..][j - 1];
      }
    }
  }

  lemma {:induction false} TailUnique(rows: seq<Row>)
    requires UniqueContacts(rows) && rows != []
    ensures UniqueContacts(rows[1..])
    ensures forall x :: x in rows[1..] ==> x.contactId != rows[0].contactId
  {
    forall x | x in rows[1..]
      ensures x.contactId != rows[0].contactId
    {
      var j :| 0 <= j < |rows[1..]| && rows[1..][j] == x;
      assert rows[j + 1] == x;
    }
  }

  lemma {:induction false} DeleteContactEffect(rows: seq<Row>, c: string)
    requires WellFormedTable(rows)
    ensures WellFormedTable(DeleteContactRows(rows, c))
    ensures forall d :: Lookup(DeleteContactRows(rows, c), d) == if d == c then None else Lookup(rows, d)
  {
    var r := DeleteContactRows(rows, c);
    if rows != [] {
      TailUnique(rows);
      DeleteContactEffect(rows[1..], c);
      if rows[0].contactId != c {
        assert r[1..] == DeleteContactRows(rows[1..], c);
        DeletedRowsUnique(rows, r);
      }
      forall i | 0 <= i < |r|
        ensures WellFormedKey(r[i].personId)
      {
        assert r[i] in rows;
      }
    }
  }

  lemma {:induction false} DeletePersonEffect(rows: seq<Row>, k: PersonKey)
    requires WellFormedTable(rows)
    ensures WellFormedTable(DeletePersonRows(rows, k))
    ensures (forall d ::
      Lookup(DeletePersonRows(rows, k), d) ==
      (if Lookup(rows, d) == Some(k) then None else Lookup(rows, d)))
  {
    var r := DeletePersonRows(rows, k);
    if rows != [] {
      TailUnique(rows);
      DeletePersonEffect(rows[1..], k);
      var rest := DeletePersonRows(rows[1..], k);
      if rows[0].personId != k {
        assert r[1..] == rest;
        DeletedRowsUnique(rows, r);
      }
      forall i | 0 <= i < |r|
        ensures WellFormedKey(r[i].personId)
      {
        assert r[i] in rows;
      }
      forall x | x in rest
        ensures x.contactId != rows[0].contactId
      {
      }
      LookupAbsent(rest, rows[0].contactId);
    }
  }

  // ---------------------------------------------------------------------
  // SELECT MAX(personID)
  // ---------------------------------------------------------------------

  predicate HasTextKey(rows: seq<Row>)
  {
    exists i :: 0 <= i < |rows| && rows[i].personId.Text?
  }

  /** The largest integer key, 0 when there is none. */
  function MaxNumKey(rows: seq<Row>): (m: nat)
    ensures forall i :: 0 <= i < |rows| && rows[i].personId.Num? ==> rows[i].personId.n <= m
    ensures m == 0 || exists i :: 0 <= i < |rows| && rows[i].personId == Num(m)
  {
    if rows == [] then 0
    else
      var init, last := rows[..|rows| - 1], rows[|rows| - 1];
      var m := MaxNumKey(init);
      assert forall i :: 0 <= i < |init| ==> rows[i] == init[i];
      if last.personId.Num? && last.personId.n > m then last.personId.n else m
  }

  /**
   * SELECT MAX(personID) read with toInt(): NULL on an empty table reads as 0,
   * and so does a text maximum (SQLite orders text above every integer).
   */
  function MaxPersonIdQuery(rows: seq<Row>): nat
  {
    if HasTextKey(rows) then 0 else MaxNumKey(rows)
  }

  /** Without text keys, one more than the maximum is not any row's key. */
  lemma NextKeyIsFresh(rows: seq<Row>)
    requires !HasTextKey(rows)
    ensures forall c :: Lookup(rows, c) != Some(Num(MaxPersonIdQuery(rows) + 1))
  {
    forall c | Lookup(rows, c).Some?
      ensures Lookup(rows, c) != Some(Num(MaxPersonIdQuery(rows) + 1))
    {
      LookupHit(rows, c);
    }
  }

  // ---------------------------------------------------------------------
  // mergeContacts
  // ---------------------------------------------------------------------

  /** The ids that carry the person scheme, in order. */
  function PersonIds(ids: seq<string>): (r: seq<string>)
    ensures forall x :: x in r ==> x in ids && IsPersonId(x)
  {
    if ids == [] then []
    else
      var last := ids[|ids| - 1];
      PersonIds(ids[..|ids| - 1]) + (if IsPersonId(last) then [last] else [])
  }

  /** The ids that do not carry the person scheme, in order. */
  function ContactIds(ids: seq<string>): (r: seq<string>)
    ensures forall x :: x in r ==> x in ids && !IsPersonId(x)
  {
    if ids == [] then []
    else
      var last := ids[|ids| - 1];
      ContactIds(ids[..|ids| - 1]) + (if IsPersonId(last) then [] else [last])
  }

  lemma {:induction false} PartitionComplete(ids: seq<string>)
    ensures multiset(PersonIds(ids)) + multiset(ContactIds(ids)) == multiset(ids)
    ensures |PersonIds(ids)| + |ContactIds(ids)| == |ids|
  {
    if ids != [] {
      var init, last := ids[..|ids| - 1], ids[|ids| - 1];
      PartitionComplete(init);
      assert ids == init + [last];
      assert multiset(ids) == multiset(init) + multiset{last};
      if IsPersonId(last) {
        assert PersonIds(ids) == PersonIds(init) + [last];
        assert ContactIds(ids) == ContactIds(init);
      } else {
        assert PersonIds(ids) == PersonIds(init);
        assert ContactIds(ids) == ContactIds(init) + [last];
      }
    }
  }

  /** The person id a merge joins into: the first person id given, or one past the largest key. */
  function MergeTarget(rows: seq<Row>, metas: seq<string>): (target: string)
    requires forall m :: m in metas ==> IsPersonId(m)
    ensures IsPersonId(target)
  {
    if metas == [] then
      var t := Scheme + DecimalText(MaxPersonIdQuery(rows) + 1);
      assert t[..|Scheme|] == Scheme;
      t
    else
      assert metas[0] in metas;
      metas[0]
  }

  /** The contacts of every listed person other than the target, gathered in list order. */
  function Absorbed(rows: seq<Row>, metas: seq<string>, target: string): seq<string>
    requires forall m :: m in metas ==> IsPersonId(m)
  {
    if metas == [] then []
    else
      var last := metas[|metas| - 1];
      Absorbed(rows, metas[..|metas| - 1], target)
        + (if last != target then ContactsOf(rows, KeyOfPersonId(last)) else [])
  }

  /** `k` is the key of some person id in `metas` other than `target`. */
  predicate AbsorbsKey(metas: seq<string>, target: string, k: PersonKey)
  {
    exists m :: m in metas && IsPersonId(m) && m != target && KeyOfPersonId(m) == k
  }

  lemma {:induction false} AbsorbedMembers(rows: seq<Row>, metas: seq<string>, target: string)
    requires UniqueContacts(rows) && forall m :: m in metas ==> IsPersonId(m)
    ensures forall c :: c in Absorbed(rows, metas, target) <==>
      Lookup(rows, c).Some? && AbsorbsKey(metas, target, Lookup(rows, c).value)
  {
    if metas != [] {
      var init, last := metas[..|metas| - 1], metas[|metas| - 1];
      assert metas == init + [last];
      AbsorbedMembers(rows, init, target);
      ContactsOfMembers(rows, KeyOfPersonId(last));
      forall c
        ensures c in Absorbed(rows, metas, target) <==>
          Lookup(rows, c).Some? && AbsorbsKey(metas, target, Lookup(rows, c).value)
      {
        if Lookup(rows, c).Some? && AbsorbsKey(metas, target, Lookup(rows, c).value) {
          var m :| m in metas && IsPersonId(m) && m != target && KeyOfPersonId(m) == Lookup(rows, c).value;
          if m != last {
            assert m in init;
          }
        }
      }
    }
  }

  /** The INSERT statements of a merge, one per contact, in order. */
  function InsertAll(rows: seq<Row>, cs: seq<string>, k: PersonKey): seq<Row>
  {
    if cs == [] then rows
    else InsertRow(InsertAll(rows, cs[..|cs| - 1], k), cs[|cs| - 1], k)
  }

  /** The UPDATE statements of a merge, one per contact, in order. */
  function UpdateAll(rows: seq<Row>, cs: seq<string>, k: PersonKey): seq<Row>
  {
    if cs == [] then rows
    else UpdateRows(UpdateAll(rows, cs[..|cs| - 1], k), cs[|cs| - 1], k)
  }

  lemma {:induction false} InsertAllEffect(rows: seq<Row>, cs: seq<string>, k: PersonKey)
    requires WellFormedTable(rows) && WellFormedKey(k)
    ensures WellFormedTable(InsertAll(rows, cs, k))
    ensures (forall d ::
      Lookup(InsertAll(rows, cs, k), d) ==
      (if Lookup(rows, d).None? && d in cs then Some(k) else Lookup(rows, d)))
  {
    if cs != [] {
      var init := cs[..|cs| - 1];
      assert cs == init + [cs[|cs| - 1]];
      InsertAllEffect(rows, init, k);
      InsertRowEffect(InsertAll(rows, init, k), cs[|cs| - 1], k);
    }
  }

  lemma {:induction false} UpdateAllEffect(rows: seq<Row>, cs: seq<string>, k: PersonKey)
    requires WellFormedTable(rows) && WellFormedKey(k)
    ensures WellFormedTable(UpdateAll(rows, cs, k))
    ensures (forall d ::
      Lookup(UpdateAll(rows, cs, k), d) ==
      (if Lookup(rows, d).Some? && d in cs then Some(k) else Lookup(rows, d)))
  {
    if cs != [] {
      var init := cs[..|cs| - 1];
      assert cs == init + [cs[|cs| - 1]];
      UpdateAllEffect(rows, init, k);
      UpdateRowsEffect(UpdateAll(rows, init, k), cs[|cs| - 1], k);
    }
  }

  // ---------------------------------------------------------------------
  // Notifications
  // ---------------------------------------------------------------------

  datatype Signal =
    | ContactAddedToPerson(contactId: string, personId: string)
    | ContactRemovedFromPerson(contactId: string)

  /** A signal broadcast on the session bus, or emitted only on the local object. */
  datatype Event = Broadcast(signal: Signal) | Emitted(signal: Signal)

  function AddedEvents(cs: seq<string>, personId: string): seq<Event>
  {
    if cs == [] then []
    else AddedEvents(cs[..|cs| - 1], personId) + [Broadcast(ContactAddedToPerson(cs[|cs| - 1], personId))]
  }

  function MovedEvents(cs: seq<string>, personId: string): seq<Event>
  {
    if cs == [] then []
    else
      var c := cs[|cs| - 1];
      MovedEvents(cs[..|cs| - 1], personId)
        + [Broadcast(ContactRemovedFromPerson(c)), Broadcast(ContactAddedToPerson(c, personId))]
  }

  function RemovedEvents(cs: seq<string>): seq<Event>
  {
    if cs == [] then []
    else RemovedEvents(cs[..|cs| - 1]) + [Broadcast(ContactRemovedFromPerson(cs[|cs| - 1]))]
  }

  lemma {:induction false} AddedEventsAt(cs: seq<string>, personId: string)
    ensures |AddedEvents(cs, personId)| == |cs|
    ensures forall i :: 0 <= i < |cs| ==> AddedEvents(cs, personId)[i] == Broadcast(ContactAddedToPerson(cs[i], personId))
  {
    if cs != [] {
      AddedEventsAt(cs[..|cs| - 1], personId);
    }
  }

  lemma {:induction false} MovedEventsAt(cs: seq<string>, personId: string)
    ensures |MovedEvents(cs, personId)| == 2 * |cs|
    ensures forall i :: 0 <= i < |cs| ==>
      MovedEvents(cs, personId)[2 * i] == Broadcast(ContactRemovedFromPerson(cs[i])) &&
      MovedEvents(cs, personId)[2 * i + 1] == Broadcast(ContactAddedToPerson(cs[i], personId))
  {
    if cs != [] {
      MovedEventsAt(cs[..|cs| - 1], personId);
    }
  }

  lemma {:induction false} RemovedEventsAt(cs: seq<string>)
    ensures |RemovedEvents(cs)| == |cs|
    ensures forall i :: 0 <= i < |cs| ==> RemovedEvents(cs)[i] == Broadcast(ContactRemovedFromPerson(cs[i]))
  {
    if cs != [] {
      RemovedEventsAt(cs[..|cs| - 1]);
    }
  }

  // ---------------------------------------------------------------------
  // Whole operations as functions of the table
  // ---------------------------------------------------------------------

  datatype MergeOutcome = MergeOutcome(personId: string, rows: seq<Row>, sent: seq<Event>)

  /** What mergeContacts returns, leaves in the table and sends. */
  function Merge(rows: seq<Row>, ids: seq<string>): (r: MergeOutcome)
    ensures r.personId == "" || IsPersonId(r.personId)
    ensures r.personId == "" ==> r.rows == rows && r.sent == []
  {
    var metas := PersonIds(ids);
    var contacts := ContactIds(ids);
    if |contacts| + |metas| < 2 then MergeOutcome("", rows, [])
    else MergeInto(rows, metas, contacts, MergeTarget(rows, metas))
  }

  /** A merge of at least two ids into `target`: person ids alone are joined, otherwise contacts are added. */
  function MergeInto(rows: seq<Row>, metas: seq<string>, contacts: seq<string>, target: string): MergeOutcome
    requires IsPersonId(target) && forall m :: m in metas ==> IsPersonId(m)
  {
    var key := KeyOfPersonId(target);
    if |metas| > 1 && |contacts| == 0 then
      var moved := Absorbed(rows, metas, target);
      MergeOutcome(target, UpdateAll(rows, moved, key), MovedEvents(moved, target))
    else
      MergeOutcome(target, InsertAll(rows, contacts, key), AddedEvents(contacts, target))
  }

  datatype UnmergeOutcome = UnmergeOutcome(rows: seq<Row>, sent: seq<Event>)

  /** What unmergeContact leaves in the table and sends. */
  function Unmerge(rows: seq<Row>, id: string): (r: UnmergeOutcome)
    ensures forall x :: x in r.rows ==> x in rows
    ensures IsPersonId(id) ==> forall x :: x in r.rows ==> x.personId != KeyOfPersonId(id)
    ensures !IsPersonId(id) ==> forall x :: x in r.rows ==> x.contactId != id
  {
    if IsPersonId(id) then
      var key := KeyOfPersonId(id);
      UnmergeOutcome(DeletePersonRows(rows, key), RemovedEvents(ContactsOf(rows, key)))
    else
      UnmergeOutcome(DeleteContactRows(rows, id), [Emitted(ContactRemovedFromPerson(id))])
  }

  // ---------------------------------------------------------------------
  // Properties of merge and unmerge
  // ---------------------------------------------------------------------

  /** Fewer than two ids merge nothing: the result is empty and nothing changes. */
  lemma MergeNeedsTwoIds(rows: seq<Row>, ids: seq<string>)
    requires |ids| < 2
    ensures Merge(rows, ids) == MergeOutcome("", rows, [])
  {
    PartitionComplete(ids);
  }

  /** The id a merge returns: the first person id given, or else a person id no contact belongs to yet. */
  lemma MergeResult(rows: seq<Row>, ids: seq<string>)
    requires WellFormedTable(rows) && |ids| >= 2
    ensures IsPersonId(Merge(rows, ids).personId)
    ensures PersonIds(ids) != [] ==> Merge(rows, ids).personId == PersonIds(ids)[0]
    ensures PersonIds(ids) == [] ==> Merge(rows, ids).personId == Scheme + DecimalText(MaxPersonIdQuery(rows) + 1)
    ensures PersonIds(ids) == [] && rows == [] ==> Merge(rows, ids).personId == "kpeople://1"
    ensures PersonIds(ids) == [] && !HasTextKey(rows) ==>
      forall c :: Lookup(rows, c) != Some(KeyOfPersonId(Merge(rows, ids).personId))
  {
    MergeReturnsTarget(rows, ids);
    MergeTargetValue(rows, PersonIds(ids));
  }

  /** At least two ids always merge into the merge target. */
  lemma MergeReturnsTarget(rows: seq<Row>, ids: seq<string>)
    requires |ids| >= 2
    ensures Merge(rows, ids).personId == MergeTarget(rows, PersonIds(ids))
  {
    PartitionComplete(ids);
  }

  /** Without a person id the target is "kpeople://" and one past the largest key: "kpeople://1" on an empty table. */
  lemma MergeTargetValue(rows: seq<Row>, metas: seq<string>)
    requires WellFormedTable(rows) && forall m :: m in metas ==> IsPersonId(m)
    ensures metas == [] ==> MergeTarget(rows, metas) == Scheme + DecimalText(MaxPersonIdQuery(rows) + 1)
    ensures metas == [] && rows == [] ==> MergeTarget(rows, metas) == "kpeople://1"
    ensures metas == [] && !HasTextKey(rows) ==>
      forall c :: Lookup(rows, c) != Some(KeyOfPersonId(MergeTarget(rows, metas)))
  {
    if metas == [] && rows == [] {
      assert MaxPersonIdQuery(rows) == 0;
      assert DecimalText(1) == "1";
    }
    if metas == [] && !HasTextKey(rows) {
      var n := MaxPersonIdQuery(rows) + 1;
      assert MergeTarget(rows, metas) == PersonIdOf(Num(n));
      PersonIdRoundTrip(Num(n));
      NextKeyIsFresh(rows);
    }
  }

  /**
   * Unless only person ids are given, a merge maps every plain contact id
   * that was not yet in the table to the target person and leaves every
   * other mapping alone, sending one ContactAddedToPerson per contact id.
   */
  lemma MergeAddsContacts(rows: seq<Row>, ids: seq<string>)
    requires WellFormedTable(rows) && |ids| >= 2
    requires !(|PersonIds(ids)| > 1 && ContactIds(ids) == [])
    ensures IsPersonId(Merge(rows, ids).personId)
    ensures WellFormedTable(Merge(rows, ids).rows)
    ensures (forall c ::
      Lookup(Merge(rows, ids).rows, c) ==
      (if Lookup(rows, c).None? && c in ids && !IsPersonId(c)
       then Some(KeyOfPersonId(Merge(rows, ids).personId))
       else Lookup(rows, c)))
    ensures |Merge(rows, ids).sent| == |ContactIds(ids)|
    ensures forall i :: 0 <= i < |ContactIds(ids)| ==>
      Merge(rows, ids).sent[i] == Broadcast(ContactAddedToPerson(ContactIds(ids)[i], Merge(rows, ids).personId))
  {
    PartitionComplete(ids);
    MergeResult(rows, ids);
    var out := Merge(rows, ids);
    InsertAllEffect(rows, ContactIds(ids), KeyOfPersonId(out.personId));
    AddedEventsAt(ContactIds(ids), out.personId);
    forall c | c in ids && !IsPersonId(c)
      ensures c in ContactIds(ids)
    {
      assert c !in PersonIds(ids);
      assert multiset(ids)[c] > 0;
    }
  }

  /**
   * Given only person ids, a merge moves every contact of every other listed
   * person to the first one, leaves every other mapping alone, and sends a
   * ContactRemovedFromPerson/ContactAddedToPerson pair per moved contact.
   */
  lemma MergeJoinsPersons(rows: seq<Row>, ids: seq<string>)
    requires WellFormedTable(rows)
    requires |PersonIds(ids)| > 1 && ContactIds(ids) == []
    ensures Merge(rows, ids).personId == PersonIds(ids)[0]
    ensures WellFormedTable(Merge(rows, ids).rows)
    ensures (forall c ::
      Lookup(Merge(rows, ids).rows, c) ==
      (if Lookup(rows, c).Some? && AbsorbsKey(ids, PersonIds(ids)[0], Lookup(rows, c).value)
       then Some(KeyOfPersonId(PersonIds(ids)[0]))
       else Lookup(rows, c)))
    ensures var moved := Absorbed(rows, PersonIds(ids), PersonIds(ids)[0]);
      |Merge(rows, ids).sent| == 2 * |moved| &&
      forall i :: 0 <= i < |moved| ==>
        Merge(rows, ids).sent[2 * i] == Broadcast(ContactRemovedFromPerson(moved[i])) &&
        Merge(rows, ids).sent[2 * i + 1] == Broadcast(ContactAddedToPerson(moved[i], PersonIds(ids)[0]))
  {
    var metas := PersonIds(ids);
    var target := metas[0];
    assert target in metas;
    var moved := Absorbed(rows, metas, target);
    AbsorbedMembers(rows, metas, target);
    UpdateAllEffect(rows, moved, KeyOfPersonId(target));
    MovedEventsAt(moved, target);
    forall k
      ensures AbsorbsKey(metas, target, k) <==> AbsorbsKey(ids, target, k)
    {
      if AbsorbsKey(ids, target, k) {
        var m :| m in ids && IsPersonId(m) && m != target && KeyOfPersonId(m) == k;
        PartitionComplete(ids);
        assert m !in ContactIds(ids);
        assert multiset(ids)[m] > 0;
        assert m in metas;
      }
    }
  }

  /** Unmerging a person id removes every row of that person and nothing else. */
  lemma UnmergePerson(rows: seq<Row>, id: string)
    requires WellFormedTable(rows) && IsPersonId(id)
    ensures WellFormedTable(Unmerge(rows, id).rows)
    ensures (forall c ::
      Lookup(Unmerge(rows, id).rows, c) ==
      (if Lookup(rows, c) == Some(KeyOfPersonId(id)) then None else Lookup(rows, c)))
    ensures var members := ContactsOf(rows, KeyOfPersonId(id));
      |Unmerge(rows, id).sent| == |members| &&
      forall i :: 0 <= i < |members| ==>
        Unmerge(rows, id).sent[i] == Broadcast(ContactRemovedFromPerson(members[i]))
  {
    DeletePersonEffect(rows, KeyOfPersonId(id));
    RemovedEventsAt(ContactsOf(rows, KeyOfPersonId(id)));
  }

  /** Unmerging a contact id removes that contact's row only and emits one local signal. */
  lemma UnmergeContact(rows: seq<Row>, id: string)
    requires WellFormedTable(rows) && !IsPersonId(id)
    ensures WellFormedTable(Unmerge(rows, id).rows)
    ensures forall c :: Lookup(Unmerge(rows, id).rows, c) == if c == id then None else Lookup(rows, c)
    ensures Unmerge(rows, id).sent == [Emitted(ContactRemovedFromPerson(id))]
  {
    DeleteContactEffect(rows, id);
  }

  /**
   * Merging two contacts that belong to no person, then unmerging the person
   * the merge returned, leaves every contact's mapping as it was before.
   */
  lemma MergeThenUnmerge(rows: seq<Row>, c1: string, c2: string)
    requires WellFormedTable(rows) && !HasTextKey(rows)
    requires !IsPersonId(c1) && !IsPersonId(c2) && c1 != c2
    requires Lookup(rows, c1).None? && Lookup(rows, c2).None?
    ensures IsPersonId(Merge(rows, [c1, c2]).personId)
    ensures var merged := Merge(rows, [c1, c2]);
      Lookup(merged.rows, c1) == Lookup(merged.rows, c2) == Some(KeyOfPersonId(merged.personId))
    ensures var merged := Merge(rows, [c1, c2]);
      forall c :: Lookup(Unmerge(merged.rows, merged.personId).rows, c) == Lookup(rows, c)
  {
    var ids := [c1, c2];
    assert [c1][..0] == [];
    assert PersonIds([c1]) == PersonIds([]) + [];
    assert ContactIds([c1]) == ContactIds([]) + [c1];
    assert ids[..1] == [c1];
    assert PersonIds(ids) == PersonIds([c1]) + [];
    assert ContactIds(ids) == ContactIds([c1]) + [c2];
    assert PersonIds(ids) == [] && ContactIds(ids) == [c1, c2];
    MergeResult(rows, ids);
    MergeAddsContacts(rows, ids);
    var merged := Merge(rows, ids);
    UnmergePerson(merged.rows, merged.personId);
    forall c
      ensures Lookup(Unmerge(merged.rows, merged.personId).rows, c) == Lookup(rows, c)
    {
      if c != c1 && c != c2 {
        assert Lookup(merged.rows, c) == Lookup(rows, c);
      }
    }
  }

  /** The person-to-contacts mapping of a table, as allPersons builds it. */
  function PersonMap(rows: seq<Row>): map<string, set<string>>
  {
    if rows == [] then map[]
    else
      var m := PersonMap(rows[..|rows| - 1]);
      var last := rows[|rows| - 1];
      var p := PersonIdOf(last.personId);
      m[p := (if p in m then m[p] else {}) + {last.contactId}]
  }

  lemma {:induction false} PersonMapMembers(rows: seq<Row>)
    requires UniqueContacts(rows)
    ensures forall p, c :: p in PersonMap(rows) && c in PersonMap(rows)[p] <==>
      Lookup(rows, c).Some? && PersonIdOf(Lookup(rows, c).value) == p
    ensures forall p :: p in PersonMap(rows) ==> exists c :: c in PersonMap(rows)[p]
  {
    if rows != [] {
      var init, last := rows[..|rows| - 1], rows[|rows| - 1];
      assert rows == init + [last];
      PersonMapMembers(init);
      forall i | 0 <= i < |init|
        ensures init[i].contactId != last.contactId
      {
        assert rows[i] == init[i];
      }
      LookupAbsent(init, last.contactId);
      forall p, c
        ensures p in PersonMap(rows) && c in PersonMap(rows)[p] <==>
          Lookup(rows, c).Some? && PersonIdOf(Lookup(rows, c).value) == p
      {
        LookupAppend(init, last, c);
      }
    }
  }

  // ---------------------------------------------------------------------
  // The manager
  // ---------------------------------------------------------------------

  /** Splits ids into person ids and contact ids, keeping their order, as mergeContacts does. */
  method SplitIds(ids: seq<string>) returns (metacontacts: seq<string>, contacts: seq<string>)
    ensures metacontacts == PersonIds(ids) && contacts == ContactIds(ids)
    ensures |metacontacts| + |contacts| == |ids|
  {
    metacontacts := [];
    contacts := [];
    var i := 0;
    while i < |ids|
      invariant 0 <= i <= |ids|
      invariant metacontacts == PersonIds(ids[..i]) && contacts == ContactIds(ids[..i])
    {
      assert ids[..i + 1][..i] == ids[..i];
      if StartsWith(ids[i], Scheme) {
        metacontacts := metacontacts + [ids[i]];
      } else {
        contacts := contacts + [ids[i]];
      }
      i := i + 1;
    }
    assert ids[..i] == ids;
    PartitionComplete(ids);
  }

  class PersonManager {
    /** The persons table, in rowid order. */
    var rows: seq<Row>
    /** Every notification sent so far, oldest first. */
    var events: seq<Event>

    ghost predicate Valid()
      reads this
    {
      WellFormedTable(rows)
    }

    /** Opens the store over the rows already in the database file. */
    constructor (stored: seq<Row>)
      requires WellFormedTable(stored)
      ensures Valid() && rows == stored && events == []
    {
      rows := stored;
      events := [];
    }

    /** The person a contact belongs to, or the contact id itself when it belongs to none. */
    function PersonIdForContact(contactId: string): (r: string)
      reads this
      ensures Lookup(rows, contactId).None? ==> r == contactId
      ensures Lookup(rows, contactId).Some? ==> IsPersonId(r)
    {
      match Lookup(rows, contactId)
      case Some(k) =>
        assert (Scheme + KeyText(k))[..|Scheme|] == Scheme;
        PersonIdOf(k)
      case None => contactId
    }

    /** The contacts of a person, in row order; empty for an id without the person scheme. */
    method ContactsForPersonId(personId: string) returns (ids: seq<string>)
      requires Valid()
      ensures !IsPersonId(personId) ==> ids == []
      ensures IsPersonId(personId) ==> ids == ContactsOf(rows, KeyOfPersonId(personId))
      ensures NoDuplicates(ids)
      ensures forall c :: c in ids <==> IsPersonId(personId) && Lookup(rows, c) == Some(KeyOfPersonId(personId))
    {
      if !IsPersonId(personId) {
        return [];
      }
      var key := StoredKey(personId[|Scheme|..]);
      ids := [];
      var i := 0;
      while i < |rows|
        invariant 0 <= i <= |rows|
        invariant ids == ContactsOf(rows[..i], key)
      {
        assert rows[..i + 1][..i] == rows[..i];
        if rows[i].personId == key {
          ids := ids + [rows[i].contactId];
        }
        i := i + 1;
      }
      assert rows[..i] == rows;
      ContactsOfMembers(rows, key);
    }

    /** Every person id with its contacts. */
    method AllPersons() returns (mapping: map<string, set<string>>)
      requires Valid()
      ensures forall p :: p in mapping ==> IsPersonId(p) && mapping[p] != {}
      ensures forall p, c :: p in mapping && c in mapping[p] ==>
        Lookup(rows, c).Some? && PersonIdForContact(c) == p
      ensures forall c :: Lookup(rows, c).Some? ==>
        PersonIdForContact(c) in mapping && c in mapping[PersonIdForContact(c)]
    {
      mapping := map[];
      var i := 0;
      while i < |rows|
        invariant 0 <= i <= |rows|
        invariant mapping == PersonMap(rows[..i])
      {
        assert rows[..i + 1][..i] == rows[..i];
        var personId := Scheme + KeyText(rows[i].personId);
        var contactId := rows[i].contactId;
        var known := if personId in mapping then mapping[personId] else {};
        mapping := mapping[personId := known + {contactId}];
        i := i + 1;
      }
      assert rows[..i] == rows;
      PersonMapMembers(rows);
      forall p | p in mapping
        ensures IsPersonId(p) && mapping[p] != {}
      {
        var c :| c in mapping[p];
        assert p == Scheme + KeyText(Lookup(rows, c).value);
        assert p[..|Scheme|] == Scheme;
      }
    }

    /** Joins the given ids into one person and returns that person's id ("" when fewer than two ids). */
    method MergeContacts(ids: seq<string>) returns (personId: string)
      requires Valid()
      modifies this
      ensures Valid()
      ensures |old(events)| <= |events| && events[..|old(events)|] == old(events)
      ensures Merge(old(rows), ids) == MergeOutcome(personId, rows, events[|old(events)|..])
    {
      ghost var before, sent := rows, |events|;
      var next := MaxPersonIdQuery(rows) + 1;

      var metacontacts, contacts := SplitIds(ids);

      if |contacts| + |metacontacts| < 2 {
        assert Merge(before, ids) == MergeOutcome("", before, []);
        assert events[sent..] == [];
        return "";
      }

      personId := if |metacontacts| == 0 then PersonIdOf(Num(next)) else metacontacts[0];
      assert personId == MergeTarget(rows, metacontacts);
      var key := KeyOfPersonId(personId);

      if |metacontacts| > 1 && |contacts| == 0 {
        contacts := GatherContacts(metacontacts, personId);
        MoveContacts(contacts, key, personId);
        assert events[sent..] == MovedEvents(contacts, personId);
        return;
      }
      AddContacts(contacts, key, personId);
      assert events[sent..] == AddedEvents(contacts, personId);
    }

    /** The contacts of every listed person other than the target, as mergeContacts gathers them. */
    method GatherContacts(metacontacts: seq<string>, personId: string) returns (contacts: seq<string>)
      requires Valid() && forall m :: m in metacontacts ==> IsPersonId(m)
      ensures contacts == Absorbed(rows, metacontacts, personId)
    {
      contacts := [];
      var j := 0;
      while j < |metacontacts|
        invariant 0 <= j <= |metacontacts|
        invariant contacts == Absorbed(rows, metacontacts[..j], personId)
      {
        assert metacontacts[..j + 1][..j] == metacontacts[..j];
        assert metacontacts[j] in metacontacts;
        if metacontacts[j] != personId {
          var found := ContactsForPersonId(metacontacts[j]);
          contacts := contacts + found;
        }
        j := j + 1;
      }
      assert metacontacts[..j] == metacontacts;
    }

    /** Moves each contact to the person `key` and announces the move, as mergeContacts does when joining persons. */
    method MoveContacts(contacts: seq<string>, key: PersonKey, personId: string)
      requires Valid() && WellFormedKey(key)
      modifies this
      ensures Valid()
      ensures rows == UpdateAll(old(rows), contacts, key)
      ensures events == old(events) + MovedEvents(contacts, personId)
    {
      var n := 0;
      while n < |contacts|
        invariant 0 <= n <= |contacts|
        invariant WellFormedTable(rows)
        invariant rows == UpdateAll(old(rows), contacts[..n], key)
        invariant events == old(events) + MovedEvents(contacts[..n], personId)
      {
        assert contacts[..n + 1][..n] == contacts[..n];
        UpdateRowsEffect(rows, contacts[n], key);
        rows := UpdateRows(rows, contacts[n], key);
        events := events + [Broadcast(ContactRemovedFromPerson(contacts[n])),
                            Broadcast(ContactAddedToPerson(contacts[n], personId))];
        n := n + 1;
      }
      assert contacts[..n] == contacts;
    }

    /** Inserts each contact under the person `key` and announces it, as mergeContacts does otherwise. */
    method AddContacts(contacts: seq<string>, key: PersonKey, personId: string)
      requires Valid() && WellFormedKey(key)
      modifies this
      ensures Valid()
      ensures rows == InsertAll(old(rows), contacts, key)
      ensures events == old(events) + AddedEvents(contacts, personId)
    {
      var n := 0;
      while n < |contacts|
        invariant 0 <= n <= |contacts|
        invariant WellFormedTable(rows)
        invariant rows == InsertAll(old(rows), contacts[..n], key)
        invariant events == old(events) + AddedEvents(contacts[..n], personId)
      {
        assert contacts[..n + 1][..n] == contacts[..n];
        InsertRowEffect(rows, contacts[n], key);
        rows := InsertRow(rows, contacts[n], key);
        events := events + [Broadcast(ContactAddedToPerson(contacts[n], personId))];
        n := n + 1;
      }
      assert contacts[..n] == contacts;
    }

    /** Removes a person (all its rows) or a single contact from the table; always reports success. */
    method UnmergeContact(id: string) returns (success: bool)
      requires Valid()
      modifies this
      ensures Valid() && success
      ensures |old(events)| <= |events| && events[..|old(events)|] == old(events)
      ensures Unmerge(old(rows), id) == UnmergeOutcome(rows, events[|old(events)|..])
    {
      if StartsWith(id, Scheme) {
        var contactIds := ContactsForPersonId(id);
        var key := StoredKey(id[|Scheme|..]);
        DeletePersonEffect(rows, key);
        rows := DeletePersonRows(rows, key);
        var i := 0;
        while i < |contactIds|
          invariant 0 <= i <= |contactIds|
          invariant rows == DeletePersonRows(old(rows), key) && WellFormedTable(rows)
          invariant events == old(events) + RemovedEvents(contactIds[..i])
        {
          assert contactIds[..i + 1][..i] == contactIds[..i];
          events := events + [Broadcast(ContactRemovedFromPerson(contactIds[i]))];
          i := i + 1;
        }
        assert contactIds[..i] == contactIds;
        assert events[|old(events)|..] == RemovedEvents(contactIds);
      } else {
        DeleteContactEffect(rows, id);
        rows := DeleteContactRows(rows, id);
        events := events + [Emitted(ContactRemovedFromPerson(id))];
        assert events[|old(events)|..] == [Emitted(ContactRemovedFromPerson(id))];
      }
      return true;
    }
  }

  /** The person id returned for a contact in the table names a person whose contacts include it. */
  lemma PersonIdForContactListsContact(m: PersonManager, c: string)
    requires m.Valid() && Lookup(m.rows, c).Some?
    ensures IsPersonId(m.PersonIdForContact(c))
    ensures c in ContactsOf(m.rows, KeyOfPersonId(m.PersonIdForContact(c)))
  {
    LookupWellFormed(m.rows, c);
    PersonIdRoundTrip(Lookup(m.rows, c).value);
    ContactsOfMembers(m.rows, Lookup(m.rows, c).value);
  }
}

=== FILE: persons_model.dfy ===
/**
 * The persons model: assembling the tree from query result rows, moving
 * contacts between the top level and person items, and removing a person
 * while keeping its contacts.
 */
module PersonsModels {
  import opened Values
  import opened PersonItems
  import opened ModelTree
  import ContactItems

  /** The uri of the user's own person and contact, never shown in the model. */
  const Me: string := "nepomuk:/me"

  const NcoBase: string := "http://www.semanticdesktop.org/ontologies/2007/03/22"
  const NaoBase: string := "http://www.semanticdesktop.org/ontologies/2007/08/15"
  const NieBase: string := "http://www.semanticdesktop.org/ontologies/2007/01/19"
  const TelepathyBase: string := "http://nepomuk.kde.org/ontologies/2009/06/20"

  /** The locals, after the namespace's last '/', of the properties a contact row is loaded with. */
  const OntologyLocals: seq<string> := [
    "nco#imNickname", "nco#imAccountType", "nco#imID", "nao#prefLabel", "telepathy#statusType",
    "nco#imStatus", "nco#hasIMAccount", "nco#emailAddress", "nco#phoneNumber", "nie#url"]

  /** The namespace of each of those properties. */
  const OntologyBases: seq<string> := [
    NcoBase, NcoBase, NcoBase, NaoBase, TelepathyBase, NcoBase, NcoBase, NcoBase, NcoBase, NieBase]

  /** The full uris of the properties a contact row is loaded with. */
  function OntologyTerms(): (terms: seq<string>)
    ensures |terms| == |OntologyLocals|
  {
    seq(|OntologyLocals|, i requires 0 <= i < |OntologyLocals| => OntologyBases[i] + "/" + OntologyLocals[i])
  }

  lemma LocalsWithoutSlash()
    ensures forall i :: 0 <= i < |OntologyLocals| ==> '/' !in OntologyLocals[i]
  {
    forall i | 0 <= i < |OntologyLocals|
      ensures '/' !in OntologyLocals[i]
    {
      var local := OntologyLocals[i];
      forall j | 0 <= j < |local|
        ensures local[j] != '/'
      {
      }
    }
  }

  /** Each property is read from the binding named by its local with '#' turned into '_'. */
  lemma TermKeys()
    ensures forall i :: 0 <= i < |OntologyLocals| ==> BindingKey(OntologyTerms()[i]) == Underscored(OntologyLocals[i])
  {
    LocalsWithoutSlash();
    forall i | 0 <= i < |OntologyLocals|
      ensures BindingKey(OntologyTerms()[i]) == Underscored(OntologyLocals[i])
    {
      BindingKeyOfTerm(OntologyBases[i], OntologyLocals[i]);
    }
  }

  /** Maps the key `keyOf` gives each property uri to that uri. */
  method KeysOf(terms: seq<string>, keyOf: string -> string) returns (ret: map<string, string>)
    ensures ret.Keys == set i | 0 <= i < |terms| :: keyOf(terms[i])
    ensures forall key :: key in ret ==> ret[key] in terms && keyOf(ret[key]) == key
  {
    ret := map[];
    for i := 0 to |terms|
      invariant ret.Keys == set m | 0 <= m < i :: keyOf(terms[m])
      invariant forall key :: key in ret ==> ret[key] in terms && keyOf(ret[key]) == key
    {
      assert (set m | 0 <= m < i + 1 :: keyOf(terms[m])) ==
        (set m | 0 <= m < i :: keyOf(terms[m])) + {keyOf(terms[i])};
      ret := ret[keyOf(terms[i]) := terms[i]];
    }
  }

  /** Maps each binding key to the property uri it is read for. */
  method InitUriToBinding() returns (ret: map<string, string>)
    ensures ret.Keys == set i | 0 <= i < |OntologyLocals| :: Underscored(OntologyLocals[i])
    ensures forall key :: key in ret ==> ret[key] in OntologyTerms() && BindingKey(ret[key]) == key
  {
    ret := KeysOf(OntologyTerms(), BindingKey);
    TermKeys();
  }

  // ---------------------------------------------------------------------
  // Assembling the model from query results
  // ---------------------------------------------------------------------

  /** One query result: a contact, the person it grounds ("" when none) and its bindings. */
  datatype ResultRow = ResultRow(uri: string, person: string, bindings: map<string, string>)

  /** A result is processed unless it is the user's own contact or grounds the user's own person. */
  predicate Accepted(r: ResultRow)
  {
    r.uri != Me && r.person != Me
  }

  /** The first processed result for a contact, if any. */
  function FirstFor(results: seq<ResultRow>, uri: string): (f: Option<ResultRow>)
    ensures f.Some? ==> f.value in results && Accepted(f.value) && f.value.uri == uri
    ensures f.Some? ==> exists k :: (0 <= k < |results| && results[k] == f.value &&
      forall j :: 0 <= j < k ==> !(Accepted(results[j]) && results[j].uri == uri))
    ensures f.None? ==> forall j :: 0 <= j < |results| ==> !(Accepted(results[j]) && results[j].uri == uri)
  {
    if results == [] then None
    else
      var init, last := results[..|results| - 1], results[|results| - 1];
      assert forall j :: 0 <= j < |init| ==> init[j] == results[j];
      var f := FirstFor(init, uri);
      if f.Some? then f
      else if Accepted(last) && last.uri == uri then Some(last)
      else None
  }

  /** The contact row made from a result: one property per loaded property uri. */
  function LoadNode(r: ResultRow): (n: ContactNode)
    ensures n.uri == r.uri && |n.properties| == |OntologyLocals|
    ensures forall i :: 0 <= i < |OntologyLocals| ==>
      n.properties[i] == Property(OntologyTerms()[i], ContactItems.BindingText(r.bindings, BindingKey(OntologyTerms()[i])))
  {
    var terms := OntologyTerms();
    ContactNode(r.uri,
      seq(|terms|, i requires 0 <= i < |terms| => Property(terms[i], ContactItems.BindingText(r.bindings, BindingKey(terms[i])))),
      map[])
  }

  /** The contacts of `contacts` whose uri is not listed, order kept. */
  function Unowned(contacts: seq<ContactNode>, owned: seq<string>): (r: seq<ContactNode>)
    ensures forall n :: n in r <==> n in contacts && n.uri !in owned
    ensures NoDuplicates(contacts) ==> NoDuplicates(r)
  {
    if contacts == [] then []
    else
      var rest := Unowned(contacts[1..], owned);
      assert forall n :: n in contacts <==> n == contacts[0] || n in contacts[1..];
      if contacts[0].uri in owned then rest else [contacts[0]] + rest
  }

  /** The first processed result for `n`'s uri exists and `n` was made from it. */
  predicate LoadedFromFirst(results: seq<ResultRow>, n: ContactNode)
  {
    FirstFor(results, n.uri).Some? && n == LoadNode(FirstFor(results, n.uri).value)
  }

  /** Where a query places the contacts: each under the person its first result names, or on top. */
  ghost predicate Placed(rows: seq<Node>, results: seq<ResultRow>)
  {
    (forall k :: 0 <= k < |rows| && rows[k].PersonNode? ==>
      rows[k].uri != Me && rows[k].uri != "" &&
      forall n :: n in rows[k].children ==>
        LoadedFromFirst(results, n) && FirstFor(results, n.uri).value.person == rows[k].uri) &&
    (forall k :: 0 <= k < |rows| && rows[k].ContactLeaf? ==>
      LoadedFromFirst(results, rows[k].contact) && FirstFor(results, rows[k].contact.uri).value.person == "") &&
    (forall k1, k2 :: (0 <= k1 < |rows| && 0 <= k2 < |rows| && rows[k1].PersonNode? && rows[k2].PersonNode? &&
      rows[k1].uri == rows[k2].uri) ==> k1 == k2)
  }

  /** Every processed contact is in the model, under its person or on top. */
  ghost predicate Complete(rows: seq<Node>, results: seq<ResultRow>)
  {
    forall u :: FirstFor(results, u).Some? ==>
      var r := FirstFor(results, u).value;
      (r.person == "" ==> ContactLeaf(LoadNode(r)) in rows) &&
      (r.person != "" ==> exists k :: (0 <= k < |rows| && rows[k].PersonNode? && rows[k].uri == r.person &&
        LoadNode(r) in rows[k].children))
  }

  /**
   * In a placed tree a contact is never both on top and under a person, nor
   * under two persons; the user's own contact and person are absent.
   */
  lemma PlacedOnce(rows: seq<Node>, results: seq<ResultRow>)
    requires Placed(rows, results)
    ensures forall k, n :: 0 <= k < |rows| && rows[k].PersonNode? && n in rows[k].children ==>
      n.uri != Me && forall m :: 0 <= m < |rows| && rows[m].ContactLeaf? ==> rows[m].contact.uri != n.uri
    ensures forall k1, k2, n1, n2 :: (0 <= k1 < |rows| && 0 <= k2 < |rows| && rows[k1].PersonNode? && rows[k2].PersonNode? &&
      n1 in rows[k1].children && n2 in rows[k2].children && n1.uri == n2.uri) ==> k1 == k2
    ensures forall k :: 0 <= k < |rows| && rows[k].ContactLeaf? ==> rows[k].contact.uri != Me
  {
  }

  /** The gathered contacts are exactly those made from the first processed result of each uri, once each. */
  ghost predicate GatheredContacts(results: seq<ResultRow>, contacts: seq<ContactNode>)
  {
    NoDuplicates(contacts) &&
    (forall n :: n in contacts ==> LoadedFromFirst(results, n)) &&
    (forall u :: FirstFor(results, u).Some? ==> LoadNode(FirstFor(results, u).value) in contacts)
  }

  /** Each person named by a first result has one entry, holding exactly the contacts that name it. */
  ghost predicate GatheredPersons(results: seq<ResultRow>, contacts: seq<ContactNode>, persons: seq<string>,
                                  members: map<string, seq<ContactNode>>)
  {
    PersonsListed(persons, members) && MembersNamePerson(results, contacts, members) &&
    MembersFiled(results, contacts, members) && MembersOnce(members)
  }

  /** Every person has at least one contact, each listed once. */
  ghost predicate MembersOnce(members: map<string, seq<ContactNode>>)
  {
    forall p :: p in members ==> members[p] != [] && NoDuplicates(members[p])
  }

  /** The persons are listed once each, are the keys of the members map, and are neither empty nor "me". */
  ghost predicate PersonsListed(persons: seq<string>, members: map<string, seq<ContactNode>>)
  {
    NoDuplicates(persons) &&
    (forall p :: p in persons <==> p in members) &&
    (forall p :: p in persons ==> p != "" && p != Me)
  }

  /** Every contact filed under a person is a gathered contact whose first result names that person. */
  ghost predicate MembersNamePerson(results: seq<ResultRow>, contacts: seq<ContactNode>,
                                    members: map<string, seq<ContactNode>>)
  {
    forall p, n :: p in members && n in members[p] ==>
      n in contacts && FirstFor(results, n.uri).Some? && FirstFor(results, n.uri).value.person == p
  }

  /** Every gathered contact whose first result names a person is filed under it. */
  ghost predicate MembersFiled(results: seq<ResultRow>, contacts: seq<ContactNode>,
                               members: map<string, seq<ContactNode>>)
  {
    forall n :: (n in contacts && FirstFor(results, n.uri).Some? && FirstFor(results, n.uri).value.person != "") ==>
      FirstFor(results, n.uri).value.person in members && n in members[FirstFor(results, n.uri).value.person]
  }

  /** The grounded uris are those whose first result names a person. */
  ghost predicate GatheredPimo(results: seq<ResultRow>, pimo: seq<string>)
  {
    forall u :: u in pimo <==> FirstFor(results, u).Some? && FirstFor(results, u).value.person != ""
  }

  /** The contacts a query gathers, with the persons they ground and the grounded uris. */
  ghost predicate Gathered(results: seq<ResultRow>, contacts: seq<ContactNode>, persons: seq<string>,
                           members: map<string, seq<ContactNode>>, pimo: seq<string>)
  {
    GatheredContacts(results, contacts) && GatheredPersons(results, contacts, persons, members) &&
    GatheredPimo(results, pimo)
  }

  lemma FirstForStep(results: seq<ResultRow>, i: nat)
    requires i < |results|
    ensures forall u :: (FirstFor(results[..i + 1], u) ==
      if FirstFor(results[..i], u).Some? then FirstFor(results[..i], u)
      else if Accepted(results[i]) && results[i].uri == u then Some(results[i]) else None)
  {
    assert results[..i + 1][..i] == results[..i];
  }

  /** A result that changes no first result leaves the gathered state as it is. */
  lemma GatheredSame(before: seq<ResultRow>, after: seq<ResultRow>, contacts: seq<ContactNode>, persons: seq<string>,
                     members: map<string, seq<ContactNode>>, pimo: seq<string>)
    requires Gathered(before, contacts, persons, members, pimo)
    requires forall u :: FirstFor(after, u) == FirstFor(before, u)
    ensures Gathered(after, contacts, persons, members, pimo)
  {
  }

  /** A first result for a new uri adds its contact. */
  lemma GatheredNewContact(before: seq<ResultRow>, after: seq<ResultRow>, r: ResultRow, contacts: seq<ContactNode>)
    requires GatheredContacts(before, contacts)
    requires FirstFor(before, r.uri).None?
    requires forall u :: FirstFor(after, u) == if u == r.uri then Some(r) else FirstFor(before, u)
    ensures GatheredContacts(after, contacts + [LoadNode(r)])
  {
    forall n | n in contacts
      ensures n.uri != r.uri
    {
      assert LoadedFromFirst(before, n);
    }
  }

  /** The contacts gathered so far all have other uris than a new first result, whose first results stay. */
  lemma GatheredOthers(before: seq<ResultRow>, after: seq<ResultRow>, r: ResultRow, contacts: seq<ContactNode>)
    requires GatheredContacts(before, contacts) && FirstFor(before, r.uri).None?
    requires forall u :: FirstFor(after, u) == if u == r.uri then Some(r) else FirstFor(before, u)
    ensures forall n :: n in contacts ==> n.uri != r.uri && FirstFor(after, n.uri) == FirstFor(before, n.uri)
  {
    forall n | n in contacts
      ensures n.uri != r.uri
    {
      assert LoadedFromFirst(before, n);
    }
  }

  /** A first result for a new uri naming no person leaves every person's contacts as they were. */
  lemma GatheredNewUnowned(before: seq<ResultRow>, after: seq<ResultRow>, r: ResultRow, contacts: seq<ContactNode>,
                           persons: seq<string>, members: map<string, seq<ContactNode>>)
    requires GatheredContacts(before, contacts) && GatheredPersons(before, contacts, persons, members)
    requires r.person == "" && FirstFor(before, r.uri).None?
    requires forall u :: FirstFor(after, u) == if u == r.uri then Some(r) else FirstFor(before, u)
    ensures GatheredPersons(after, contacts + [LoadNode(r)], persons, members)
  {
    var node := LoadNode(r);
    var contacts' := contacts + [node];
    GatheredOthers(before, after, r, contacts);
    assert MembersNamePerson(after, contacts', members) by {
      forall p, n | p in members && n in members[p]
        ensures n in contacts' && FirstFor(after, n.uri).Some? && FirstFor(after, n.uri).value.person == p
      {
        assert n in contacts;
      }
    }
    assert MembersFiled(after, contacts', members) by {
      forall n | n in contacts' && FirstFor(after, n.uri).Some? && FirstFor(after, n.uri).value.person != ""
        ensures FirstFor(after, n.uri).value.person in members && n in members[FirstFor(after, n.uri).value.person]
      {
        assert n != node;
        assert n in contacts;
      }
    }
  }

  /** After filing a new first result's contact under its person, every filed contact names its person. */
  lemma NewMemberFiled(before: seq<ResultRow>, after: seq<ResultRow>, r: ResultRow, contacts: seq<ContactNode>,
                       members: map<string, seq<ContactNode>>, members': map<string, seq<ContactNode>>)
    requires MembersNamePerson(before, contacts, members)
    requires r.person != "" && forall n :: n in contacts ==> FirstFor(after, n.uri) == FirstFor(before, n.uri)
    requires FirstFor(after, r.uri) == Some(r)
    requires members' == members[r.person := (if r.person in members then members[r.person] else []) + [LoadNode(r)]]
    ensures MembersNamePerson(after, contacts + [LoadNode(r)], members')
  {
    forall p, n | p in members' && n in members'[p]
      ensures n in contacts + [LoadNode(r)] && FirstFor(after, n.uri).Some? && FirstFor(after, n.uri).value.person == p
    {
      if p != r.person || n != LoadNode(r) {
        assert n in members[p];
      }
    }
  }

  /** After filing a new first result's contact under its person, every contact naming a person is filed under it. */
  lemma NewMemberFound(before: seq<ResultRow>, after: seq<ResultRow>, r: ResultRow, contacts: seq<ContactNode>,
                       members: map<string, seq<ContactNode>>, members': map<string, seq<ContactNode>>)
    requires MembersFiled(before, contacts, members)
    requires r.person != "" && forall n :: n in contacts ==> FirstFor(after, n.uri) == FirstFor(before, n.uri)
    requires FirstFor(after, r.uri) == Some(r)
    requires members' == members[r.person := (if r.person in members then members[r.person] else []) + [LoadNode(r)]]
    ensures MembersFiled(after, contacts + [LoadNode(r)], members')
  {
    var node := LoadNode(r);
    forall n | n in contacts + [node] && FirstFor(after, n.uri).Some? && FirstFor(after, n.uri).value.person != ""
      ensures FirstFor(after, n.uri).value.person in members' && n in members'[FirstFor(after, n.uri).value.person]
    {
      if n != node {
        assert n in contacts;
      }
    }
  }

  /** Filing a contact not gathered before keeps every person's contacts non-empty and listed once. */
  lemma NewMemberOnce(r: ResultRow, contacts: seq<ContactNode>, members: map<string, seq<ContactNode>>,
                      members': map<string, seq<ContactNode>>)
    requires MembersOnce(members) && forall p, n :: p in members && n in members[p] ==> n in contacts
    requires LoadNode(r) !in contacts
    requires members' == members[r.person := (if r.person in members then members[r.person] else []) + [LoadNode(r)]]
    ensures MembersOnce(members')
  {
    var before := if r.person in members then members[r.person] else [];
    var after := before + [LoadNode(r)];
    assert LoadNode(r) !in before;
    assert NoDuplicates(after) by {
      forall i, j | 0 <= i < j < |after|
        ensures after[i] != after[j]
      {
        if j == |before| {
          assert after[i] in before;
        }
      }
    }
  }

  /** A person named for the first time is appended to the list and given an entry. */
  lemma NewPersonListed(r: ResultRow, persons: seq<string>, members: map<string, seq<ContactNode>>,
                        persons': seq<string>, members': map<string, seq<ContactNode>>)
    requires PersonsListed(persons, members)
    requires Accepted(r) && r.person != ""
    requires persons' == (if r.person in members then persons else persons + [r.person])
    requires members' == members[r.person := (if r.person in members then members[r.person] else []) + [LoadNode(r)]]
    ensures PersonsListed(persons', members')
  {
    if r.person !in members {
      assert r.person !in persons;
      assert NoDuplicates(persons');
    }
  }

  /** A first result for a new uri naming a person files its contact under that person. */
  lemma GatheredNewMember(before: seq<ResultRow>, after: seq<ResultRow>, r: ResultRow, contacts: seq<ContactNode>,
                          persons: seq<string>, members: map<string, seq<ContactNode>>,
                          persons': seq<string>, members': map<string, seq<ContactNode>>)
    requires GatheredContacts(before, contacts) && GatheredPersons(before, contacts, persons, members)
    requires Accepted(r) && r.person != "" && FirstFor(before, r.uri).None?
    requires forall u :: FirstFor(after, u) == if u == r.uri then Some(r) else FirstFor(before, u)
    requires persons' == (if r.person in members then persons else persons + [r.person])
    requires members' == members[r.person := (if r.person in members then members[r.person] else []) + [LoadNode(r)]]
    ensures GatheredPersons(after, contacts + [LoadNode(r)], persons', members')
  {
    var contacts' := contacts + [LoadNode(r)];
    GatheredOthers(before, after, r, contacts);
    assert MembersOnce(members') by {
      NewMemberOnce(r, contacts, members, members');
    }
    assert MembersNamePerson(after, contacts', members') by {
      NewMemberFiled(before, after, r, contacts, members, members');
    }
    assert MembersFiled(after, contacts', members') by {
      NewMemberFound(before, after, r, contacts, members, members');
    }
    assert PersonsListed(persons', members') by {
      NewPersonListed(r, persons, members, persons', members');
    }
  }

  /** A first result for a new uri grounds that uri exactly when it names a person. */
  lemma GatheredNewPimo(before: seq<ResultRow>, after: seq<ResultRow>, r: ResultRow, pimo: seq<string>, pimo': seq<string>)
    requires GatheredPimo(before, pimo) && FirstFor(before, r.uri).None?
    requires forall u :: FirstFor(after, u) == if u == r.uri then Some(r) else FirstFor(before, u)
    requires pimo' == if r.person != "" then pimo + [r.uri] else pimo
    ensures GatheredPimo(after, pimo')
  {
    assert r.uri !in pimo;
  }

  /** A first result for a new uri adds its contact, files it under its person and grounds its uri. */
  lemma GatheredNew(before: seq<ResultRow>, after: seq<ResultRow>, r: ResultRow, contacts: seq<ContactNode>,
                    persons: seq<string>, members: map<string, seq<ContactNode>>, pimo: seq<string>,
                    persons': seq<string>, members': map<string, seq<ContactNode>>, pimo': seq<string>)
    requires Gathered(before, contacts, persons, members, pimo)
    requires Accepted(r) && FirstFor(before, r.uri).None?
    requires forall u :: FirstFor(after, u) == if u == r.uri then Some(r) else FirstFor(before, u)
    requires r.person == "" ==> persons' == persons && members' == members && pimo' == pimo
    requires r.person != "" ==>
      persons' == (if r.person in members then persons else persons + [r.person]) &&
      members' == members[r.person := (if r.person in members then members[r.person] else []) + [LoadNode(r)]] &&
      pimo' == pimo + [r.uri]
    ensures Gathered(after, contacts + [LoadNode(r)], persons', members', pimo')
  {
    GatheredNewContact(before, after, r, contacts);
    GatheredNewPimo(before, after, r, pimo, pimo');
    if r.person == "" {
      GatheredNewUnowned(before, after, r, contacts, persons, members);
    } else {
      GatheredNewMember(before, after, r, contacts, persons, members, persons', members');
    }
  }

  /** One pass of the grouping loop over result `i`. */
  method GatherStep(results: seq<ResultRow>, i: nat, contacts: seq<ContactNode>, persons: seq<string>,
                    members: map<string, seq<ContactNode>>, pimo: seq<string>)
    returns (contacts': seq<ContactNode>, persons': seq<string>, members': map<string, seq<ContactNode>>, pimo': seq<string>)
    requires i < |results| && Gathered(results[..i], contacts, persons, members, pimo)
    ensures Gathered(results[..i + 1], contacts', persons', members', pimo')
  {
    FirstForStep(results, i);
    var before, after := results[..i], results[..i + 1];
    var r := results[i];
    contacts', persons', members', pimo' := contacts, persons, members, pimo;
    if r.uri == Me || r.person == Me {
      GatheredSame(before, after, contacts, persons, members, pimo);
      return;
    }
    if exists n :: n in contacts && n.uri == r.uri {
      assert FirstFor(before, r.uri).Some?;
      GatheredSame(before, after, contacts, persons, members, pimo);
      return;
    }
    assert FirstFor(before, r.uri).None?;
    var node := LoadNode(r);
    contacts' := contacts + [node];
    if r.person != "" {
      if r.person !in members {
        persons' := persons + [r.person];
        members' := members[r.person := []];
      }
      members' := members'[r.person := members'[r.person] + [node]];
      pimo' := pimo + [r.uri];
    }
    GatheredNew(before, after, r, contacts, persons, members, pimo, persons', members', pimo');
  }

  /** The grouping loop: builds the contacts, the persons and the grounded uris, in result order. */
  method Gather(results: seq<ResultRow>)
    returns (contacts: seq<ContactNode>, persons: seq<string>, members: map<string, seq<ContactNode>>, pimo: seq<string>)
    ensures Gathered(results, contacts, persons, members, pimo)
  {
    contacts, persons, members, pimo := [], [], map[], [];
    for i := 0 to |results|
      invariant Gathered(results[..i], contacts, persons, members, pimo)
    {
      contacts, persons, members, pimo := GatherStep(results, i, contacts, persons, members, pimo);
    }
    assert results[..|results|] == results;
  }

  /** The top-level rows: the persons, then the contacts that ground no person. */
  function Assemble(contacts: seq<ContactNode>, persons: seq<string>, members: map<string, seq<ContactNode>>,
                    pimo: seq<string>): seq<Node>
    requires forall p :: p in persons ==> p in members
  {
    seq(|persons|, i requires 0 <= i < |persons| => PersonNode(persons[i], members[persons[i]])) +
    Leaves(Unowned(contacts, pimo))
  }

  /** Contacts as top-level rows. */
  function Leaves(contacts: seq<ContactNode>): (rows: seq<Node>)
    ensures |rows| == |contacts| && forall i :: 0 <= i < |contacts| ==> rows[i] == ContactLeaf(contacts[i])
  {
    seq(|contacts|, i requires 0 <= i < |contacts| => ContactLeaf(contacts[i]))
  }

  /** The top-level rows of the assembled model: persons first, then the contacts grounding no person. */
  lemma AssembleRows(contacts: seq<ContactNode>, persons: seq<string>, members: map<string, seq<ContactNode>>,
                     pimo: seq<string>)
    requires forall p :: p in persons ==> p in members
    ensures var rows := Assemble(contacts, persons, members, pimo);
      |rows| == |persons| + |Unowned(contacts, pimo)| &&
      (forall k :: 0 <= k < |persons| ==> rows[k] == PersonNode(persons[k], members[persons[k]])) &&
      (forall k :: |persons| <= k < |rows| ==> rows[k] == ContactLeaf(Unowned(contacts, pimo)[k - |persons|]))
  {
  }

  /** The assembled rows place every gathered contact as the query promises. */
  lemma AssemblePlaces(results: seq<ResultRow>, contacts: seq<ContactNode>, persons: seq<string>,
                       members: map<string, seq<ContactNode>>, pimo: seq<string>)
    requires Gathered(results, contacts, persons, members, pimo)
    ensures Placed(Assemble(contacts, persons, members, pimo), results)
  {
    var rows := Assemble(contacts, persons, members, pimo);
    var leaves := Unowned(contacts, pimo);
    AssembleRows(contacts, persons, members, pimo);
    forall k | 0 <= k < |rows| && rows[k].PersonNode?
      ensures rows[k].uri != Me && rows[k].uri != "" &&
        forall n :: n in rows[k].children ==>
          LoadedFromFirst(results, n) && FirstFor(results, n.uri).value.person == rows[k].uri
    {
      assert k < |persons| && persons[k] in persons;
      forall n | n in rows[k].children
        ensures LoadedFromFirst(results, n) && FirstFor(results, n.uri).value.person == rows[k].uri
      {
        assert n in members[persons[k]] && n in contacts;
      }
    }
    forall k | 0 <= k < |rows| && rows[k].ContactLeaf?
      ensures LoadedFromFirst(results, rows[k].contact) && FirstFor(results, rows[k].contact.uri).value.person == ""
    {
      assert rows[k].contact in leaves;
    }
    forall k1, k2 | 0 <= k1 < |rows| && 0 <= k2 < |rows| && rows[k1].PersonNode? && rows[k2].PersonNode? &&
      rows[k1].uri == rows[k2].uri
      ensures k1 == k2
    {
      assert k1 < |persons| && k2 < |persons|;
    }
  }

  /** The assembled rows list each gathered contact once, and every person row has a contact. */
  lemma AssembleOnce(results: seq<ResultRow>, contacts: seq<ContactNode>, persons: seq<string>,
                     members: map<string, seq<ContactNode>>, pimo: seq<string>)
    requires Gathered(results, contacts, persons, members, pimo)
    ensures var rows := Assemble(contacts, persons, members, pimo);
      NoDuplicates(TreeContacts(rows)) &&
      forall k :: 0 <= k < |rows| && rows[k].PersonNode? ==> rows[k].children != []
  {
    var rows := Assemble(contacts, persons, members, pimo);
    var leaves := Unowned(contacts, pimo);
    AssembleRows(contacts, persons, members, pimo);
    forall k | 0 <= k < |rows|
      ensures NoDuplicates(RowContacts(rows[k]))
    {
      if k < |persons| {
        assert persons[k] in members;
      }
    }
    forall k1, k2, n | 0 <= k1 < k2 < |rows| && n in RowContacts(rows[k1])
      ensures n !in RowContacts(rows[k2])
    {
      if k2 < |persons| {
        assert persons[k1] in members && persons[k2] in members;
        assert n in members[persons[k1]] && FirstFor(results, n.uri).value.person == persons[k1];
        assert persons[k1] != persons[k2];
      } else if k1 < |persons| {
        assert persons[k1] in members && n in members[persons[k1]];
        assert n in contacts && FirstFor(results, n.uri).value.person != "";
        assert n.uri in pimo;
      } else {
        assert leaves[k1 - |persons|] != leaves[k2 - |persons|];
      }
    }
    TreeContactsOnce(rows);
  }

  /** The assembled rows hold every gathered contact. */
  lemma AssembleCompletes(results: seq<ResultRow>, contacts: seq<ContactNode>, persons: seq<string>,
                          members: map<string, seq<ContactNode>>, pimo: seq<string>)
    requires Gathered(results, contacts, persons, members, pimo)
    ensures Complete(Assemble(contacts, persons, members, pimo), results)
  {
    var rows := Assemble(contacts, persons, members, pimo);
    var leaves := Unowned(contacts, pimo);
    AssembleRows(contacts, persons, members, pimo);
    forall u | FirstFor(results, u).Some?
      ensures var r := FirstFor(results, u).value;
        (r.person == "" ==> ContactLeaf(LoadNode(r)) in rows) &&
        (r.person != "" ==> exists k :: (0 <= k < |rows| && rows[k].PersonNode? && rows[k].uri == r.person &&
          LoadNode(r) in rows[k].children))
    {
      var r := FirstFor(results, u).value;
      var n := LoadNode(r);
      assert n in contacts;
      if r.person == "" {
        assert n.uri !in pimo;
        var m :| 0 <= m < |leaves| && leaves[m] == n;
        assert rows[|persons| + m] == ContactLeaf(n);
      } else {
        var k :| 0 <= k < |persons| && persons[k] == r.person;
        assert rows[k].uri == r.person && n in rows[k].children;
      }
    }
  }

  // ---------------------------------------------------------------------
  // Adding contacts to a person, step by step
  // ---------------------------------------------------------------------

  lemma RemoveOneMembers<T>(s: seq<T>, x: T)
    ensures forall u :: u in RemoveOne(s, x) ==> u in s
    ensures forall u :: u in s && u != x ==> u in RemoveOne(s, x)
    ensures NoDuplicates(s) ==> NoDuplicates(RemoveOne(s, x)) && x !in RemoveOne(s, x)
  {
    RemoveOneSubset(s, x);
    var r := RemoveOne(s, x);
    if x in s {
      forall u | u in s && u != x
        ensures u in r
      {
        assert multiset(r)[u] == multiset(s)[u] > 0;
      }
    }
    if NoDuplicates(s) {
      RemoveOneDistinct(s, x);
    }
  }

  lemma RemoveOneSubset<T>(s: seq<T>, x: T)
    ensures forall u :: u in RemoveOne(s, x) ==> u in s
  {
    var r := RemoveOne(s, x);
    if x in s {
      forall u | u in r
        ensures u in s
      {
        assert multiset(r)[u] > 0;
      }
    }
  }

  lemma NoDuplicatesCons<T>(a: T, t: seq<T>)
    requires NoDuplicates(t) && a !in t
    ensures NoDuplicates([a] + t)
  {
    var r := [a] + t;
    forall i, j | 0 <= i < j < |r|
      ensures r[i] != r[j]
    {
      assert r[j] == t[j - 1];
      if i > 0 {
        assert r[i] == t[i - 1];
      }
    }
  }

  lemma {:induction false} RemoveOneDistinct<T>(s: seq<T>, x: T)
    requires NoDuplicates(s)
    ensures NoDuplicates(RemoveOne(s, x)) && x !in RemoveOne(s, x)
  {
    if s != [] {
      assert NoDuplicates(s[1..]);
      assert s[0] !in s[1..];
      if s[0] != x {
        var rest := RemoveOne(s[1..], x);
        RemoveOneDistinct(s[1..], x);
        RemoveOneSubset(s[1..], x);
        NoDuplicatesCons(s[0], rest);
        assert RemoveOne(s, x) == [s[0]] + rest;
      }
    }
  }

  /** Drops from the requested uris, once each, the uris already under the person. */
  method DropExisting(uris: seq<string>, existing: seq<string>) returns (contacts: seq<string>)
    ensures contacts == DropAll(uris, existing)
    ensures forall u :: u in contacts ==> u in uris
    ensures forall u :: u in uris && u !in existing ==> u in contacts
    ensures NoDuplicates(uris) ==> NoDuplicates(contacts) && forall u :: u in contacts ==> u !in existing
  {
    contacts := uris;
    for j := 0 to |existing|
      invariant contacts == DropAll(uris, existing[..j])
      invariant forall u :: u in contacts ==> u in uris
      invariant forall u :: u in uris && u !in existing[..j] ==> u in contacts
      invariant NoDuplicates(uris) ==> NoDuplicates(contacts) && forall u :: u in contacts ==> u !in existing[..j]
    {
      RemoveOneMembers(contacts, existing[j]);
      contacts := RemoveOne(contacts, existing[j]);
      assert existing[..j + 1] == existing[..j] + [existing[j]];
      assert existing[..j + 1][..j] == existing[..j];
    }
    assert existing[..|existing|] == existing;
  }

  /**
   * `rest` is `rows` with some rows left out, order kept: `idx` gives, in
   * increasing order, the row of `rows` each row of `rest` comes from.
   */
  ghost predicate Picks(rest: seq<Node>, rows: seq<Node>, idx: seq<nat>)
  {
    |idx| == |rest| &&
    (forall i :: 0 <= i < |idx| ==> idx[i] < |rows| && rest[i] == rows[idx[i]]) &&
    (forall i, j :: 0 <= i < j < |idx| ==> idx[i] < idx[j])
  }

  /** `rest` is `rows` with some rows left out, order kept, and its row `p` is row `k` of `rows`. */
  ghost predicate KeptInOrder(rest: seq<Node>, rows: seq<Node>, p: nat, k: nat)
  {
    exists idx :: Picks(rest, rows, idx) && p < |idx| && idx[p] == k
  }

  /** Leaving out one more row keeps the remaining rows in order. */
  lemma PickOneOut(rest: seq<Node>, rows: seq<Node>, idx: seq<nat>, r: nat)
    requires Picks(rest, rows, idx) && r < |rest|
    ensures Picks(rest[..r] + rest[r + 1..], rows, idx[..r] + idx[r + 1..])
  {
    var rest', idx' := rest[..r] + rest[r + 1..], idx[..r] + idx[r + 1..];
    assert forall i :: 0 <= i < r ==> rest'[i] == rest[i] && idx'[i] == idx[i];
    assert forall i :: r <= i < |idx'| ==> rest'[i] == rest[i + 1] && idx'[i] == idx[i + 1];
  }

  /** Leaving out a row other than the person's moves the person's row up by one when it came after. */
  lemma ShiftPerson(rest: seq<Node>, idx: seq<nat>, r: nat, p: nat)
    requires r < |rest| && p < |rest| && r != p && |idx| == |rest|
    ensures var next, idx', p' := rest[..r] + rest[r + 1..], idx[..r] + idx[r + 1..], if r < p then p - 1 else p;
      p' < |next| && next[p'] == rest[p] && idx'[p'] == idx[p]
  {
  }

  /** Taking a contact row out of the top level takes exactly that row, and its contact, out of the tree. */
  lemma TakeOneLeaf(rest: seq<Node>, r: nat)
    requires r < |rest| && rest[r].ContactLeaf?
    ensures multiset(rest[..r] + rest[r + 1..]) + multiset{rest[r]} == multiset(rest)
    ensures multiset(TreeContacts(rest[..r] + rest[r + 1..])) + multiset{rest[r].contact} == multiset(TreeContacts(rest))
  {
    LeaveOut(rest, r);
    var pre, post := rest[..r], rest[r + 1..];
    var all, kept := TreeContacts(rest), TreeContacts(pre + post);
    assert all == TreeContacts(pre) + [rest[r].contact] + TreeContacts(post) by {
      ContactsAround(rest, r);
    }
    assert kept == TreeContacts(pre) + TreeContacts(post) by {
      TreeContactsAppend(pre, post);
    }
    assert multiset(all) == multiset(TreeContacts(pre)) + multiset{rest[r].contact} + multiset(TreeContacts(post));
    assert multiset(kept) == multiset(TreeContacts(pre)) + multiset(TreeContacts(post));
  }

  /**
   * Takes from the top level the first contact row of each uri, keeping
   * track of where the person's row moves to. The rows left are the old
   * ones, in order, without exactly the taken contact rows.
   */
  method TakeTopLevel(rows: seq<Node>, k: nat, contacts: seq<string>)
    returns (rest: seq<Node>, k': nat, taken: seq<ContactNode>)
    requires k < |rows| && rows[k].PersonNode?
    ensures k' < |rest| && rest[k'] == rows[k]
    ensures |rest| + |taken| == |rows|
    ensures forall i :: 0 <= i < |rest| ==> rest[i] in rows
    ensures forall n :: n in taken ==> ContactLeaf(n) in rows && n.uri in contacts
    ensures multiset(rest) + multiset(Leaves(taken)) == multiset(rows)
    ensures KeptInOrder(rest, rows, k', k)
    ensures multiset(TreeContacts(rest)) + multiset(taken) == multiset(TreeContacts(rows))
    ensures NoDuplicates(contacts) ==>
      forall u :: u in contacts && FirstLeaf(rows, u).Some? ==> FirstLeaf(rows, u).value in taken
    ensures Subsequence(ChildUris(taken), contacts)
    ensures NoDuplicates(contacts) ==> taken == FirstLeaves(rows, contacts)
  {
    ghost var idx;
    rest, k', taken, idx := TakeEach(rows, k, contacts);
    TakingDone(rows, k, rest, k', taken, idx);
    TakenDone(rows, rest, taken, contacts);
  }

  /** TakeTopLevel's loop over the uris, proved against its two invariants. */
  method TakeEach(rows: seq<Node>, k: nat, contacts: seq<string>)
    returns (rest: seq<Node>, k': nat, taken: seq<ContactNode>, ghost idx: seq<nat>)
    requires k < |rows| && rows[k].PersonNode?
    ensures Taking(rows, k, rest, k', taken, idx) && TakenSoFar(rows, rest, taken, contacts, |contacts|)
  {
    rest, k', taken, idx := rows, k, [], Identity(|rows|);
    TakeStart(rows, k, contacts);
    for j := 0 to |contacts|
      invariant Taking(rows, k, rest, k', taken, idx)
      invariant TakenSoFar(rows, rest, taken, contacts, j)
    {
      var r := TopLevelContactRow(rest, contacts[j], 0);
      if r.Some? {
        var row := r.value;
        TakeRow(rows, k, rest, k', taken, idx, contacts, j, row);
        taken := taken + [rest[row].contact];
        idx := idx[..row] + idx[row + 1..];
        k' := if row < k' then k' - 1 else k';
        rest := rest[..row] + rest[row + 1..];
      } else {
        TakenSkip(rows, rest, taken, contacts, j);
      }
    }
  }

  /**
   * The other invariant of TakeTopLevel's loop: every taken contact was a
   * top-level row for a uri already handled and, for distinct uris, the
   * first row of each uri handled was taken while the uris still to handle
   * keep their first row.
   */
  ghost predicate TakenSoFar(rows: seq<Node>, rest: seq<Node>, taken: seq<ContactNode>, contacts: seq<string>, j: nat)
  {
    j <= |contacts| &&
    (forall n :: n in taken ==> ContactLeaf(n) in rows && n.uri in contacts[..j]) &&
    Subsequence(ChildUris(taken), contacts[..j]) &&
    (NoDuplicates(contacts) ==>
      (forall m :: j <= m < |contacts| ==> FirstLeaf(rest, contacts[m]) == FirstLeaf(rows, contacts[m])) &&
      (forall m :: 0 <= m < j && FirstLeaf(rows, contacts[m]).Some? ==> FirstLeaf(rows, contacts[m]).value in taken) &&
      taken == FirstLeaves(rows, contacts[..j]))
  }

  lemma TakenStep(rows: seq<Node>, rest: seq<Node>, taken: seq<ContactNode>, contacts: seq<string>, j: nat, row: nat)
    requires TakenSoFar(rows, rest, taken, contacts, j) && j < |contacts| && RowsFrom(rest, rows)
    requires TopLevelContactRow(rest, contacts[j], 0) == Some(row)
    ensures TakenSoFar(rows, rest[..row] + rest[row + 1..], taken + [rest[row].contact], contacts, j + 1)
  {
    assert contacts[..j + 1] == contacts[..j] + [contacts[j]];
    assert contacts[..j + 1][..j] == contacts[..j];
    assert rest[row] in rows;
    assert ChildUris(taken + [rest[row].contact]) == ChildUris(taken) + [contacts[j]];
    SubsequenceSnocBoth(ChildUris(taken), contacts[..j], contacts[j]);
    if NoDuplicates(contacts) {
      TakenFirstStep(rows, rest, taken, contacts, j, row);
    }
  }

  /** For distinct uris, the row taken for the next uri is that uri's first row, and the later uris keep theirs. */
  lemma TakenFirstStep(rows: seq<Node>, rest: seq<Node>, taken: seq<ContactNode>, contacts: seq<string>, j: nat, row: nat)
    requires j < |contacts| && NoDuplicates(contacts)
    requires forall m :: j <= m < |contacts| ==> FirstLeaf(rest, contacts[m]) == FirstLeaf(rows, contacts[m])
    requires forall m :: 0 <= m < j && FirstLeaf(rows, contacts[m]).Some? ==> FirstLeaf(rows, contacts[m]).value in taken
    requires taken == FirstLeaves(rows, contacts[..j])
    requires TopLevelContactRow(rest, contacts[j], 0) == Some(row)
    ensures var rest', taken' := rest[..row] + rest[row + 1..], taken + [rest[row].contact];
      (forall m :: j + 1 <= m < |contacts| ==> FirstLeaf(rest', contacts[m]) == FirstLeaf(rows, contacts[m])) &&
      (forall m :: 0 <= m < j + 1 && FirstLeaf(rows, contacts[m]).Some? ==> FirstLeaf(rows, contacts[m]).value in taken') &&
      taken' == FirstLeaves(rows, contacts[..j + 1])
  {
    assert contacts[..j + 1][..j] == contacts[..j];
    assert FirstLeaf(rest, contacts[j]) == Some(rest[row].contact);
    forall m | j < m < |contacts|
      ensures FirstLeaf(rest[..row] + rest[row + 1..], contacts[m]) == FirstLeaf(rest, contacts[m])
    {
      FirstLeafAfterRemoval(rest, row, contacts[m]);
    }
  }

  lemma TakenSkip(rows: seq<Node>, rest: seq<Node>, taken: seq<ContactNode>, contacts: seq<string>, j: nat)
    requires TakenSoFar(rows, rest, taken, contacts, j) && j < |contacts|
    requires TopLevelContactRow(rest, contacts[j], 0).None?
    ensures TakenSoFar(rows, rest, taken, contacts, j + 1)
  {
    assert contacts[..j + 1] == contacts[..j] + [contacts[j]];
    assert contacts[..j + 1][..j] == contacts[..j];
    SubsequenceSnoc(ChildUris(taken), contacts[..j], contacts[j]);
    if NoDuplicates(contacts) {
      assert FirstLeaf(rest, contacts[j]).None?;
    }
  }

  lemma TakenDone(rows: seq<Node>, rest: seq<Node>, taken: seq<ContactNode>, contacts: seq<string>)
    requires TakenSoFar(rows, rest, taken, contacts, |contacts|)
    ensures forall n :: n in taken ==> ContactLeaf(n) in rows && n.uri in contacts
    ensures NoDuplicates(contacts) ==>
      forall u :: u in contacts && FirstLeaf(rows, u).Some? ==> FirstLeaf(rows, u).value in taken
    ensures Subsequence(ChildUris(taken), contacts)
    ensures NoDuplicates(contacts) ==> taken == FirstLeaves(rows, contacts)
  {
    assert contacts[..|contacts|] == contacts;
  }

  lemma TakingDone(rows: seq<Node>, k: nat, rest: seq<Node>, k': nat, taken: seq<ContactNode>, idx: seq<nat>)
    requires Taking(rows, k, rest, k', taken, idx)
    ensures k' < |rest| && rest[k'] == rows[k]
    ensures |rest| + |taken| == |rows|
    ensures forall i :: 0 <= i < |rest| ==> rest[i] in rows
    ensures multiset(rest) + multiset(Leaves(taken)) == multiset(rows)
    ensures KeptInOrder(rest, rows, k', k)
    ensures multiset(TreeContacts(rest)) + multiset(taken) == multiset(TreeContacts(rows))
  {
    assert Picks(rest, rows, idx) && idx[k'] == k;
  }

  /** Every row of `rest` is a row of `rows`. */
  ghost predicate RowsFrom(rest: seq<Node>, rows: seq<Node>)
  {
    forall i :: 0 <= i < |rest| ==> rest[i] in rows
  }

  /**
   * The invariant of TakeTopLevel's loop: the person's row is tracked, the
   * rows left are the old ones in order (`idx`), and the old rows and
   * contacts are exactly those left plus those taken.
   */
  ghost predicate Taking(rows: seq<Node>, k: nat, rest: seq<Node>, k': nat, taken: seq<ContactNode>, idx: seq<nat>)
  {
    k < |rows| && k' < |rest| && rest[k'] == rows[k] && rows[k].PersonNode? &&
    |rest| + |taken| == |rows| &&
    RowsFrom(rest, rows) &&
    multiset(rest) + multiset(Leaves(taken)) == multiset(rows) &&
    Picks(rest, rows, idx) && idx[k'] == k &&
    multiset(TreeContacts(rest)) + multiset(taken) == multiset(TreeContacts(rows))
  }

  /** The indices 0 to n - 1, in order. */
  function Identity(n: nat): (idx: seq<nat>)
    ensures |idx| == n && forall i :: 0 <= i < n ==> idx[i] == i
  {
    seq(n, (i: nat) => i)
  }

  /** Before TakeTopLevel's loop nothing is taken, and both loop invariants hold. */
  lemma TakeStart(rows: seq<Node>, k: nat, contacts: seq<string>)
    requires k < |rows| && rows[k].PersonNode?
    ensures Taking(rows, k, rows, k, [], Identity(|rows|)) && TakenSoFar(rows, rows, [], contacts, 0)
  {
    assert Leaves([]) == [];
  }

  /** One pass of TakeTopLevel's loop that finds a row keeps both loop invariants. */
  lemma TakeRow(rows: seq<Node>, k: nat, rest: seq<Node>, k': nat, taken: seq<ContactNode>, idx: seq<nat>,
                contacts: seq<string>, j: nat, row: nat)
    requires Taking(rows, k, rest, k', taken, idx) && TakenSoFar(rows, rest, taken, contacts, j) && j < |contacts|
    requires TopLevelContactRow(rest, contacts[j], 0) == Some(row)
    ensures var rest', taken' := rest[..row] + rest[row + 1..], taken + [rest[row].contact];
      Taking(rows, k, rest', if row < k' then k' - 1 else k', taken', idx[..row] + idx[row + 1..]) &&
      TakenSoFar(rows, rest', taken', contacts, j + 1)
  {
    TakeStep(rows, k, rest, k', taken, idx, row);
    TakenStep(rows, rest, taken, contacts, j, row);
  }

  /** Taking one more top-level contact row keeps the loop invariant. */
  lemma TakeStep(rows: seq<Node>, k: nat, rest: seq<Node>, k': nat, taken: seq<ContactNode>, idx: seq<nat>, row: nat)
    requires Taking(rows, k, rest, k', taken, idx)
    requires row < |rest| && rest[row].ContactLeaf?
    ensures Taking(rows, k, rest[..row] + rest[row + 1..], if row < k' then k' - 1 else k',
      taken + [rest[row].contact], idx[..row] + idx[row + 1..])
  {
    assert row != k' by { assert rest[k'].PersonNode?; }
    ShiftPerson(rest, idx, row, k');
    StepKeepsRows(rows, rest, row);
    PickOneOut(rest, rows, idx, row);
    StepCountsRows(rows, rest, taken, row);
    StepCountsContacts(rows, rest, taken, row);
  }

  lemma StepKeepsRows(rows: seq<Node>, rest: seq<Node>, row: nat)
    requires row < |rest| && RowsFrom(rest, rows)
    ensures RowsFrom(rest[..row] + rest[row + 1..], rows)
  {
    var next := rest[..row] + rest[row + 1..];
    assert forall i :: 0 <= i < |next| ==> next[i] in rest;
  }

  lemma StepCountsRows(rows: seq<Node>, rest: seq<Node>, taken: seq<ContactNode>, row: nat)
    requires row < |rest| && rest[row].ContactLeaf?
    requires multiset(rest) + multiset(Leaves(taken)) == multiset(rows)
    ensures multiset(rest[..row] + rest[row + 1..]) + multiset(Leaves(taken + [rest[row].contact])) == multiset(rows)
  {
    TakeOneLeaf(rest, row);
    assert Leaves(taken + [rest[row].contact]) == Leaves(taken) + [rest[row]];
  }

  lemma StepCountsContacts(rows: seq<Node>, rest: seq<Node>, taken: seq<ContactNode>, row: nat)
    requires row < |rest| && rest[row].ContactLeaf?
    requires multiset(TreeContacts(rest)) + multiset(taken) == multiset(TreeContacts(rows))
    ensures multiset(TreeContacts(rest[..row] + rest[row + 1..])) + multiset(taken + [rest[row].contact]) ==
      multiset(TreeContacts(rows))
  {
    TakeOneLeaf(rest, row);
  }

  /** Appends the taken contacts and drops their uris, once each, from those still to create. */
  method AppendTaken(children: seq<ContactNode>, contacts: seq<string>, taken: seq<ContactNode>)
    returns (children': seq<ContactNode>, remaining: seq<string>)
    ensures children' == children + taken
    ensures remaining == DropAll(contacts, ChildUris(taken))
    ensures forall u :: u in remaining ==> u in contacts
    ensures forall u :: u in contacts ==> u in remaining || u in ChildUris(taken)
    ensures NoDuplicates(contacts) ==> NoDuplicates(remaining) && forall u :: u in remaining ==> u !in ChildUris(taken)
  {
    children', remaining := children, contacts;
    ghost var moved := ChildUris(taken);
    for j := 0 to |taken|
      invariant children' == children + taken[..j]
      invariant remaining == DropAll(contacts, moved[..j])
    {
      assert taken[..j + 1] == taken[..j] + [taken[j]];
      DropOneMore(contacts, moved, j);
      children' := children' + [taken[j]];
      remaining := RemoveOne(remaining, taken[j].uri);
    }
    assert taken[..|taken|] == taken && moved[..|taken|] == moved;
    DropAllMembers(contacts, moved);
  }

  /** Dropping one more uri of `moved` from what is left drops its first occurrence. */
  lemma DropOneMore(contacts: seq<string>, moved: seq<string>, j: nat)
    requires j < |moved|
    ensures DropAll(contacts, moved[..j + 1]) == RemoveOne(DropAll(contacts, moved[..j]), moved[j])
  {
    assert moved[..j + 1] == moved[..j] + [moved[j]];
    DropAllSnoc(contacts, moved[..j], moved[j]);
  }

  /**
   * Appends the taken contacts under the person, drops their uris from
   * those still to add, and appends a new contact row for each uri left.
   * `contacts` are the requested uris less the existing children's and
   * `taken` the contacts taken off the top level of `rows` for them.
   */
  method AppendContacts(ghost rows: seq<Node>, existing: seq<ContactNode>, uris: seq<string>, contacts: seq<string>,
                        taken: seq<ContactNode>)
    returns (after: seq<ContactNode>, remaining: seq<string>)
    requires contacts == DropAll(uris, ChildUris(existing))
    requires forall n :: n in taken ==> ContactLeaf(n) in rows && n.uri in contacts
    requires NoDuplicates(contacts) ==>
      forall u :: u in contacts && FirstLeaf(rows, u).Some? ==> FirstLeaf(rows, u).value in taken
    requires Subsequence(ChildUris(taken), contacts)
    requires NoDuplicates(contacts) ==> taken == FirstLeaves(rows, contacts)
    ensures after == existing + taken + FreshRows(remaining)
    ensures forall u :: u in remaining ==> u in uris
    ensures NoDuplicates(uris) ==>
      forall u :: u in remaining ==> FirstLeaf(rows, u).None? && u !in ChildUris(existing)
    ensures |existing| <= |after| && after[..|existing|] == existing &&
      (forall u :: u in uris ==> u in ChildUris(after)) &&
      (forall n :: n in after[|existing|..] ==> n.uri in uris && (ContactLeaf(n) in rows || n == Fresh(n.uri)))
    ensures NoDuplicates(uris) ==>
      (forall n :: n in after[|existing|..] ==> n.uri !in ChildUris(existing)) &&
      (forall u :: u in uris && u !in ChildUris(existing) && FirstLeaf(rows, u).Some? ==>
        FirstLeaf(rows, u).value in after)
    ensures AddedOnce(rows, existing, uris, taken, remaining)
    ensures NoDuplicates(uris) && NoDuplicates(ChildUris(existing)) ==> NoDuplicates(ChildUris(after))
  {
    var children;
    children, remaining := AppendTaken(existing, contacts, taken);
    after := AppendFresh(children, remaining);
    DropAllMembers(uris, ChildUris(existing));
    AddedChildren(existing, uris, contacts, taken, remaining, after);
    if NoDuplicates(uris) {
      AddedWithoutRepeats(rows, existing, uris, contacts, taken, FreshRows(remaining), after);
      NoLeafLeft(rows, taken, remaining);
    }
    AddedOnceHolds(rows, existing, uris, contacts, taken, remaining);
    if NoDuplicates(uris) && NoDuplicates(ChildUris(existing)) {
      AddedDistinct(existing, taken, remaining, after);
    }
  }

  /** Appending repeat-free new uris to repeat-free children keeps them repeat-free. */
  lemma AddedDistinct(existing: seq<ContactNode>, taken: seq<ContactNode>, remaining: seq<string>,
                      after: seq<ContactNode>)
    requires after == existing + taken + FreshRows(remaining)
    requires NoDuplicates(ChildUris(taken) + remaining)
    requires forall n :: n in after[|existing|..] ==> n.uri !in ChildUris(existing)
    requires NoDuplicates(ChildUris(existing))
    ensures NoDuplicates(ChildUris(after))
  {
    var a, b := ChildUris(existing), ChildUris(taken) + remaining;
    assert ChildUris(after) == a + b by {
      forall i | 0 <= i < |after|
        ensures ChildUris(after)[i] == (a + b)[i]
      {
        if |existing| + |taken| <= i {
          assert after[i] == Fresh(remaining[i - |existing| - |taken|]);
        }
      }
    }
    forall x | x in b
      ensures x !in a
    {
      var i :| 0 <= i < |b| && b[i] == x;
      assert after[|existing| + i].uri == x;
      assert after[|existing| + i] in after[|existing|..];
    }
    NoDuplicatesAppend(a, b);
  }

  /** A contact row made for a uri that was nowhere in the model. */
  function Fresh(uri: string): ContactNode
  {
    ContactNode(uri, [], map[])
  }

  /** New contact rows for the uris, in order. */
  function FreshRows(uris: seq<string>): (rows: seq<ContactNode>)
    ensures |rows| == |uris| && forall i :: 0 <= i < |uris| ==> rows[i] == Fresh(uris[i])
  {
    seq(|uris|, i requires 0 <= i < |uris| => Fresh(uris[i]))
  }

  /** Appends a new contact row for each remaining uri. */
  method AppendFresh(children: seq<ContactNode>, remaining: seq<string>) returns (children': seq<ContactNode>)
    ensures |children'| == |children| + |remaining| && children'[..|children|] == children
    ensures forall i :: 0 <= i < |remaining| ==> children'[|children| + i] == Fresh(remaining[i])
    ensures children' == children + FreshRows(remaining)
  {
    children' := children;
    for j := 0 to |remaining|
      invariant |children'| == |children| + j && children'[..|children|] == children
      invariant forall i :: 0 <= i < j ==> children'[|children| + i] == Fresh(remaining[i])
    {
      children' := children' + [Fresh(remaining[j])];
    }
    assert children' == children + FreshRows(remaining);
  }

  /** The uris of the children that are not listed, in row order. */
  method ChildrenNotListed(children: seq<ContactNode>, uris: seq<string>) returns (toRemove: seq<string>)
    ensures forall u :: u in toRemove <==> u in ChildUris(children) && u !in uris
  {
    toRemove := [];
    for j := 0 to |children|
      invariant forall u :: u in toRemove <==> u in ChildUris(children[..j]) && u !in uris
    {
      assert ChildUris(children[..j + 1]) == ChildUris(children[..j]) + [children[j].uri];
      if children[j].uri !in uris {
        toRemove := toRemove + [children[j].uri];
      }
    }
    assert children[..|children|] == children;
  }

  /** The children whose uri is listed, in row order. */
  function ListedChildren(children: seq<ContactNode>, uris: seq<string>): seq<ContactNode>
  {
    if children == [] then []
    else
      var rest := ListedChildren(children[1..], uris);
      if children[0].uri in uris then [children[0]] + rest else rest
  }

  /** Keeping the listed children keeps repeat-free uris repeat-free, and keeps only children. */
  lemma {:induction false} ListedDistinct(children: seq<ContactNode>, uris: seq<string>)
    requires NoDuplicates(ChildUris(children))
    ensures NoDuplicates(ChildUris(ListedChildren(children, uris)))
    ensures forall n :: n in ListedChildren(children, uris) ==> n in children
  {
    if children != [] {
      var x, tail := children[0], children[1..];
      var rest := ListedChildren(tail, uris);
      assert ChildUris(children) == [x.uri] + ChildUris(tail);
      assert NoDuplicates(ChildUris(tail)) && x.uri !in ChildUris(tail) by {
        forall i, j | 0 <= i < j < |tail|
          ensures tail[i].uri != tail[j].uri
        {
          assert children[i + 1].uri != children[j + 1].uri;
        }
        forall i | 0 <= i < |tail|
          ensures tail[i].uri != x.uri
        {
          assert children[i + 1].uri != children[0].uri;
        }
      }
      ListedDistinct(tail, uris);
      if x.uri in uris {
        assert ListedChildren(children, uris) == [x] + rest;
        assert ChildUris([x] + rest) == [x.uri] + ChildUris(rest);
        assert x.uri !in ChildUris(rest) by {
          forall n | n in rest
            ensures n.uri != x.uri
          {
            assert n in tail;
          }
        }
        NoDuplicatesCons(x.uri, ChildUris(rest));
      } else {
        assert ListedChildren(children, uris) == rest;
      }
    }
  }

  /** Removing the children that are not listed keeps exactly the listed ones, in order. */
  lemma {:induction false} KeepListed(children: seq<ContactNode>, toRemove: seq<string>, uris: seq<string>)
    requires forall n :: n in children ==> (n.uri in toRemove <==> n.uri !in uris)
    ensures Keep(children, toRemove) == ListedChildren(children, uris)
  {
    if children != [] {
      assert children[0] in children;
      assert forall n :: n in children[1..] ==> n in children;
      KeepListed(children[1..], toRemove, uris);
    }
  }

  // ---------------------------------------------------------------------
  // The model
  // ---------------------------------------------------------------------

  class PersonsModel {
    /** The top-level rows, each a person with its contacts or a contact on its own. */
    var rows: seq<Node>

    constructor ()
      ensures rows == []
    {
      rows := [];
    }

    /** Builds the rows from the results of the contacts query. */
    method Query(results: seq<ResultRow>)
      requires rows == []
      modifies this
      ensures Placed(rows, results) && Complete(rows, results)
      ensures NoDuplicates(TreeContacts(rows))
      ensures forall k :: 0 <= k < |rows| && rows[k].PersonNode? ==> rows[k].children != []
      ensures forall k1, k2 :: 0 <= k1 < k2 < |rows| && rows[k2].PersonNode? ==> rows[k1].PersonNode?
    {
      var contacts, persons, members, pimo := Gather(results);
      rows := Assemble(contacts, persons, members, pimo);
      AssemblePlaces(results, contacts, persons, members, pimo);
      AssembleCompletes(results, contacts, persons, members, pimo);
      AssembleOnce(results, contacts, persons, members, pimo);
      assert forall k :: |persons| <= k < |rows| ==> rows[k].ContactLeaf?;
    }

    /** Appends a person row with no contacts for a uri not yet in the model. */
    method CreatePerson(uri: string)
      requires IndexForUri(rows, uri).Invalid?
      modifies this
      ensures rows == old(rows) + [PersonNode(uri, [])]
    {
      rows := rows + [PersonNode(uri, [])];
    }

    /** Appends a top-level contact row. */
    method CreateContact(uri: string)
      modifies this
      ensures rows == old(rows) + [ContactLeaf(Fresh(uri))]
    {
      rows := rows + [ContactLeaf(Fresh(uri))];
    }

    /** Moves every contact of the person at row `k` to the top level, then removes the person's row. */
    method RemovePersonFromModel(k: nat)
      requires k < |rows| && rows[k].PersonNode?
      modifies this
      ensures rows == old(rows[..k]) + old(rows[k + 1..]) + Leaves(old(rows[k].children))
      ensures multiset(TreeContacts(rows)) == multiset(TreeContacts(old(rows)))
    {
      var person := rows[k];
      ghost var before := rows;
      var i := 0;
      while i < |person.children|
        invariant i <= |person.children|
        invariant rows == before[k := PersonNode(person.uri, person.children[i..])] + Leaves(person.children[..i])
      {
        MoveFirstChild(before, k, person.uri, person.children, i);
        rows := rows[k := PersonNode(person.uri, rows[k].children[1..])] + [ContactLeaf(rows[k].children[0])];
        i := i + 1;
      }
      assert person.children[..i] == person.children && person.children[i..] == [];
      assert rows == before[k := PersonNode(person.uri, [])] + Leaves(person.children);
      DropPersonRow(before, k, PersonNode(person.uri, []), Leaves(person.children));
      rows := rows[..k] + rows[k + 1..];
      RemovedPersonKeepsContacts(before, k);
    }

    /** Removes, from the person at row `k`, every contact whose uri is listed. */
    method RemoveContacts(k: nat, uris: seq<string>)
      requires k < |rows| && rows[k].PersonNode?
      modifies this
      ensures rows == old(rows)[k := PersonNode(old(rows)[k].uri, Keep(old(rows)[k].children, uris))]
    {
      var kept := RemoveChildren(rows[k].children, uris);
      rows := rows[k := PersonNode(rows[k].uri, kept)];
    }

    /**
     * Adds the listed contacts to the person at row `k`: contacts already
     * under it are skipped, top-level contact rows are moved under it and
     * the rest are created. Returns the person's row afterwards, with the
     * contacts moved and the uris created (ghost, for the contract).
     * Apart from the person's row, the top level keeps its rows in order,
     * less exactly the moved contact rows, and the tree gains exactly the
     * created contacts.
     */
    method AddContacts(k: nat, uris: seq<string>) returns (p: nat, ghost moved: seq<ContactNode>, ghost created: seq<string>)
      requires k < |rows| && rows[k].PersonNode?
      modifies this
      ensures p < |rows| && rows[p].PersonNode? && rows[p].children == old(rows)[k].children + moved + FreshRows(created)
      ensures KeptInOrder(rows[p := old(rows)[k]], old(rows), p, k)
      ensures multiset(rows[p := old(rows)[k]]) + multiset(Leaves(moved)) == multiset(old(rows))
      ensures multiset(TreeContacts(rows)) == multiset(TreeContacts(old(rows))) + multiset(FreshRows(created))
      ensures forall u :: u in created ==> u in uris
      ensures NoDuplicates(uris) ==>
        forall u :: u in created ==> FirstLeaf(old(rows), u).None? && u !in ChildUris(old(rows)[k].children)
      ensures p < |rows| && rows[p].PersonNode? && rows[p].uri == old(rows)[k].uri
      ensures |rows| <= |old(rows)|
      ensures forall i :: 0 <= i < |rows| && i != p ==> rows[i] in old(rows)
      ensures var before, after := old(rows)[k].children, rows[p].children;
        |before| <= |after| && after[..|before|] == before &&
        (forall u :: u in uris ==> u in ChildUris(after)) &&
        (forall n :: n in after[|before|..] ==> n.uri in uris && (ContactLeaf(n) in old(rows) || n == Fresh(n.uri)))
      ensures var before, after := old(rows)[k].children, rows[p].children;
        NoDuplicates(uris) ==>
          (forall n :: n in after[|before|..] ==> n.uri !in ChildUris(before)) &&
          (forall u :: u in uris && u !in ChildUris(before) && FirstLeaf(old(rows), u).Some? ==>
            FirstLeaf(old(rows), u).value in after)
      ensures AddedOnce(old(rows), old(rows)[k].children, uris, moved, created)
      ensures NoDuplicates(uris) && NoDuplicates(ChildUris(old(rows)[k].children)) ==> NoDuplicates(ChildUris(rows[p].children))
    {
      var person := rows[k];
      ghost var before := rows;
      var contacts := DropExisting(uris, ChildUris(person.children));
      var rest, k', taken := TakeTopLevel(rows, k, contacts);
      var children', remaining := AppendContacts(before, person.children, uris, contacts, taken);
      rows := rest[k' := PersonNode(person.uri, children')];
      p, moved, created := k', taken, remaining;
      assert rows[p] == PersonNode(person.uri, children');
      assert |rows| <= |before| && forall i :: 0 <= i < |rows| && i != p ==> rows[i] in before by {
        AddedRows(before, k, rest, k', taken, children');
      }
      assert multiset(TreeContacts(rows)) == multiset(TreeContacts(rest)) + multiset(taken) + multiset(FreshRows(created)) by {
        AddedContactsAccount(rest, k', person.uri, person.children, taken, FreshRows(remaining));
      }
      assert rows[p := before[k]] == rest by {
        PutBack(rest, k', PersonNode(person.uri, children'));
      }
    }

    /**
     * Makes the listed contacts exactly the contacts of the person at row
     * `k`; an empty list changes nothing. Returns the person's row afterwards.
     */
    method SetContacts(k: nat, uris: seq<string>) returns (p: nat, ghost moved: seq<ContactNode>, ghost created: seq<string>)
      requires k < |rows| && rows[k].PersonNode?
      modifies this
      ensures uris == [] ==> rows == old(rows) && p == k
      ensures uris != [] ==> (p < |rows| && rows[p].PersonNode? && rows[p].uri == old(rows)[k].uri &&
        rows[p].children == ListedChildren(old(rows)[k].children, uris) + moved + FreshRows(created))
      ensures uris != [] ==> (forall u :: u in ChildUris(rows[p].children) <==> u in uris) && rows[p].children != []
      ensures uris != [] ==> (KeptInOrder(rows[p := old(rows)[k]], old(rows), p, k) &&
        multiset(rows[p := old(rows)[k]]) + multiset(Leaves(moved)) == multiset(old(rows)))
      ensures uris != [] ==> AddedOnce(old(rows), ListedChildren(old(rows)[k].children, uris), uris, moved, created)
      ensures uris != [] && NoDuplicates(uris) && NoDuplicates(ChildUris(old(rows)[k].children)) ==>
        NoDuplicates(ChildUris(rows[p].children))
    {
      p, moved, created := k, [], [];
      if uris == [] {
        return;
      }
      if rows[k].children != [] {
        var toRemove := ChildrenNotListed(rows[k].children, uris);
        KeepMembers(rows[k].children, toRemove);
        KeepListed(rows[k].children, toRemove, uris);
        RemoveContacts(k, toRemove);
      }
      ghost var kept := rows[k].children;
      assert kept == ListedChildren(old(rows)[k].children, uris);
      ghost var mid := rows;
      assert mid == old(rows)[k := mid[k]];
      assert forall u :: u in ChildUris(kept) ==> u in uris;
      p, moved, created := AddContacts(k, uris);
      KeptUnderUpdate(rows, old(rows), p, k, mid[k]);
      ReplacedAgain(rows, p, old(rows), k, mid[k], multiset(Leaves(moved)));
      ChildrenFromUris(kept, rows[p].children, uris);
      assert uris[0] in ChildUris(rows[p].children);
      AddedOnceAfterPersonUpdate(old(rows), k, mid[k], kept, uris, moved, created);
      if NoDuplicates(ChildUris(old(rows)[k].children)) {
        ListedDistinct(old(rows)[k].children, uris);
      }
    }
  }

  /**
   * What adding contacts to a person with the children `existing` appends:
   * between them, the uris of the moved contacts and the created uris are
   * the requested uris less the existing children's (each existing uri
   * cancels one request), and each of the two keeps the requested order.
   * With distinct uris, the moved contacts are the first top-level contact
   * rows of the uris left, in their order, and no uri is appended twice.
   */
  ghost predicate AddedOnce(rows: seq<Node>, existing: seq<ContactNode>, uris: seq<string>,
                            moved: seq<ContactNode>, created: seq<string>)
  {
    var toAdd := DropAll(uris, ChildUris(existing));
    multiset(ChildUris(moved)) + multiset(created) == multiset(uris) - multiset(ChildUris(existing)) &&
    Subsequence(ChildUris(moved), toAdd) && Subsequence(created, toAdd) &&
    (NoDuplicates(uris) ==> moved == FirstLeaves(rows, toAdd) && NoDuplicates(ChildUris(moved) + created))
  }

  /** The steps of AddContacts append what AddedOnce describes. */
  lemma AddedOnceHolds(rows: seq<Node>, existing: seq<ContactNode>, uris: seq<string>, contacts: seq<string>,
                       taken: seq<ContactNode>, remaining: seq<string>)
    requires contacts == DropAll(uris, ChildUris(existing))
    requires Subsequence(ChildUris(taken), contacts)
    requires NoDuplicates(contacts) ==> taken == FirstLeaves(rows, contacts)
    requires remaining == DropAll(contacts, ChildUris(taken))
    ensures AddedOnce(rows, existing, uris, taken, remaining)
    ensures NoDuplicates(uris) ==> NoDuplicates(ChildUris(taken) + remaining)
  {
    MovedAndCreated(uris, ChildUris(existing), contacts, ChildUris(taken), remaining);
    if NoDuplicates(uris) {
      DropAllMembers(uris, ChildUris(existing));
    }
  }

  /** Replacing a person row by another changes nothing AddedOnce says. */
  lemma AddedOnceAfterPersonUpdate(rows: seq<Node>, k: nat, x: Node, existing: seq<ContactNode>, uris: seq<string>,
                                   moved: seq<ContactNode>, created: seq<string>)
    requires k < |rows| && rows[k].PersonNode? && x.PersonNode?
    requires AddedOnce(rows[k := x], existing, uris, moved, created)
    ensures AddedOnce(rows, existing, uris, moved, created)
  {
    FirstLeavesAfterPersonUpdate(rows, k, x, DropAll(uris, ChildUris(existing)));
  }

  /**
   * Between them, the moved and the created uris are the requested ones less
   * the existing children's, each once; the created ones keep the requested order.
   */
  lemma MovedAndCreated(uris: seq<string>, existing: seq<string>, contacts: seq<string>,
                        moved: seq<string>, created: seq<string>)
    requires contacts == DropAll(uris, existing)
    requires Subsequence(moved, contacts)
    requires created == DropAll(contacts, moved)
    ensures multiset(moved) + multiset(created) == multiset(uris) - multiset(existing)
    ensures Subsequence(created, contacts)
    ensures NoDuplicates(uris) ==> NoDuplicates(moved + created)
  {
    DropAllMultiset(uris, existing);
    DropAllMultiset(contacts, moved);
    SubsequenceMultiset(moved, contacts);
    DropAllSubsequence(contacts, moved);
    SplitCount(multiset(moved), multiset(created), multiset(contacts));
    if NoDuplicates(uris) {
      DropAllMembers(uris, existing);
      assert multiset(moved + created) == multiset(contacts);
      NoDuplicatesBelow(moved + created, contacts);
    }
  }

  /** Taking out part of a multiset and adding it back gives the multiset again. */
  lemma SplitCount(part: multiset<string>, rest: multiset<string>, whole: multiset<string>)
    requires part <= whole && rest == whole - part
    ensures part + rest == whole
  {
    forall u
      ensures (part + rest)[u] == whole[u]
    {
    }
  }

  /** Children that were listed, followed by appended children for listed uris, all have listed uris. */
  lemma ChildrenFromUris(kept: seq<ContactNode>, after: seq<ContactNode>, uris: seq<string>)
    requires |kept| <= |after| && after[..|kept|] == kept
    requires forall u :: u in ChildUris(kept) ==> u in uris
    requires forall n :: n in after[|kept|..] ==> n.uri in uris
    ensures forall u :: u in ChildUris(after) ==> u in uris
  {
    forall u | u in ChildUris(after)
      ensures u in uris
    {
      var i :| 0 <= i < |after| && after[i].uri == u;
      if i < |kept| {
        assert after[i] == kept[i];
        assert ChildUris(kept)[i] == u;
      } else {
        assert after[i] in after[|kept|..];
      }
    }
  }

  /** Replacing the person's row in what is left of the top level only loses rows. */
  lemma AddedRows(rows: seq<Node>, k: nat, rest: seq<Node>, k': nat, taken: seq<ContactNode>, after: seq<ContactNode>)
    requires k < |rows| && rows[k].PersonNode?
    requires k' < |rest| && rest[k'] == rows[k]
    requires |rest| + |taken| == |rows|
    requires forall i :: 0 <= i < |rest| ==> rest[i] in rows
    ensures var rows' := rest[k' := PersonNode(rows[k].uri, after)];
      k' < |rows'| && rows'[k'].PersonNode? && rows'[k'].uri == rows[k].uri && |rows'| <= |rows| &&
      forall i :: 0 <= i < |rows'| && i != k' ==> rows'[i] in rows
  {
  }

  /** The uris left to create, when every first top-level row was taken, have no top-level row. */
  lemma NoLeafLeft(rows: seq<Node>, taken: seq<ContactNode>, remaining: seq<string>)
    requires forall u :: u in remaining ==> u !in ChildUris(taken)
    requires forall u :: u in remaining && FirstLeaf(rows, u).Some? ==> FirstLeaf(rows, u).value in taken
    ensures forall u :: u in remaining ==> FirstLeaf(rows, u).None?
  {
  }

  /** Putting back the row that was replaced gives the rows back. */
  lemma PutBack(rest: seq<Node>, k: nat, x: Node)
    requires k < |rest|
    ensures rest[k := x][k := rest[k]] == rest
  {
  }

  /** Appending to the person's children adds exactly the appended contacts to the tree. */
  lemma AddedContactsAccount(rest: seq<Node>, k: nat, uri: string, before: seq<ContactNode>,
                             taken: seq<ContactNode>, created: seq<ContactNode>)
    requires k < |rest| && rest[k] == PersonNode(uri, before)
    ensures multiset(TreeContacts(rest[k := PersonNode(uri, before + taken + created)])) ==
      multiset(TreeContacts(rest)) + multiset(taken) + multiset(created)
  {
    var rows := rest[k := PersonNode(uri, before + taken + created)];
    ContactsAround(rest, k);
    ContactsAround(rows, k);
    assert rows[..k] == rest[..k] && rows[k + 1..] == rest[k + 1..];
  }

  /** Rows kept in order from `rows` with row `k` replaced are kept in order from `rows` once that row is put back. */
  lemma KeptUnderUpdate(t: seq<Node>, rows: seq<Node>, p: nat, k: nat, y: Node)
    requires p < |t| && k < |rows| && KeptInOrder(t[p := y], rows[k := y], p, k)
    ensures KeptInOrder(t[p := rows[k]], rows, p, k)
  {
    var idx :| Picks(t[p := y], rows[k := y], idx) && p < |idx| && idx[p] == k;
    assert Picks(t[p := rows[k]], rows, idx);
  }

  /** Replacing one row is adding the new row and removing the old one. */
  lemma UpdateMultiset(s: seq<Node>, i: nat, x: Node)
    requires i < |s|
    ensures multiset(s[i := x]) + multiset{s[i]} == multiset(s) + multiset{x}
  {
    assert s == s[..i] + [s[i]] + s[i + 1..];
    assert s[i := x] == s[..i] + [x] + s[i + 1..];
  }

  /** The multiset accounting of AddContacts carries over to the rows before the person's row was edited. */
  lemma ReplacedAgain(rows: seq<Node>, p: nat, old0: seq<Node>, k: nat, y: Node, l: multiset<Node>)
    requires p < |rows| && k < |old0|
    requires multiset(rows[p := y]) + l == multiset(old0[k := y])
    ensures multiset(rows[p := old0[k]]) + l == multiset(old0)
  {
    var back, mid, before := multiset(rows[p := old0[k]]), multiset(rows[p := y]), multiset(old0[k := y]);
    assert mid + multiset{old0[k]} == back + multiset{y} by {
      UpdateMultiset(rows[p := y], p, old0[k]);
      assert rows[p := y][p := old0[k]] == rows[p := old0[k]];
    }
    assert before + multiset{old0[k]} == multiset(old0) + multiset{y} by {
      UpdateMultiset(old0, k, y);
    }
    forall u
      ensures (back + l)[u] == multiset(old0)[u]
    {
      assert (mid + l)[u] == before[u];
      assert (mid + multiset{old0[k]})[u] == (back + multiset{y})[u];
      assert (before + multiset{old0[k]})[u] == (multiset(old0) + multiset{y})[u];
    }
  }

  /** With distinct uris, AddContacts adds no uri twice and moves every top-level row it can. */
  lemma AddedWithoutRepeats(rows: seq<Node>, before: seq<ContactNode>, uris: seq<string>, contacts: seq<string>,
                            taken: seq<ContactNode>, created: seq<ContactNode>, after: seq<ContactNode>)
    requires NoDuplicates(uris)
    requires forall u :: u in uris && u !in ChildUris(before) ==> u in contacts
    requires NoDuplicates(contacts) && forall u :: u in contacts ==> u !in ChildUris(before)
    requires forall u :: u in contacts && FirstLeaf(rows, u).Some? ==> FirstLeaf(rows, u).value in taken
    requires after == before + taken + created
    requires forall n :: n in after[|before|..] ==> n.uri in contacts
    ensures forall n :: n in after[|before|..] ==> n.uri !in ChildUris(before)
    ensures forall u :: u in uris && u !in ChildUris(before) && FirstLeaf(rows, u).Some? ==>
      FirstLeaf(rows, u).value in after
  {
    forall u | u in uris && u !in ChildUris(before) && FirstLeaf(rows, u).Some?
      ensures FirstLeaf(rows, u).value in after
    {
      var n := FirstLeaf(rows, u).value;
      var i :| 0 <= i < |taken| && taken[i] == n;
      assert after[|before| + i] == n;
    }
  }

  /** The contact rows AddContacts appends come from the requested uris and skip the existing children. */
  lemma AddedChildren(before: seq<ContactNode>, uris: seq<string>, contacts: seq<string>,
                      taken: seq<ContactNode>, remaining: seq<string>, after: seq<ContactNode>)
    requires forall u :: u in contacts ==> u in uris
    requires forall u :: u in uris && u !in ChildUris(before) ==> u in contacts
    requires forall n :: n in taken ==> n.uri in contacts
    requires forall u :: u in remaining ==> u in contacts
    requires forall u :: u in contacts ==> u in remaining || u in ChildUris(taken)
    requires after == before + taken + FreshRows(remaining)
    ensures |before| <= |after| && after[..|before|] == before
    ensures forall u :: u in uris ==> u in ChildUris(after)
    ensures forall n :: n in after[|before|..] ==> n.uri in contacts && (n in taken || n == Fresh(n.uri))
  {
    assert after[..|before|] == before;
    AppendedCover(before, uris, contacts, taken, remaining, after);
    AppendedFrom(before, contacts, taken, remaining, after);
  }

  /** Every listed uri is an existing child's, a taken contact's or a created one's. */
  lemma AppendedCover(before: seq<ContactNode>, uris: seq<string>, contacts: seq<string>,
                      taken: seq<ContactNode>, remaining: seq<string>, after: seq<ContactNode>)
    requires forall u :: u in uris && u !in ChildUris(before) ==> u in contacts
    requires forall u :: u in contacts ==> u in remaining || u in ChildUris(taken)
    requires after == before + taken + FreshRows(remaining)
    ensures forall u :: u in uris ==> u in ChildUris(after)
  {
    var b, t := |before|, |taken|;
    forall u | u in uris
      ensures u in ChildUris(after)
    {
      if u in ChildUris(before) {
        var i :| 0 <= i < b && before[i].uri == u;
        assert after[i] == before[i];
        assert ChildUris(after)[i] == u;
      } else if u in remaining {
        var i :| 0 <= i < |remaining| && remaining[i] == u;
        assert after[b + t + i] == Fresh(remaining[i]);
        assert ChildUris(after)[b + t + i] == u;
      } else {
        var i :| 0 <= i < t && taken[i].uri == u;
        assert after[b + i] == taken[i];
        assert ChildUris(after)[b + i] == u;
      }
    }
  }

  /** Every appended child is a taken contact or a created row, for a uri still to add. */
  lemma AppendedFrom(before: seq<ContactNode>, contacts: seq<string>,
                     taken: seq<ContactNode>, remaining: seq<string>, after: seq<ContactNode>)
    requires forall n :: n in taken ==> n.uri in contacts
    requires forall u :: u in remaining ==> u in contacts
    requires after == before + taken + FreshRows(remaining)
    ensures forall n :: n in after[|before|..] ==> n.uri in contacts && (n in taken || n == Fresh(n.uri))
  {
    assert after[|before|..] == taken + FreshRows(remaining);
    forall n | n in taken + FreshRows(remaining)
      ensures n.uri in contacts && (n in taken || n == Fresh(n.uri))
    {
      if n !in taken {
        var i :| 0 <= i < |remaining| && FreshRows(remaining)[i] == n;
        assert remaining[i] in remaining;
      }
    }
  }

  /** One pass of removePersonFromModel's loop: the person's first remaining child becomes the last top-level row. */
  lemma MoveFirstChild(base: seq<Node>, k: nat, uri: string, cs: seq<ContactNode>, i: nat)
    requires k < |base| && i < |cs|
    ensures var rows := base[k := PersonNode(uri, cs[i..])] + Leaves(cs[..i]);
      rows[k].children != [] &&
      rows[k := PersonNode(uri, rows[k].children[1..])] + [ContactLeaf(rows[k].children[0])] ==
      base[k := PersonNode(uri, cs[i + 1..])] + Leaves(cs[..i + 1])
  {
    var rows := base[k := PersonNode(uri, cs[i..])] + Leaves(cs[..i]);
    assert rows[k] == PersonNode(uri, cs[i..]);
    assert cs[i..][1..] == cs[i + 1..] && cs[i..][0] == cs[i];
    assert rows[k := PersonNode(uri, cs[i + 1..])] == base[k := PersonNode(uri, cs[i + 1..])] + Leaves(cs[..i]);
    assert Leaves(cs[..i + 1]) == Leaves(cs[..i]) + [ContactLeaf(cs[i])];
  }

  /** Taking row `k` out of a table whose row `k` was replaced leaves the other rows, then what was appended. */
  lemma DropPersonRow(base: seq<Node>, k: nat, x: Node, tail: seq<Node>)
    requires k < |base|
    ensures var rows := base[k := x] + tail;
      rows[..k] + rows[k + 1..] == base[..k] + base[k + 1..] + tail
  {
    var rows := base[k := x] + tail;
    assert rows[..k] == base[..k];
    assert rows[k + 1..] == base[k + 1..] + tail;
  }

  /** Removing a person keeps every contact of the tree. */
  lemma RemovedPersonKeepsContacts(rows: seq<Node>, k: nat)
    requires k < |rows| && rows[k].PersonNode?
    ensures multiset(TreeContacts(rows[..k] + rows[k + 1..] + Leaves(rows[k].children))) == multiset(TreeContacts(rows))
  {
    var cs := rows[k].children;
    var pre, post := rows[..k], rows[k + 1..];
    ContactsAround(rows, k);
    ContactsWithLeaves(pre, post, cs);
    SwapMiddle(TreeContacts(pre), cs, TreeContacts(post));
  }

  lemma ContactsAround(rows: seq<Node>, k: nat)
    requires k < |rows|
    ensures TreeContacts(rows) == TreeContacts(rows[..k]) + RowContacts(rows[k]) + TreeContacts(rows[k + 1..])
  {
    var pre, here, post := rows[..k], rows[k..], rows[k + 1..];
    assert TreeContacts(rows) == TreeContacts(pre) + TreeContacts(here) by {
      assert pre + here == rows;
      TreeContactsAppend(pre, here);
    }
    assert TreeContacts(here) == RowContacts(rows[k]) + TreeContacts(post) by {
      assert here[0] == rows[k] && here[1..] == post;
    }
    Regroup(TreeContacts(pre), RowContacts(rows[k]), TreeContacts(post));
  }

  lemma ContactsWithLeaves(pre: seq<Node>, post: seq<Node>, cs: seq<ContactNode>)
    ensures TreeContacts(pre + post + Leaves(cs)) == TreeContacts(pre) + TreeContacts(post) + cs
  {
    TreeContactsAppend(pre + post, Leaves(cs));
    TreeContactsAppend(pre, post);
    LeavesContacts(cs);
  }

  lemma Regroup(a: seq<ContactNode>, b: seq<ContactNode>, c: seq<ContactNode>)
    ensures a + (b + c) == a + b + c
  {
  }

  lemma SwapMiddle(a: seq<ContactNode>, b: seq<ContactNode>, c: seq<ContactNode>)
    ensures multiset(a + c + b) == multiset(a + b + c)
  {
  }

  lemma {:induction false} LeavesContacts(cs: seq<ContactNode>)
    ensures TreeContacts(Leaves(cs)) == cs
  {
    if cs != [] {
      LeavesContacts(cs[1..]);
      assert Leaves(cs)[1..] == Leaves(cs[1..]);
    }
  }

  /**
   * The contact found for an IM account: the contact at the first row, in
   * pre-order, with that account; none when no row has it or when that first
   * row is a person.
   */
  function ContactForIMAccount(rows: seq<Node>, account: string): (c: Option<ContactNode>)
    ensures c.Some? ==> exists q :: (ValidPath(rows, q) && DataAt(rows, q, IMAccountUri) == Url(account) &&
      (if |q| == 1 then rows[q[0]] == ContactLeaf(c.value) else rows[q[0]].children[q[1]] == c.value))
    ensures forall q :: FirstMatch(rows, IMAccountUri, Url(account), q) ==> c == ContactAt(rows, q)
    ensures (forall q :: ValidPath(rows, q) ==> DataAt(rows, q, IMAccountUri) != Url(account)) ==> c.None?
  {
    FindRecursivelyIsFirst(rows, IMAccountUri, Url(account));
    var idx := FindRecursively(rows, IMAccountUri, Url(account));
    FirstMatchAt(rows, IMAccountUri, Url(account), idx);
    if idx.Invalid? then None
    else if |idx.path| == 2 then Some(rows[idx.path[0]].children[idx.path[1]])
    else if rows[idx.path[0]].ContactLeaf? then Some(rows[idx.path[0]].contact)
    else None
  }

  /** Every first match is the index the search returns. */
  lemma FirstMatchAt(rows: seq<Node>, role: Role, value: Variant, idx: Index)
    requires idx == FindRecursively(rows, role, value)
    ensures forall q :: FirstMatch(rows, role, value, q) ==> idx.At? && idx.path == q
  {
    FindRecursivelyIsFirst(rows, role, value);
    forall q | FirstMatch(rows, role, value, q)
      ensures idx.At? && idx.path == q
    {
      FirstMatchUnique(rows, role, value, idx.path, q);
    }
  }
}

=== FILE: values.dfy ===
/**
 * Value types shared by the persons layer: optional values, decimal numerals,
 * the item-data roles, Qt's dynamically typed variant value and model indexes.
 */
module Values {

  datatype Option<T> = None | Some(value: T)

  predicate StartsWith(s: string, prefix: string)
  {
    |prefix| <= |s| && s[..|prefix|] == prefix
  }

  /** Removes the first occurrence of `x`, like QList::removeOne. */
  function RemoveOne<T(==)>(s: seq<T>, x: T): (r: seq<T>)
    ensures x !in s ==> r == s
    ensures x in s ==> |r| == |s| - 1 && multiset(r) == multiset(s) - multiset{x}
  {
    if s == [] then []
    else if s[0] == x then
      assert s == [x] + s[1..];
      s[1..]
    else
      assert s == [s[0]] + s[1..];
      [s[0]] + RemoveOne(s[1..], x)
  }

  predicate NoDuplicates<T(==)>(s: seq<T>)
  {
    forall i, j :: 0 <= i < j < |s| ==> s[i] != s[j]
  }

  /** Removes the first occurrence of each value of `xs` in turn, like a loop of QList::removeOne. */
  function DropAll<T(==)>(s: seq<T>, xs: seq<T>): seq<T>
  {
    if xs == [] then s else RemoveOne(DropAll(s, xs[..|xs| - 1]), xs[|xs| - 1])
  }

  /** Removing one more value removes its first occurrence from what is left. */
  lemma DropAllSnoc<T>(s: seq<T>, xs: seq<T>, x: T)
    ensures DropAll(s, xs + [x]) == RemoveOne(DropAll(s, xs), x)
  {
    assert (xs + [x])[..|xs|] == xs;
  }

  /** Each removal takes away one occurrence, when there is one left. */
  lemma {:induction false} DropAllMultiset<T>(s: seq<T>, xs: seq<T>)
    ensures multiset(DropAll(s, xs)) == multiset(s) - multiset(xs)
  {
    if xs != [] {
      var init, x := xs[..|xs| - 1], xs[|xs| - 1];
      assert xs == init + [x];
      DropAllMultiset(s, init);
      var d := DropAll(s, init);
      assert multiset(d)[x] > 0 <==> x in d;
      forall y
        ensures multiset(DropAll(s, xs))[y] == (multiset(s) - multiset(xs))[y]
      {
        if y == x && x in d {
          assert multiset(d)[x] > 0;
        }
      }
      assert multiset(DropAll(s, xs)) == multiset(s) - multiset(xs);
    }
  }

  /**
   * What is left holds only values of `s`, every value of `s` not removed,
   * and, for a repeat-free `s`, no removed value and no repeat.
   */
  lemma DropAllMembers<T>(s: seq<T>, xs: seq<T>)
    ensures forall u :: u in DropAll(s, xs) ==> u in s
    ensures forall u :: u in s && u !in xs ==> u in DropAll(s, xs)
    ensures NoDuplicates(s) ==> NoDuplicates(DropAll(s, xs)) && forall u :: u in DropAll(s, xs) ==> u !in xs
  {
    DropAllMultiset(s, xs);
    DropAllKept(s, xs, DropAll(s, xs));
    if NoDuplicates(s) {
      DropAllDistinct(s, xs, DropAll(s, xs));
    }
  }

  lemma DropAllKept<T>(s: seq<T>, xs: seq<T>, d: seq<T>)
    requires multiset(d) == multiset(s) - multiset(xs)
    ensures forall u :: u in d ==> u in s
    ensures forall u :: u in s && u !in xs ==> u in d
  {
    forall u | u in d
      ensures u in s
    {
      assert multiset(d)[u] > 0;
    }
    forall u | u in s && u !in xs
      ensures u in d
    {
      assert multiset(s)[u] > 0 && multiset(xs)[u] == 0;
      assert multiset(d)[u] == multiset(s)[u];
    }
  }

  lemma DropAllDistinct<T>(s: seq<T>, xs: seq<T>, d: seq<T>)
    requires multiset(d) == multiset(s) - multiset(xs) && NoDuplicates(s)
    ensures NoDuplicates(d) && forall u :: u in d ==> u !in xs
  {
    assert multiset(d) <= multiset(s);
    NoDuplicatesBelow(d, s);
    forall u | u in d
      ensures u !in xs
    {
      OnceCounted(s, u);
      assert multiset(d)[u] > 0;
    }
  }

  /** `a` is `b` with some elements left out, order kept. */
  predicate Subsequence<T(==)>(a: seq<T>, b: seq<T>)
  {
    if a == [] then true
    else if b == [] then false
    else if a[0] == b[0] then Subsequence(a[1..], b[1..])
    else Subsequence(a, b[1..])
  }

  lemma {:induction false} SubsequenceRefl<T>(a: seq<T>)
    ensures Subsequence(a, a)
  {
    if a != [] {
      SubsequenceRefl(a[1..]);
    }
  }

  /** An element put in front of the longer sequence keeps a subsequence one. */
  lemma {:induction false} SubsequenceCons<T>(a: seq<T>, y: T, b: seq<T>)
    requires Subsequence(a, b)
    ensures Subsequence(a, [y] + b)
    decreases |b|
  {
    assert ([y] + b)[1..] == b;
    if a != [] && a[0] == y {
      if a[0] == b[0] {
        SubsequenceCons(a[1..], b[0], b[1..]);
        assert [b[0]] + b[1..] == b;
      } else {
        SubsequenceCons(a, y, b[1..]);
        assert ([y] + b[1..])[1..] == b[1..];
        SubsequenceCons(a[1..], b[0], b[1..]);
        assert [b[0]] + b[1..] == b;
      }
    }
  }

  /** Leaving out the first element keeps a subsequence one. */
  lemma {:induction false} SubsequenceTail<T>(a: seq<T>, b: seq<T>)
    requires a != [] && Subsequence(a, b)
    ensures Subsequence(a[1..], b)
    decreases |b|
  {
    if a[0] == b[0] {
      SubsequenceCons(a[1..], b[0], b[1..]);
    } else {
      SubsequenceTail(a, b[1..]);
      SubsequenceCons(a[1..], b[0], b[1..]);
    }
    assert [b[0]] + b[1..] == b;
  }

  lemma {:induction false} SubsequenceTransitive<T>(a: seq<T>, b: seq<T>, c: seq<T>)
    requires Subsequence(a, b) && Subsequence(b, c)
    ensures Subsequence(a, c)
    decreases |c|
  {
    if a != [] {
      if b[0] == c[0] {
        if a[0] == b[0] {
          SubsequenceTransitive(a[1..], b[1..], c[1..]);
        } else {
          SubsequenceTransitive(a, b[1..], c[1..]);
        }
      } else {
        SubsequenceTransitive(a, b, c[1..]);
        if a[0] == c[0] {
          SubsequenceTail(a, c[1..]);
        }
      }
    }
  }

  /** An element appended to the longer sequence keeps a subsequence one. */
  lemma {:induction false} SubsequenceSnoc<T>(a: seq<T>, b: seq<T>, y: T)
    requires Subsequence(a, b)
    ensures Subsequence(a, b + [y])
    decreases |b|
  {
    if a != [] {
      assert (b + [y])[1..] == b[1..] + [y];
      if a[0] == b[0] {
        SubsequenceSnoc(a[1..], b[1..], y);
      } else {
        SubsequenceSnoc(a, b[1..], y);
      }
    }
  }

  /** The same element appended to both keeps a subsequence one. */
  lemma {:induction false} SubsequenceSnocBoth<T>(a: seq<T>, b: seq<T>, x: T)
    requires Subsequence(a, b)
    ensures Subsequence(a + [x], b + [x])
    decreases |b|
  {
    if b != [] {
      assert (b + [x])[1..] == b[1..] + [x];
      if a == [] {
        assert a + [x] == [x];
        if b[0] != x {
          SubsequenceSnocBoth(a, b[1..], x);
        }
      } else {
        assert (a + [x])[1..] == a[1..] + [x];
        if a[0] == b[0] {
          SubsequenceSnocBoth(a[1..], b[1..], x);
        } else {
          SubsequenceSnocBoth(a, b[1..], x);
        }
      }
    }
  }

  /** A subsequence holds no value more often than the sequence does. */
  lemma {:induction false} SubsequenceMultiset<T>(a: seq<T>, b: seq<T>)
    requires Subsequence(a, b)
    ensures multiset(a) <= multiset(b)
    decreases |b|
  {
    if a != [] {
      assert a == [a[0]] + a[1..] && b == [b[0]] + b[1..];
      if a[0] == b[0] {
        SubsequenceMultiset(a[1..], b[1..]);
      } else {
        SubsequenceMultiset(a, b[1..]);
      }
    }
  }

  /** Removing the first occurrence of a value keeps the order of the rest. */
  lemma {:induction false} RemoveOneSubsequence<T>(s: seq<T>, x: T)
    ensures Subsequence(RemoveOne(s, x), s)
  {
    if s != [] {
      if s[0] == x {
        SubsequenceRefl(s[1..]);
        SubsequenceCons(s[1..], s[0], s[1..]);
        assert [s[0]] + s[1..] == s;
      } else {
        RemoveOneSubsequence(s[1..], x);
        assert ([s[0]] + RemoveOne(s[1..], x))[1..] == RemoveOne(s[1..], x);
      }
    }
  }

  /** Removing values keeps the order of the rest. */
  lemma {:induction false} DropAllSubsequence<T>(s: seq<T>, xs: seq<T>)
    ensures Subsequence(DropAll(s, xs), s)
  {
    if xs == [] {
      SubsequenceRefl(s);
    } else {
      var d := DropAll(s, xs[..|xs| - 1]);
      DropAllSubsequence(s, xs[..|xs| - 1]);
      RemoveOneSubsequence(d, xs[|xs| - 1]);
      SubsequenceTransitive(DropAll(s, xs), d, s);
    }
  }

  /** A value held twice in `s` counts at least twice. */
  /** Leaving out the element at `r` takes exactly that one occurrence out of the multiset. */
  lemma LeaveOut<T>(s: seq<T>, r: nat)
    requires r < |s|
    ensures multiset(s[..r] + s[r + 1..]) + multiset{s[r]} == multiset(s)
  {
    assert s == s[..r] + [s[r]] + s[r + 1..];
  }

  lemma TwiceCounted<T>(s: seq<T>, i: nat, j: nat)
    requires i < j < |s| && s[i] == s[j]
    ensures multiset(s)[s[i]] >= 2
  {
    assert s == s[..i] + [s[i]] + s[i + 1..j] + [s[j]] + s[j + 1..];
  }

  /** A value of a repeat-free sequence counts once. */
  lemma {:induction false} OnceCounted<T>(s: seq<T>, x: T)
    requires NoDuplicates(s)
    ensures multiset(s)[x] <= 1
  {
    if s != [] {
      assert s == [s[0]] + s[1..];
      assert s[0] !in s[1..];
      OnceCounted(s[1..], x);
    }
  }

  /** Holding no value more often than a repeat-free sequence keeps a sequence repeat-free. */
  /** Two repeat-free sequences with no value in common join without repeats. */
  lemma NoDuplicatesAppend<T>(a: seq<T>, b: seq<T>)
    requires NoDuplicates(a) && NoDuplicates(b)
    requires forall x :: x in b ==> x !in a
    ensures NoDuplicates(a + b)
  {
    forall i, j | 0 <= i < j < |a + b|
      ensures (a + b)[i] != (a + b)[j]
    {
      if j < |a| {
        assert (a + b)[i] == a[i] && (a + b)[j] == a[j];
      } else if i < |a| {
        assert (a + b)[i] == a[i] && (a + b)[j] == b[j - |a|];
        assert b[j - |a|] in b;
      } else {
        assert (a + b)[i] == b[i - |a|] && (a + b)[j] == b[j - |a|];
      }
    }
  }

  lemma NoDuplicatesBelow<T>(s: seq<T>, t: seq<T>)
    requires multiset(s) <= multiset(t) && NoDuplicates(t)
    ensures NoDuplicates(s)
  {
    forall i, j | 0 <= i < j < |s|
      ensures s[i] != s[j]
    {
      if s[i] == s[j] {
        TwiceCounted(s, i, j);
        OnceCounted(t, s[i]);
      }
    }
  }

  // ---------------------------------------------------------------------
  // Decimal numerals
  // ---------------------------------------------------------------------

  predicate IsDigit(c: char)
  {
    '0' <= c <= '9'
  }

  predicate AllDigits(s: string)
  {
    forall i :: 0 <= i < |s| ==> IsDigit(s[i])
  }

  /** A non-empty string of decimal digits. */
  predicate IsNumeral(s: string)
  {
    |s| > 0 && AllDigits(s)
  }

  function DigitChar(d: nat): char
    requires d < 10
  {
    ['0', '1', '2', '3', '4', '5', '6', '7', '8', '9'][d]
  }

  function DigitValue(c: char): (d: nat)
    requires IsDigit(c)
    ensures d < 10
  {
    c as int - '0' as int
  }

  /** The value of a string of digits, read from the most significant digit. */
  function ParseNumeral(s: string): nat
    requires AllDigits(s)
  {
    if s == [] then 0
    else ParseNumeral(s[..|s| - 1]) * 10 + DigitValue(s[|s| - 1])
  }

  /** The shortest decimal text of `n`, as QString::number prints it. */
  function DecimalText(n: nat): (r: string)
    ensures IsNumeral(r)
    ensures |r| > 1 ==> r[0] != '0'
  {
    if n < 10 then [DigitChar(n)]
    else DecimalText(n / 10) + [DigitChar(n % 10)]
  }

  lemma {:induction false} ParseDecimalText(n: nat)
    ensures ParseNumeral(DecimalText(n)) == n
  {
    var s := DecimalText(n);
    if n < 10 {
      assert s[..0] == [];
    } else {
      ParseDecimalText(n / 10);
      assert s[..|s| - 1] == DecimalText(n / 10);
    }
  }

  lemma DecimalTextInjective(m: nat, n: nat)
    requires DecimalText(m) == DecimalText(n)
    ensures m == n
  {
    ParseDecimalText(m);
    ParseDecimalText(n);
  }

  /** The range of a C++ int (32 bits). */
  const IntMin: int := -0x8000_0000
  const IntMax: int := 0x7fff_ffff

  /** The range of a qlonglong (64 bits). */
  const LongMin: int := -0x8000_0000_0000_0000
  const LongMax: int := 0x7fff_ffff_ffff_ffff

  /**
   * The int a wider integer converts to by `int(v)`: the one value of the
   * int range congruent to `v` modulo 2^32.
   */
  function TruncateToInt(v: int): (r: int)
    ensures IntMin <= r <= IntMax
    ensures IntMin <= v <= IntMax ==> r == v
  {
    (v - IntMin) % 0x1_0000_0000 + IntMin
  }

  /** The int a wider integer converts to differs from it by a multiple of 2^32. */
  lemma TruncateCongruent(v: int)
    ensures (v - TruncateToInt(v)) % 0x1_0000_0000 == 0
  {
    var x := v - IntMin;
    var q, rem := x / 0x1_0000_0000, x % 0x1_0000_0000;
    assert x == q * 0x1_0000_0000 + rem;
    assert v - TruncateToInt(v) == q * 0x1_0000_0000;
    MultipleOfWord(q);
  }

  lemma MultipleOfWord(q: int)
    ensures (q * 0x1_0000_0000) % 0x1_0000_0000 == 0
  {
  }

  /** A number one more than a multiple of 2^32 becomes the int 1. */
  lemma OneModulo(v: int)
    requires v % 0x1_0000_0000 == 1
    ensures TruncateToInt(v) == 1
  {
    var q := v / 0x1_0000_0000;
    assert v == q * 0x1_0000_0000 + 1;
    assert v - IntMin == q * 0x1_0000_0000 + 0x8000_0001;
  }

  /** One below the int range wraps to its top. */
  lemma BelowIntMin()
    ensures TruncateToInt(IntMin - 1) == IntMax
  {
    assert (IntMin - 1 - IntMin) % 0x1_0000_0000 == 0xffff_ffff;
  }

  /** QChar::isSpace on the Latin-1 range: tab to carriage return, space, NEL and no-break space. */
  predicate IsSpace(c: char)
  {
    c == ' ' || ('\t' <= c <= '\r') || c == '\U{85}' || c == '\U{A0}'
  }

  /** `s` without its leading white space. */
  function TrimStart(s: string): (t: string)
    ensures |t| <= |s| && t == s[|s| - |t|..]
    ensures t == [] || !IsSpace(t[0])
  {
    if s != [] && IsSpace(s[0]) then TrimStart(s[1..]) else s
  }

  /** `s` without its trailing white space. */
  function TrimEnd(s: string): (t: string)
    ensures |t| <= |s| && t == s[..|t|]
    ensures t == [] || !IsSpace(t[|t| - 1])
  {
    if s != [] && IsSpace(s[|s| - 1]) then TrimEnd(s[..|s| - 1]) else s
  }

  /** `s` without white space at either end. */
  function Trimmed(s: string): string
  {
    TrimEnd(TrimStart(s))
  }

  /**
   * QString::toLongLong in base 10: white space around the text is skipped,
   * an optional '+' or '-' is followed by decimal digits and nothing else,
   * and the value must fit a qlonglong; any other text reads as 0.
   */
  function TextToLongLong(s: string): (n: int)
    ensures LongMin <= n <= LongMax
  {
    SignedLong(Trimmed(s))
  }

  /**
   * QVariant::toInt on a string: Qt converts the text with
   * QString::toLongLong and casts the result to int, so a numeral beyond
   * the int range but within the qlonglong range wraps modulo 2^32.
   */
  function TextToInt(s: string): (n: int)
    ensures IntMin <= n <= IntMax
    ensures IsNumeral(s) ==> n == (if ParseNumeral(s) <= LongMax then TruncateToInt(ParseNumeral(s)) else 0)
  {
    TrimmedNumeral(s);
    TruncateToInt(TextToLongLong(s))
  }

  /** Text without a digit reads as 0. */
  lemma TextToIntNeedsDigit(s: string)
    requires forall i :: 0 <= i < |s| ==> !IsDigit(s[i])
    ensures TextToInt(s) == 0
  {
    TrimmedDigit(s);
  }

  /** A numeral has no white space to trim. */
  lemma TrimmedNumeral(s: string)
    ensures IsNumeral(s) ==> Trimmed(s) == s
  {
    if IsNumeral(s) {
      TrimmedDecimal(s);
    }
  }

  /** A trimmed text holding a signed numeral holds a digit of the original text. */
  lemma TrimmedDigit(s: string)
    ensures SignedNumeral(Trimmed(s)) ==> exists i :: 0 <= i < |s| && IsDigit(s[i])
  {
    var t := Trimmed(s);
    if SignedNumeral(t) {
      var digits := if t[0] == '-' || t[0] == '+' then t[1..] else t;
      assert IsDigit(digits[0]) && digits[0] in t;
      assert t == TrimStart(s)[..|t|];
      assert digits[0] in TrimStart(s);
    }
  }

  /** An optional sign followed by decimal digits. */
  predicate SignedNumeral(t: string)
  {
    if t != [] && (t[0] == '-' || t[0] == '+') then IsNumeral(t[1..]) else IsNumeral(t)
  }

  /** The qlonglong a trimmed text reads as: its signed value when that fits, else 0. */
  function SignedLong(t: string): (n: int)
    ensures LongMin <= n <= LongMax
    ensures !SignedNumeral(t) ==> n == 0
    ensures IsNumeral(t) ==> n == (if ParseNumeral(t) <= LongMax then ParseNumeral(t) else 0)
  {
    var digits := if t != [] && (t[0] == '-' || t[0] == '+') then t[1..] else t;
    if !IsNumeral(digits) then 0
    else
      var v := if t[0] == '-' then -(ParseNumeral(digits) as int) else ParseNumeral(digits);
      if LongMin <= v <= LongMax then v else 0
  }

  /** Decimal text without white space is its own trimmed form. */
  lemma TrimmedDecimal(s: string)
    requires IsNumeral(s) || (|s| > 1 && s[0] == '-' && IsNumeral(s[1..]))
    ensures Trimmed(s) == s
  {
    assert !IsSpace(s[|s| - 1]);
  }

  /**
   * The decimal text of a number reads back as that number wrapped into the
   * int range when it fits a qlonglong, and as 0 beyond LongMax.
   */
  lemma {:induction false} TextToIntDecimal(n: nat)
    ensures n <= LongMax ==> TextToInt(DecimalText(n)) == TruncateToInt(n)
    ensures n > LongMax ==> TextToInt(DecimalText(n)) == 0
  {
    LongLongDecimal(n);
    TextToIntOfLong(DecimalText(n));
  }

  /** The decimal text of a number reads back as a qlonglong as that number when it fits, else as 0. */
  lemma {:induction false} LongLongDecimal(n: nat)
    ensures TextToLongLong(DecimalText(n)) == if n <= LongMax then n else 0
  {
    var t := DecimalText(n);
    ParseDecimalText(n);
    LongLongNumeral(t);
  }

  /** A numeral reads as a qlonglong as its value when that fits, else as 0. */
  lemma LongLongNumeral(t: string)
    requires IsNumeral(t)
    ensures TextToLongLong(t) == if ParseNumeral(t) <= LongMax then ParseNumeral(t) else 0
  {
    assert TextToLongLong(t) == SignedLong(t) by {
      TrimmedNumeral(t);
    }
  }

  /**
   * A minus sign before the decimal text of a number reads back as its
   * negation wrapped into the int range when that fits a qlonglong, and as 0
   * below LongMin.
   */
  lemma {:induction false} TextToIntNegative(n: nat)
    ensures -(n as int) >= LongMin ==> TextToInt("-" + DecimalText(n)) == TruncateToInt(-(n as int))
    ensures -(n as int) < LongMin ==> TextToInt("-" + DecimalText(n)) == 0
  {
    LongLongNegative(n);
    TextToIntOfLong("-" + DecimalText(n));
  }

  /** A minus sign before the decimal text of a number reads back as a qlonglong as its negation when that fits, else as 0. */
  lemma {:induction false} LongLongNegative(n: nat)
    ensures TextToLongLong("-" + DecimalText(n)) == if -(n as int) >= LongMin then -(n as int) else 0
  {
    ParseDecimalText(n);
    LongLongMinus(DecimalText(n));
  }

  /** QVariant::toInt of a string is the int its qlonglong value converts to. */
  lemma TextToIntOfLong(s: string)
    ensures TextToInt(s) == TruncateToInt(TextToLongLong(s))
  {
  }

  /** A minus sign before a numeral reads as a qlonglong as the numeral's negation when that fits, else as 0. */
  lemma LongLongMinus(d: string)
    requires IsNumeral(d)
    ensures var v := -(ParseNumeral(d) as int);
      TextToLongLong("-" + d) == if v >= LongMin then v else 0
  {
    var t := "-" + d;
    assert TextToLongLong(t) == SignedLong(t) by {
      assert t[1..] == d;
      TrimmedDecimal(t);
    }
    assert t[0] == '-' && t[1..] == d;
  }

  /** Trimming the start commutes with appending a character that is not white space. */
  lemma {:induction false} TrimStartAppend(s: string, c: char)
    ensures TrimStart(s + [c]) == if IsSpace(c) && TrimStart(s) == [] then [] else TrimStart(s) + [c]
  {
    if s != [] {
      assert (s + [c])[0] == s[0] && (s + [c])[1..] == s[1..] + [c];
      TrimStartAppend(s[1..], c);
    } else {
      assert s + [c] == [c];
    }
  }

  /** White space before or after the text does not change the value read. */
  lemma TextToIntSpaces(s: string, c: char)
    requires IsSpace(c)
    ensures TextToInt([c] + s) == TextToInt(s)
    ensures TextToInt(s + [c]) == TextToInt(s)
  {
    TrimmedSpaceBefore(s, c);
    TrimmedSpaceAfter(s, c);
    assert TextToLongLong([c] + s) == SignedLong(Trimmed([c] + s));
    assert TextToLongLong(s + [c]) == SignedLong(Trimmed(s + [c]));
    assert TextToLongLong(s) == SignedLong(Trimmed(s));
  }

  lemma TrimmedSpaceBefore(s: string, c: char)
    requires IsSpace(c)
    ensures Trimmed([c] + s) == Trimmed(s)
  {
    assert ([c] + s)[1..] == s;
  }

  lemma TrimmedSpaceAfter(s: string, c: char)
    requires IsSpace(c)
    ensures Trimmed(s + [c]) == Trimmed(s)
  {
    TrimStartAppend(s, c);
    var t := TrimStart(s);
    if t != [] {
      assert (t + [c])[..|t + [c]| - 1] == t;
    }
  }

  // ---------------------------------------------------------------------
  // Roles and variants
  // ---------------------------------------------------------------------

  /** The item-data roles used by the persons model (Qt::DisplayRole and PersonsModel::Role). */
  datatype Role =
    | Display | Name | Uri | Email | Phone | ContactId | ContactType | IM | Nick | Label
    | Photo | ContactsCount | ResourceType | Status | IMAccountType | IMAccountUri
    | ContactGroups | FullNames | Nicknames | Emails | Phones

  /** PersonsModel::ResourceType. */
  datatype ResourceKind = PersonResource | ContactResource

  /** PersonsModel::ContactType. */
  datatype ContactKind = EmailContact | IMContact | PhoneContact | MobilePhoneContact | PostalContact

  /** The enumerator a number names when cast to PersonsModel::ContactType. */
  function ContactKindOf(n: int): (k: Option<ContactKind>)
    ensures k.Some? <==> 0 <= n < 5
  {
    if n == 0 then Some(EmailContact)
    else if n == 1 then Some(IMContact)
    else if n == 2 then Some(PhoneContact)
    else if n == 3 then Some(MobilePhoneContact)
    else if n == 4 then Some(PostalContact)
    else None
  }

  /** QVariant restricted to the kinds of value the persons layer stores. */
  datatype Variant =
    | Null
    | Str(s: string)
    | StrList(strings: seq<string>)
    | List(items: seq<Variant>)
    | Int(n: int)
    | Url(url: string)
    | Resource(kind: ResourceKind)

  /** QVariant::toString. */
  function ToText(v: Variant): (t: string)
    ensures v.Null? ==> t == ""
    ensures v.Str? ==> t == v.s
    ensures v.Url? ==> t == v.url
  {
    match v
    case Null => ""
    case Str(s) => s
    case StrList(ss) => if |ss| == 1 then ss[0] else ""
    case List(_) => ""
    case Int(n) => if n < 0 then "-" + DecimalText(-n) else DecimalText(n)
    case Url(u) => u
    case Resource(k) => if k == PersonResource then "0" else "1"
  }

  /** QVariant::toInt. */
  function ToInt(v: Variant): (n: int)
    ensures v.Int? ==> n == v.n
    ensures v.Str? ==> IntMin <= n <= IntMax
    ensures v.Null? || v.Url? || v.List? || v.StrList? ==> n == 0
  {
    match v
    case Str(s) => TextToInt(s)
    case StrList(ss) => 0
    case Int(n) => n
    case Resource(k) => if k == PersonResource then 0 else 1
    case _ => 0
  }

  /** QVariant::toList: a string list converts element by element, any other non-list is empty. */
  function ToList(v: Variant): (l: seq<Variant>)
    ensures v.List? ==> l == v.items
    ensures !v.List? && !v.StrList? ==> l == []
  {
    match v
    case List(items) => items
    case StrList(ss) => seq(|ss|, i requires 0 <= i < |ss| => Str(ss[i]))
    case _ => []
  }

  /** QModelIndex: invalid, or the row path from the root of the model. */
  datatype Index = Invalid | At(path: seq<nat>)
}
